=== FILE: README.md ===
# Perga web client: planner lists, edit rows, session and utilities

A Dafny model of the client-side logic of the Perga planner web application
(dbtiunov/perga-web, TypeScript/React). It covers the parts of the client that
decide what the user sees and what is sent to the server:

- the three list hooks of the planner: agenda items keyed by agenda, the
  settings screen's agenda list, and the items of the selected day and the day
  after. Each handler is a pure transition from an explicit state to a new
  state plus the requests it issues and the error toasts it shows. Every
  `await` splits a handler into a step before the request and a step that
  takes the request's outcome (`Ok(response)` or `Err`). This is how the
  single-flight lock, the optimistic merge, the rollback and the deferred
  drag-reorder commit are stated across interleavings without a scheduler;
- the drag-over list surgery of the agenda column and of the day panes
  (`splice` out, `splice` in), the drag-end sequencing, the draft rows
  (`id -1`) and the collapse flags;
- the per-row edit machines: checkbox and Drop transitions, the
  Enter/Escape/blur editor shared by agenda items, day items and agenda lines,
  the archive toggle and draggability rule, the copy/move/snooze targets, and
  the agenda actions menu;
- the two profile forms: `hasChanges`, the patch of changed fields, and the
  password form;
- the token store in `localStorage`, the request interceptor, the 401
  refresh-and-retry decision, and the signed-in session of the auth context;
- the pure utilities: the guarded `localStorage` helpers and their boolean
  and JSON codecs, the `YYYY-MM-DD` date text (an RFC 3339 section 5.6
  `full-date` for years 1000 to 9999) and its parser, the day/week/month
  helpers on a proleptic Gregorian calendar, the calendar grid and the
  date-selector window, the toast queue, the mobile-header title and the
  `${NAME}` substitution of the config generator.

Dates follow JavaScript's `Date` in the local time zone: a `CalendarDate` has
`month` 0..11 as `getMonth()` returns it. `SetDate`, `MakeDate` and `AddDays`
normalise out-of-range days and months the way `setDate`, `setMonth` and the
`Date(y, m, d)` constructor do. `DayNumber` counts days from 1 January of
year 1 (day 0) and is the reference every date lemma is stated against. `new Date("YYYY-MM-DD")`
reads the text as UTC midnight, so the local date it stands for depends on the
zone offset. The offset is a parameter (`ZoneOffset`, in minutes east of UTC,
one fixed offset per run).

Modules, one per source file or component: `Outcomes`, `Text`, `Dates`,
`Lists` (shared), `DateUtils`, `PlannerDateUtils`, `PlannerItems`,
`AgendaItemsHook`, `SettingsAgendasHook`, `DayItemsHook`, `AgendasView`,
`DayView`, `InlineEdit`, `AgendaItemRow`, `DayItemRow`, `AgendaLine`,
`SettingsPlanner`, `AgendaActions`, `CalendarView`, `DateSelector`, `Storage`,
`AuthApi`, `AuthSession`, `ProfileForm`, `LegacyProfileForm`, `Toasts`,
`MobileHeader`, `ConfigTemplate`.

## Model

| member | source | states |
|---|---|---|
| AgendaItemsHook.Init | src/sections/planner/hooks/usePlannerAgendas.ts:21-34 | the hook starts with no agendas, no item lists, nothing dragged, nothing locked, no recorded or pending orders, and a last month of 0 |
| AgendaItemsHook.FetchAgendasCall | src/sections/planner/hooks/usePlannerAgendas.ts:39 | the agenda fetch asks for monthly and custom agendas with the planner's API text of the date |
| AgendaItemsHook.FetchItemsCalls | src/sections/planner/hooks/usePlannerAgendas.ts:53-59 | no request exactly when the id list is empty; otherwise one items request with exactly those ids |
| AgendaItemsHook.AgendasFetched | src/sections/planner/hooks/usePlannerAgendas.ts:37-50 | the agendas are stored and their items are requested by exactly their ids; no request for an empty agenda list; a failure changes nothing |
| AgendaItemsHook.ItemsFetched | src/sections/planner/hooks/usePlannerAgendas.ts:53-68 | the fetched lists replace their agendas' lists, every other list is kept, and the key set is the union of both |
| AgendaItemsHook.Refresh | src/sections/planner/hooks/usePlannerAgendas.ts:212-220 | the refresh event changes no state and shows nothing; it sends exactly one agenda fetch, for monthly and custom agendas, whose day text parses back to the selected date |
| AgendaItemsHook.RefreshThenFetched | src/sections/planner/hooks/usePlannerAgendas.ts:37-50 | after a refresh is answered the stored agendas are exactly the fetched ones, the item lists are untouched, and the items are requested for exactly their ids unless the list is empty |
| AgendaItemsHook.RefreshAgreesWithDateChange | src/sections/planner/hooks/usePlannerAgendas.ts:195-220 | a date change that fetches sends the same request as a refresh; in an unchanged month a refresh still fetches while the date change does not |
| AgendaItemsHook.AddCalls | src/sections/planner/hooks/usePlannerAgendas.ts:70-79 | an add makes no request exactly when the text trims to nothing; otherwise one create for that agenda with the untrimmed text |
| AgendaItemsHook.AddCompleted | src/sections/planner/hooks/usePlannerAgendas.ts:75-86 | on success the server's item is appended to the end of that agenda's list as captured when the handler started, other lists come from the same capture; a failure changes nothing |
| AgendaItemsHook.AddIgnoresInterimItems | src/sections/planner/hooks/usePlannerAgendas.ts:80-83 | the list after an add does not depend on the state at completion, only on the captured map |
| AgendaItemsHook.DeleteCalls | src/sections/planner/hooks/usePlannerAgendas.ts:127-129 | one delete request naming only the item, not its agenda |
| AgendaItemsHook.DeleteCompleted | src/sections/planner/hooks/usePlannerAgendas.ts:127-137 | only after success, that agenda keeps exactly the items with another id and every other list is as captured; a failure or a missing agenda changes nothing |
| AgendaItemsHook.AddThenDelete | src/sections/planner/hooks/usePlannerAgendas.ts:127-137 | deleting an item just added with a fresh id gives back the agenda's list from before the add |
| AgendaItemsHook.Optimistic | src/sections/planner/hooks/usePlannerAgendas.ts:101-108 | same length; items with another id are unchanged; items with the edited id become the first such item merged with the changes |
| AgendaItemsHook.BeginUpdate | src/sections/planner/hooks/usePlannerAgendas.ts:94-111 | a locked id or a text trimming to nothing is dropped with no change; otherwise the id is locked, only that agenda's list is replaced by the optimistic one, and one update is sent |
| AgendaItemsHook.CompleteUpdate | src/sections/planner/hooks/usePlannerAgendas.ts:110-124 | the id is unlocked on both paths; success puts the server's item into the map captured before the optimistic step, so changes other agendas made meanwhile are lost; failure restores the captured map and shows the update-failed toast |
| AgendaItemsHook.SecondUpdateDropped | src/sections/planner/hooks/usePlannerAgendas.ts:95-98 | while an update of an item is in flight, any second update of it sends nothing and changes nothing |
| AgendaItemsHook.FailedUpdateRestores | src/sections/planner/hooks/usePlannerAgendas.ts:118-124 | a failed update leaves the whole state exactly as before the edit, lock included |
| AgendaItemsHook.SuccessfulUpdateReplaces | src/sections/planner/hooks/usePlannerAgendas.ts:110-117 | after a successful update the other agendas and the key set are as before and the edited list keeps its length |
| AgendaItemsHook.MissingAgendaKeepsLock | src/sections/planner/hooks/usePlannerAgendas.ts:98-103 | an update for an agenda with no list throws after locking, so the id stays locked and later updates of it are dropped |
| AgendaItemsHook.HandleReorder | src/sections/planner/hooks/usePlannerAgendas.ts:154-167 | each drag-over step records the ids shown just before it, shows the new items, and makes their ids the pending order |
| AgendaItemsHook.SameOrderIsEquality | src/sections/planner/hooks/usePlannerAgendas.ts:177-181 | the skip test (same length, same id at every position) holds exactly when the two orders are equal |
| AgendaItemsHook.ApplyUpdatedOrder | src/sections/planner/hooks/usePlannerAgendas.ts:169-186 | no request exactly when nothing is pending or the pending order equals the recorded one; otherwise one reorder with the pending ids |
| AgendaItemsHook.ReorderCompleted | src/sections/planner/hooks/usePlannerAgendas.ts:185-192 | success makes the sent order the recorded one; failure keeps the state, shows the restoring toast and refetches instead of rolling back |
| AgendaItemsHook.DragEnd | src/sections/planner/hooks/usePlannerAgendas.ts:143-150 | with no dragged item nothing happens; otherwise the drag is cleared and the dragged item's agenda is committed |
| AgendaItemsHook.DragStart | src/sections/planner/hooks/usePlannerAgendas.ts:139-141 | drag start records the dragged item and leaves every other part of the state alone |
| AgendaItemsHook.CommitDependsOnLastStep | src/sections/planner/hooks/usePlannerAgendas.ts:154-183 | after a drag-over step the commit is skipped exactly when that step left the ids as they were |
| AgendaItemsHook.CommitThenNoop | src/sections/planner/hooks/usePlannerAgendas.ts:185-187 | after a successful commit an immediate second commit sends nothing |
| AgendaItemsHook.ReturningGestureStillCommits | src/sections/planner/hooks/usePlannerAgendas.ts:155-158 | dragging an item away and back leaves the list as it was and still sends a reorder |
| AgendaItemsHook.DragStartFixed | src/sections/planner/hooks/usePlannerAgendas.ts:139-141 | the corrected drag start records the order at drag start and forgets any pending order |
| AgendaItemsHook.HandleReorderFixed | src/sections/planner/hooks/usePlannerAgendas.ts:154-167 | the corrected drag-over step shows the new items and sets the pending order without touching the recorded one |
| AgendaItemsHook.GestureOrders | src/sections/planner/hooks/usePlannerAgendas.ts:154-167 | over a whole corrected gesture the recorded order stays and the pending order is the ids of the last step |
| AgendaItemsHook.FixedCommitSkipsUnchangedGesture | src/sections/planner/hooks/usePlannerAgendas.ts:169-183 | with the corrected steps the commit is skipped exactly when the gesture made no step or ended with the ids it started with |
| AgendaItemsHook.SelectedDateChanged | src/sections/planner/hooks/usePlannerAgendas.ts:195-209 | agendas are refetched exactly when the month index differs from the recorded one, which is then updated |
| AgendaItemsHook.MonthGuardMissesJanuary | src/sections/planner/hooks/usePlannerAgendas.ts:195-203 | opening on a January date fetches nothing, and moving to the same month of another year does not refetch |
| AgendaItemsHook.MonthGuardFixed | src/sections/planner/hooks/usePlannerAgendas.ts:195-209 | the corrected guard fetches exactly when year and month differ from the last recorded pair, and records the new pair |
| AgendaItemsHook.FixedGuardFetchesOnMonthChange | src/sections/planner/hooks/usePlannerAgendas.ts:195-209 | with the corrected guard the first date always fetches and a later one fetches exactly when its year or month changed |
| AgendaItemsHook.CopyCalls | src/sections/planner/hooks/usePlannerAgendas.ts:222-224 | one copy request naming the item and the target agenda |
| AgendaItemsHook.CopyCompleted | src/sections/planner/hooks/usePlannerAgendas.ts:222-234 | a copy only appends the server's item to its agenda's list; every other list is unchanged; a failure changes nothing |
| AgendaItemsHook.MoveCalls | src/sections/planner/hooks/usePlannerAgendas.ts:236-238 | one move request naming the item and the target agenda, not the source |
| AgendaItemsHook.RequestsOmitSourceAgenda | src/sections/planner/hooks/usePlannerAgendas.ts:236-238 | the delete and move requests are the same whatever agenda the item was in, and a move sends the same arguments as a copy |
| AgendaItemsHook.MoveCompleted | src/sections/planner/hooks/usePlannerAgendas.ts:236-252 | a move appends the server's item to its agenda's list and, for another source agenda, removes the id from the source list |
| AgendaItemsHook.MoveIntoSameAgendaDuplicates | src/sections/planner/hooks/usePlannerAgendas.ts:241-248 | a move whose target is its own agenda leaves the item in that list twice |
| AgendaItemsHook.MoveCompletedFixed | src/sections/planner/hooks/usePlannerAgendas.ts:236-252 | the corrected move appends to the target list taken after the removal |
| AgendaItemsHook.MoveFixedKeepsOneCopy | src/sections/planner/hooks/usePlannerAgendas.ts:236-252 | with the corrected move the id is in the target list exactly once, as its last entry, and no longer in a different source list |
| AgendaItemsHook.FirstMatch | src/sections/planner/hooks/usePlannerAgendas.ts:259-263 | the position of the first agenda whose lower-cased name contains the lower-cased caption, or -1 when none does |
| AgendaItemsHook.ChooseCopyTargets | src/sections/planner/hooks/usePlannerAgendas.ts:254-274 | current month is the first matching monthly agenda else the first monthly one; next month falls back to the second, then the first; today and tomorrow alias them; custom targets are the custom agendas |
| AgendaItemsHook.CopyTargetsComeFromAgendas | src/sections/planner/hooks/usePlannerAgendas.ts:258-273 | the month targets exist exactly when there is a monthly agenda and are monthly agendas of the list; the custom targets are exactly the custom agendas |
| PlannerItems.ApplyChanges | src/sections/planner/hooks/usePlannerAgendas.ts:104 | the given fields win and every other field of the item is kept |
| PlannerItems.ReplaceAbsent | src/sections/planner/hooks/usePlannerAgendas.ts:114-116 | mapping an id that is not in the list changes nothing |
| PlannerItems.WithoutAgendaItemMembers | src/sections/planner/hooks/usePlannerAgendas.ts:132 | filtering by id keeps exactly the items with another id |
| PlannerItems.WithoutAbsentAgendaItem | src/sections/planner/hooks/usePlannerAgendas.ts:245 | filtering out an id that is not in the list changes nothing |
| PlannerItems.WithoutAbsentDayItem | src/sections/planner/hooks/usePlannerDays.ts:63 | filtering out an id that is not in the day list changes nothing |
| SettingsAgendasHook.Fetched | src/sections/planner/hooks/useSettingsAgendas.ts:21-31 | success makes the list exactly the fetched agendas and keeps the update locks; failure changes nothing. The request carries the types custom and archived, no day, and the third argument `true` |
| SettingsAgendasHook.FetchedReplaces | src/sections/planner/hooks/useSettingsAgendas.ts:21-31 | the list after a fetch does not depend on the list before it, and applying the same answer twice is the same as once |
| SettingsAgendasHook.FetchedThenCreated | src/sections/planner/hooks/useSettingsAgendas.ts:21-48 | an agenda created after a fetch is appended to exactly the fetched list |
| SettingsAgendasHook.ApplyAgendaChanges | src/sections/planner/hooks/useSettingsAgendas.ts:61 | the given name and type win; id, index and counters are kept |
| SettingsAgendasHook.CreateCalls | src/sections/planner/hooks/useSettingsAgendas.ts:33-42 | only the empty name is refused; any other name, blank ones included, is sent as a custom agenda |
| SettingsAgendasHook.CreateCompleted | src/sections/planner/hooks/useSettingsAgendas.ts:38-48 | success appends the new agenda to the end of the current list; failure shows a toast and changes nothing |
| SettingsAgendasHook.Optimistic | src/sections/planner/hooks/useSettingsAgendas.ts:59-64 | same length; other agendas unchanged; the edited id becomes the first such agenda merged with the changes |
| SettingsAgendasHook.BeginUpdate | src/sections/planner/hooks/useSettingsAgendas.ts:51-67 | a locked id or a given name trimming to nothing is dropped; a missing name is not checked; otherwise lock, optimistic list, one update |
| SettingsAgendasHook.CompleteUpdate | src/sections/planner/hooks/useSettingsAgendas.ts:66-80 | the id is always unlocked; success replaces that agenda in the current list; failure restores the snapshot and shows a toast |
| SettingsAgendasHook.SecondUpdateDropped | src/sections/planner/hooks/useSettingsAgendas.ts:53-56 | while an agenda's update is in flight another update of it sends nothing and changes nothing |
| SettingsAgendasHook.FailedUpdateRestores | src/sections/planner/hooks/useSettingsAgendas.ts:74-80 | a failed update leaves the state exactly as before the edit |
| SettingsAgendasHook.SuccessfulUpdateReplaces | src/sections/planner/hooks/useSettingsAgendas.ts:66-73 | after success the server's agenda stands in place of the edited one and every other agenda is as before |
| SettingsAgendasHook.UpdateKeepsInterimCreate | src/sections/planner/hooks/useSettingsAgendas.ts:70-72 | an agenda created while an update was in flight survives the update's success |
| SettingsAgendasHook.BeginDelete | src/sections/planner/hooks/useSettingsAgendas.ts:83-87 | the agenda disappears before the request: exactly the agendas with another id remain |
| SettingsAgendasHook.DeleteCompleted | src/sections/planner/hooks/useSettingsAgendas.ts:86-93 | success changes nothing further; failure restores the list from before the delete and shows a toast |
| SettingsAgendasHook.FailedDeleteRestores | src/sections/planner/hooks/useSettingsAgendas.ts:83-94 | a failed delete gives back exactly the state before it |
| SettingsAgendasHook.BeginReorder | src/sections/planner/hooks/useSettingsAgendas.ts:111-115 | the new list is shown before the request and its ids are sent in list order |
| SettingsAgendasHook.ReorderCompleted | src/sections/planner/hooks/useSettingsAgendas.ts:114-120 | success keeps the new list; failure restores the snapshot and shows a toast |
| SettingsAgendasHook.ReorderRoundTrip | src/sections/planner/hooks/useSettingsAgendas.ts:111-121 | a failed reorder gives back the previous state; a successful one keeps the new list whose ids are the ones sent |
| DayItemsHook.Init | src/sections/planner/hooks/usePlannerDays.ts:17-20 | the hook starts with no items and nothing dragged |
| DayItemsHook.FetchCall | src/sections/planner/hooks/usePlannerDays.ts:23-29 | the fetch asks for the selected day and the calendar day after it |
| DayItemsHook.Fetched | src/sections/planner/hooks/usePlannerDays.ts:23-40 | the items become the selected day's list followed by the next day's; a missing day adds nothing; a failure changes nothing |
| DayItemsHook.ItemsForDate | src/sections/planner/hooks/usePlannerDays.ts:139-142 | every item returned is filed under that date |
| DayItemsHook.ItemsForDateMembers | src/sections/planner/hooks/usePlannerDays.ts:139-142 | an item is returned exactly when it is in the list and filed under that date |
| DayItemsHook.ItemsForDateInOrder | src/sections/planner/hooks/usePlannerDays.ts:139-142 | two items of that day keep their relative list order in the result |
| DayItemsHook.FetchedSplitsByDay | src/sections/planner/hooks/usePlannerDays.ts:23-40 | when the server files each item under its own day, the two panes show exactly the two fetched lists |
| DayItemsHook.AddCalls | src/sections/planner/hooks/usePlannerDays.ts:43-52 | no request exactly when the text trims to nothing; otherwise one create with the untrimmed text for that day |
| DayItemsHook.AddCompleted | src/sections/planner/hooks/usePlannerDays.ts:43-57 | success appends the server's item to the list captured at the call; the input is cleared exactly when a setter was passed, and without one the clear throws and the same error is logged as for a failed create; a failure changes nothing and is logged |
| DayItemsHook.PlannerAddLogsError | src/sections/planner/hooks/usePlannerDays.ts:53-56 | called as the planner calls it, with no setter, a successful add still appends the item but clears nothing and is logged like a failure |
| DayItemsHook.AddCompletedFixed | src/sections/planner/hooks/usePlannerDays.ts:53-57 | the corrected completion logs an error exactly when the create fails and clears the input exactly when it succeeds with a setter given |
| DayItemsHook.FixedAddKeepsList | src/sections/planner/hooks/usePlannerDays.ts:53-54 | the corrected completion leaves the same list and input as the written one |
| DayItemsHook.AddThenDelete | src/sections/planner/hooks/usePlannerDays.ts:53-63 | deleting the item an add just appended, with an id new to the list, gives back the state from before the add |
| DayItemsHook.UpdateCalls | src/sections/planner/hooks/usePlannerDays.ts:69-71 | one update request carrying the id and the changes exactly as given |
| DayItemsHook.DeleteCalls | src/sections/planner/hooks/usePlannerDays.ts:60-62 | one delete request naming the item |
| DayItemsHook.DeleteRemovesRequested | src/sections/planner/hooks/usePlannerDays.ts:60-63 | a successful delete removes exactly the items with the id the request named |
| DayItemsHook.UpdateCompleted | src/sections/planner/hooks/usePlannerDays.ts:69-76 | no guard and no optimism: only after success the items with that id become the server's item; failure changes nothing |
| DayItemsHook.DeleteCompleted | src/sections/planner/hooks/usePlannerDays.ts:60-67 | only after success, exactly the items with that id are gone |
| DayItemsHook.CopyCompleted | src/sections/planner/hooks/usePlannerDays.ts:78-90 | the copy is appended exactly when its day is the day after the selected one |
| DayItemsHook.MarkSnoozed | src/sections/planner/hooks/usePlannerDays.ts:96-99 | same length; items with that id get state snoozed; others are unchanged |
| DayItemsHook.SnoozeCompleted | src/sections/planner/hooks/usePlannerDays.ts:92-113 | on success the original is marked snoozed and the new item is appended exactly when its day is one of the two shown days; failure changes nothing |
| DayItemsHook.SnoozeKeepsEverythingElse | src/sections/planner/hooks/usePlannerDays.ts:96-109 | a snooze changes only the state of the snoozed item; ids, texts and days stay |
| DayItemsHook.DragEnd | src/sections/planner/hooks/usePlannerDays.ts:120-123 | drag end clears the dragged item, keeps the items, and sends one fetch for the selected day and the calendar day after it |
| DayItemsHook.DragStart | src/sections/planner/hooks/usePlannerDays.ts:116-118 | drag start records the dragged item and keeps the items |
| DayItemsHook.DragStartThenEnd | src/sections/planner/hooks/usePlannerDays.ts:116-123 | a drag start followed by drag end leaves the state as it was before the drag |
| DayItemsHook.DragEndThenFetched | src/sections/planner/hooks/usePlannerDays.ts:120-123 | once drag end's fetch is answered, the state is the same whatever it was before the drag, and nothing is dragged |
| DayItemsHook.ReorderCalls | src/sections/planner/hooks/usePlannerDays.ts:125-132 | one reorder request whose ids are the items' ids, one per item, position by position |
| DayItemsHook.ReorderCompleted | src/sections/planner/hooks/usePlannerDays.ts:131-136 | success shows exactly the reordered items and keeps the drag; failure leaves the state as it is at completion |
| DayItemsHook.ReorderRoundTrip | src/sections/planner/hooks/usePlannerDays.ts:125-136 | after success the shown ids are exactly the ids sent; after failure the shown ids are the ones shown before |
| AgendasView.DragOver | src/sections/planner/components/PlannerAgendas/PlannerAgendas.tsx:71-85 | ignored with no dragged item or one from another agenda; otherwise the result is a permutation of the list |
| AgendasView.DragOverMovesDragged | src/sections/planner/components/PlannerAgendas/PlannerAgendas.tsx:75-84 | ignored exactly when the dragged item is already at the hovered index; otherwise it lands there and the others keep their relative order |
| AgendasView.DragOverUndone | src/sections/planner/components/PlannerAgendas/PlannerAgendas.tsx:80-84 | moving the dragged item back from the hovered index restores the list |
| AgendasView.DragEndSequence | src/sections/planner/components/PlannerAgendas/PlannerAgendas.tsx:92-95 | drag end runs the hook's drag end first and then re-applies the shown list as a reorder step |
| AgendasView.DragEndSettlesOrder | src/sections/planner/components/PlannerAgendas/PlannerAgendas.tsx:92-95 | after the drag-end sequence nothing is dragged and neither a commit nor a second drag end sends anything |
| AgendasView.DraftItem | src/sections/planner/components/PlannerAgendas/PlannerAgendas.tsx:105-111 | the draft row has id -1, empty text, state todo and index -1 in that agenda |
| AgendasView.DraftUpdate | src/sections/planner/components/PlannerAgendas/PlannerAgendas.tsx:112-116 | the draft adds an item exactly when the text is given and does not trim to nothing |
| AgendasView.DraftGuardMatchesHook | src/sections/planner/components/PlannerAgendas/PlannerAgendas.tsx:112-116 | the draft's guard and the hook's add guard agree, and both send the same create |
| AgendasView.ToggleCollapse | src/sections/planner/components/PlannerAgendas/PlannerAgendas.tsx:43-48 | toggling flips that agenda's flag and leaves every other flag as it was |
| AgendasView.ToggleTwice | src/sections/planner/components/PlannerAgendas/PlannerAgendas.tsx:43-48 | toggling twice shows every agenda as before |
| AgendasView.ShownRows | src/sections/planner/components/PlannerAgendas/PlannerAgendas.tsx:66-117 | a collapsed agenda shows no rows; an open one shows its items followed by the draft row |
| DayView.DraftItem | src/sections/planner/components/PlannerDay/PlannerDay.tsx:39-45 | the draft day item has id -1, empty text, state todo, index -1 and the UTC date text of the pane's date |
| DayView.DraftDayAndZone | src/sections/planner/components/PlannerDay/PlannerDay.tsx:39-45 | at offset 0 the draft carries the pane's date; east of UTC, at a local time earlier than the offset past midnight, it carries the day before |
| DayView.EmptyItemEdit | src/sections/planner/components/PlannerDay/PlannerDay.tsx:47-51 | editing the draft adds exactly when the text is given and does not trim to nothing |
| DayView.DraggedIndex | src/sections/planner/components/PlannerDay/PlannerDay.tsx:65 | with no dragged item the search yields -1; otherwise the dragged item's position in the full list |
| DayView.DragOver | src/sections/planner/components/PlannerDay/PlannerDay.tsx:61-74 | ignored exactly when the full-list index equals the hovered pane index; otherwise a permutation of all day items with the dragged item at the hovered index of the full list |
| DayView.DragOverWithoutDragMovesLast | src/sections/planner/components/PlannerDay/PlannerDay.tsx:65-73 | with no dragged item `splice(-1, 1)` takes the last item of the full list and moves it to the hovered index |
| DayView.DragOverWithoutDragSwaps | src/sections/planner/components/PlannerDay/PlannerDay.tsx:65-73 | with nothing dragged, hovering the first of a day's two items swaps them |
| DayView.DragOverFilteredIndexMisses | src/sections/planner/components/PlannerDay/PlannerDay.tsx:61-73 | in the second pane the pane index is used on the full list: dragging the first of tomorrow's two items over the second moves it into today's items and tomorrow's pane is unchanged |
| DayView.DragOverFixed | src/sections/planner/components/PlannerDay/PlannerDay.tsx:61-74 | the corrected drag-over ignores a missing dragged item and otherwise permutes the full list |
| DayView.DragOverFixedMovesWithinPane | src/sections/planner/components/PlannerDay/PlannerDay.tsx:61-74 | with the corrected drag-over the pane's list becomes its own list with the dragged item moved to the hovered index, and the items of every other day keep their order |
| DayView.FixedMoveWithinPane | src/sections/planner/components/PlannerDay/PlannerDay.tsx:70-72 | moving an element to the position of the n-th element of a sub-list moves it to index n in that sub-list and leaves the complementary sub-list alone |
| DayView.DragEndCalls | src/sections/planner/components/PlannerDay/PlannerDay.tsx:80-84 | drag end refetches, then sends the full day list as a reorder |
| Lists.IndexOf | src/sections/planner/components/PlannerAgendas/PlannerAgendas.tsx:75 | `findIndex`: the first position holding the id, and -1 exactly when the id is absent |
| Lists.SpliceStart | src/sections/planner/components/PlannerDay/PlannerDay.tsx:71 | `splice` start: a negative start counts from the end and is clamped to 0; a start past the end is clamped to the length |
| Lists.MoveTo | src/sections/planner/components/PlannerAgendas/PlannerAgendas.tsx:80-82 | remove-then-insert gives a permutation with the moved element at the target and the others in their relative order |
| Lists.MoveToInverse | src/sections/planner/components/PlannerAgendas/PlannerAgendas.tsx:80-82 | moving back from the target to the source restores the list |
| Lists.RemoveInsert | src/sections/planner/components/PlannerAgendas/PlannerAgendas.tsx:81-82 | removing what was just inserted at an index gives the list back |
| Lists.InsertRemove | src/sections/planner/components/PlannerAgendas/PlannerAgendas.tsx:81-82 | inserting the removed element where it was gives the list back |
| Lists.FilterMembers | src/sections/planner/hooks/usePlannerDays.ts:141 | an element is kept by `filter` exactly when it is in the list and passes the test |
| Lists.FilterRemove | src/sections/planner/components/PlannerDay/PlannerDay.tsx:71 | removing a passing element of the full list removes it from the filtered list at its count-before position |
| Lists.FilterInsert | src/sections/planner/components/PlannerDay/PlannerDay.tsx:72 | inserting a passing element into the full list inserts it into the filtered list at its count-before position |
| Lists.PositionOfNth | src/sections/planner/components/PlannerDay/PlannerDay.tsx:61-72 | the full-list position of the n-th element of a filtered list |
| AgendaItemRow.ControlsOf | src/sections/planner/components/PlannerAgendas/AgendaItem/AgendaItem.tsx:154-156 | a row is draggable and shows the checkbox and actions exactly when it is not the draft |
| AgendaItemRow.NextCheckboxState | src/sections/planner/components/PlannerAgendas/AgendaItem/AgendaItem.tsx:47-55 | the next state always differs from the current one, is todo or completed, and is completed exactly for todo |
| AgendaItemRow.CheckboxTwice | src/sections/planner/components/PlannerAgendas/AgendaItem/AgendaItem.tsx:47-57 | the checkbox maps todo to completed and every other state to todo, so two clicks give back exactly todo and completed |
| AgendaItemRow.CheckboxUpdate | src/sections/planner/components/PlannerAgendas/AgendaItem/AgendaItem.tsx:47-57 | the checkbox sends only a state, and always a different one from the current state |
| AgendaItemRow.DropUpdate | src/sections/planner/components/PlannerAgendas/AgendaItem/AgendaItem.tsx:59-62 | the Drop action sends, for that item, only the state dropped |
| AgendaItemRow.StateUpdatesKeepText | src/sections/planner/components/PlannerAgendas/AgendaItem/AgendaItem.tsx:47-62 | applying the checkbox or Drop update changes only the state: the next checkbox state, or dropped |
| AgendaItemRow.Edit | src/sections/planner/components/PlannerAgendas/AgendaItem/AgendaItem.tsx:113-133 | the row's editor is the shared editor with draft behaviour for id -1, and exactly its committed texts are sent as text changes |
| AgendaItemRow.DraftEnterAdds | src/sections/planner/components/PlannerAgendas/AgendaItem/AgendaItem.tsx:113-123 | Enter on the draft sends the text, clears the input and stays editing, and the column adds exactly when the text is not blank |
| AgendaItemRow.BlurCommitsThroughHook | src/sections/planner/components/PlannerAgendas/AgendaItem/AgendaItem.tsx:196-201 | blur on an existing item leaves edit mode and sends the text; a blank text is then dropped by the hook's guard |
| AgendaItemRow.CopyPick | src/sections/planner/components/PlannerAgendas/AgendaItem/AgendaItem.tsx:81-85 | a falsy target does nothing; otherwise a copy of the item to that agenda and the picker closes |
| AgendaItemRow.MovePick | src/sections/planner/components/PlannerAgendas/AgendaItem/AgendaItem.tsx:87-91 | a falsy target does nothing; otherwise a move from the item's own agenda to that one and the picker closes |
| AgendaItemRow.MovePickLeavesShownList | src/sections/planner/components/PlannerAgendas/AgendaItem/AgendaItem.tsx:87-91 | a move picked to another agenda removes the item from the list it was shown in |
| DayItemRow.ControlsOf | src/sections/planner/components/PlannerDay/DayItem/DayItem.tsx:159-162 | a day row is draggable and shows checkbox and actions exactly when it is not the draft |
| DayItemRow.CheckboxUpdate | src/sections/planner/components/PlannerDay/DayItem/DayItem.tsx:47-57 | the checkbox sends only a state: completed for todo and todo for every other state |
| DayItemRow.DropUpdate | src/sections/planner/components/PlannerDay/DayItem/DayItem.tsx:93-96 | the Drop action sends only the state dropped |
| DayItemRow.Edit | src/sections/planner/components/PlannerDay/DayItem/DayItem.tsx:123-142 | keys branch on a negative id, blur on id -1; exactly the committed texts are sent as text changes |
| DayItemRow.EditLikeAgendaRows | src/sections/planner/components/PlannerDay/DayItem/DayItem.tsx:123-142 | for ids from -1 up the day row edits like an agenda row; an id below -1 is draft-like for keys but commits on blur |
| DayItemRow.PredefinedDates | src/sections/planner/components/PlannerDay/DayItem/DayItem.tsx:71-75 | for a well-formed item day the targets are next day, next week and next month of that day read as UTC midnight, in that order |
| DayItemRow.CopyCall | src/sections/planner/components/PlannerDay/DayItem/DayItem.tsx:77-80 | a copy is a copy request for that item, and for years 1000 to 9999 its day text parses back to the picked local date |
| DayItemRow.SnoozeCall | src/sections/planner/components/PlannerDay/DayItem/DayItem.tsx:82-85 | a snooze is a snooze request for that item, and for years 1000 to 9999 its day text parses back to the picked local date |
| DayItemRow.CopyAndSnoozeAgree | src/sections/planner/components/PlannerDay/DayItem/DayItem.tsx:77-85 | a copy and a snooze to the same date send the same day and item; different dates send different day texts |
| DayItemRow.NextDayDependsOnZone | src/sections/planner/components/PlannerDay/DayItem/DayItem.tsx:33-75 | at or east of UTC "Next day" is the day after and "Next week" seven days later; west of UTC they are the item's own day and six days later |
| DayItemRow.NextDayWestOfUtcIsSameDay | src/sections/planner/components/PlannerDay/DayItem/DayItem.tsx:33-72 | west of UTC a copy to "Next day" sends the item's own day, not the day after |
| DayItemRow.NextDayWestOfUtcExample | src/sections/planner/components/PlannerDay/DayItem/DayItem.tsx:33-80 | at UTC-5 a copy of an item dated "2024-06-10" to "Next day" is sent for "2024-06-10" |
| DayItemRow.PredefinedDatesFixed | src/sections/planner/components/PlannerDay/DayItem/DayItem.tsx:71-75 | the corrected targets exist exactly for a well-formed item day |
| DayItemRow.FixedDatesFollowItemDay | src/sections/planner/components/PlannerDay/DayItem/DayItem.tsx:71-75 | with the day read as a local date the targets are the next day, seven days on, and the same day next month when it exists |
| AgendaLine.ControlsOf | src/sections/settings/components/SettingsPlanner/AgendaLine/AgendaLine.tsx:56-68 | a line is draggable, a drop target and shows the handle exactly when it is neither the draft nor archived; actions are shown exactly when it is not the draft |
| AgendaLine.ArchiveChanges | src/sections/settings/components/SettingsPlanner/AgendaLine/AgendaLine.tsx:112-114 | the archive button sends only a type: custom exactly when the agenda is archived, archived otherwise |
| AgendaLine.ArchiveTwice | src/sections/settings/components/SettingsPlanner/AgendaLine/AgendaLine.tsx:112-114 | two archive clicks give back exactly custom and archived agendas; a monthly agenda comes back custom |
| AgendaLine.ArchiveFlipsDragging | src/sections/settings/components/SettingsPlanner/AgendaLine/AgendaLine.tsx:56-66 | archiving or unarchiving a line flips whether it can be dragged |
| AgendaLine.Edit | src/sections/settings/components/SettingsPlanner/AgendaLine/AgendaLine.tsx:30-50 | the line's editor is the shared editor with draft behaviour for id -1, and exactly its committed names are sent as name changes |
| AgendaLine.BlankRenameDropped | src/sections/settings/components/SettingsPlanner/AgendaLine/AgendaLine.tsx:87-93 | Enter or blur on a blank name leaves edit mode and sends it, and the hook's guard drops it |
| InlineEdit.Mount | src/sections/planner/components/PlannerAgendas/AgendaItem/AgendaItem.tsx:34-38 | the editor starts editing exactly for the draft, holding the stored text |
| InlineEdit.Clip | src/sections/planner/components/PlannerAgendas/AgendaItem/AgendaItem.tsx:194 | typed text is cut to a prefix of at most the maximum number of characters, and short text is kept whole |
| InlineEdit.React | src/sections/planner/components/PlannerAgendas/AgendaItem/AgendaItem.tsx:113-133 | a text is sent exactly on Enter, or on blur outside the draft; Escape restores the stored text outside the draft; the draft clears on Enter and Escape and keeps editing |
| InlineEdit.DraftStaysEditing | src/sections/planner/components/PlannerAgendas/AgendaItem/AgendaItem.tsx:113-133 | the draft never leaves edit mode, whatever the events |
| InlineEdit.SentTextsFit | src/sections/planner/components/PlannerAgendas/AgendaItem/AgendaItem.tsx:194 | every text the editor sends fits the maximum number of characters |
| InlineEdit.EscapeDiscardsTyping | src/sections/planner/components/PlannerAgendas/AgendaItem/AgendaItem.tsx:124-132 | typing followed by Escape on an existing row sends nothing and shows the stored text again |
| InlineEdit.CommitSendsTyped | src/sections/planner/components/PlannerAgendas/AgendaItem/AgendaItem.tsx:113-123 | typing then Enter sends the typed text once; the draft stays editing with an empty input, other rows leave edit mode |
| SettingsPlanner.DraftLine | src/sections/settings/components/SettingsPlanner/SettingsPlanner.tsx:16-21 | the draft line is id -1, empty name, type custom, index -1 |
| SettingsPlanner.DraftLineEdit | src/sections/settings/components/SettingsPlanner/SettingsPlanner.tsx:23-27 | the draft creates exactly when the name is given and does not trim to nothing, and passes the untrimmed name |
| SettingsPlanner.PageGuardStricterThanHook | src/sections/settings/components/SettingsPlanner/SettingsPlanner.tsx:23-27 | whenever the page creates it sends what the hook would; a name of spaces is refused by the page though the hook would send it |
| SettingsPlanner.Rows | src/sections/settings/components/SettingsPlanner/SettingsPlanner.tsx:38-54 | the fixed Monthly row first, then one line per agenda with the hook's handlers, then the draft line |
| SettingsPlanner.LineUpdate | src/sections/settings/components/SettingsPlanner/SettingsPlanner.tsx:48-54 | existing lines update through the hook's guarded update; the draft only creates |
| SettingsPlanner.LineDelete | src/sections/settings/components/SettingsPlanner/SettingsPlanner.tsx:48-54 | a line can delete exactly when it has the hook's handlers |
| SettingsPlanner.DraftLineOnlyCreates | src/sections/settings/components/SettingsPlanner/SettingsPlanner.tsx:48-54 | the last row is the draft; its edits change no state and issue only creates, and it cannot delete |
| AgendaActions.Click | src/sections/planner/components/PlannerAgendas/AgendaActionsDropdown.tsx:67-74 | an entry click runs the action only when the menu is open and no action is loading, and then marks it loading |
| AgendaActions.ActionDone | src/sections/planner/components/PlannerAgendas/AgendaActionsDropdown.tsx:40-51 | success reloads exactly that agenda's items; failure shows an error, reloads nothing, and closes the menu |
| AgendaActions.Reloads | src/sections/planner/components/PlannerAgendas/AgendaActionsDropdown.tsx:44 | each request of a step becomes a reload of the column, one for one and in order |
| AgendaActions.ReloadDone | src/sections/planner/components/PlannerAgendas/AgendaActionsDropdown.tsx:48-51 | once the reload is done the menu is closed and its entries are enabled again |
| AgendaActions.ActionRun | src/sections/planner/components/PlannerAgendas/AgendaActionsDropdown.tsx:40-51 | a run sends one action, disables the entries, reloads exactly on success, errors exactly on failure, and ends closed with nothing loading |
| AgendaActions.SingleActionInFlight | src/sections/planner/components/PlannerAgendas/AgendaActionsDropdown.tsx:75 | while one action is loading another click sends nothing |
| CalendarView.OrderedDayNames | src/sections/planner/components/Calendar/Calendar.tsx:28-35 | seven names; with a Monday start the day names rotated left by one, otherwise unchanged |
| CalendarView.FirstDayOffset | src/sections/planner/components/Calendar/Calendar.tsx:63-76 | the blank count is the weekday of the 1st, shifted for a Monday start, always 0..6 |
| CalendarView.FirstDayUnderItsHeader | src/sections/planner/components/Calendar/Calendar.tsx:28-76 | the 1st of the month falls under the header naming its weekday, for both week starts |
| CalendarView.DaysInShownMonth | src/sections/planner/components/Calendar/Calendar.tsx:56-60 | day 0 of the next month gives the number of days of the shown month |
| CalendarView.DayButtons | src/sections/planner/components/Calendar/Calendar.tsx:120-123 | one button per day of the shown month, numbered 1 upwards |
| CalendarView.SelectedDays | src/sections/planner/components/Calendar/Calendar.tsx:125-128 | the highlighted day set is the selected day when the shown month and year are the selected date's, and empty otherwise |
| CalendarView.IsSelected | src/sections/planner/components/Calendar/Calendar.tsx:125-128 | a day is highlighted exactly when that day of the shown month is the selected date |
| CalendarView.DateClick | src/sections/planner/components/Calendar/Calendar.tsx:49-53 | clicking a day picks that day of the shown month |
| CalendarView.PreviousMonth | src/sections/planner/components/Calendar/Calendar.tsx:37-41 | from a day up to the 28th, previous shows the month before on the same day |
| CalendarView.NextMonth | src/sections/planner/components/Calendar/Calendar.tsx:43-47 | from a day up to the 28th, next shows the month after on the same day |
| CalendarView.NavigationOvershoots | src/sections/planner/components/Calendar/Calendar.tsx:37-47 | from 31 January "next" shows March, and from 31 March "previous" stays on March |
| CalendarView.PreviousMonthFixed | src/sections/planner/components/Calendar/Calendar.tsx:37-41 | the corrected previous step shows the month before, on its 1st |
| CalendarView.NextMonthFixed | src/sections/planner/components/Calendar/Calendar.tsx:43-47 | the corrected next step shows the month after, on its 1st |
| DateSelector.DatesList | src/sections/planner/components/DateSelector/DateSelector.tsx:37-51 | with the window of five days, the selected date is in the middle and the i-th date is i minus 2 days from it, at the same time of day |
| DateSelector.DatesListOf | src/sections/planner/components/DateSelector/DateSelector.tsx:37-51 | max(1, count) dates, the i-th being the selected date moved by i minus half the count, at the same time of day |
| DateSelector.DateAt | src/sections/planner/components/DateSelector/DateSelector.tsx:43-48 | `setDate` on the window start lands on the expected day for every offset |
| DateSelector.DatesConsecutive | src/sections/planner/components/DateSelector/DateSelector.tsx:45-49 | neighbouring dates of the window are consecutive calendar days |
| DateSelector.SelectedAtMiddle | src/sections/planner/components/DateSelector/DateSelector.tsx:37-51 | a window date is the selected day exactly at index floor(count/2) |
| DateSelector.OnEvent | src/sections/planner/components/DateSelector/DateSelector.tsx:53-120 | the arrows move one day back or forward and keep the time of day; clicking the selected date does nothing, and clicking any other date selects it unchanged; a calendar pick is passed on |
| DateUtils.FormatDateForApi | src/common/utils/date_utils.ts:4-9 | for years 1000 to 9999 the API text is ten characters, digits with hyphens at positions 4 and 7, and parses back to the date |
| DateUtils.ParseFullDate | src/sections/planner/components/PlannerDay/DayItem/DayItem.tsx:33 | only a text of the `YYYY-MM-DD` shape is read as a date |
| DateUtils.FormatParsed | src/common/utils/date_utils.ts:4-9 | a parsed date text whose year does not start with 0 is given back unchanged by the API formatter |
| DateUtils.FormatDateForApiInjective | src/common/utils/date_utils.ts:4-9 | two dates have the same API text exactly when they are equal |
| DateUtils.GetPrevDay | src/common/utils/date_utils.ts:47-51 | the previous calendar day at the same time of day |
| DateUtils.GetNextDay | src/common/utils/date_utils.ts:53-57 | the next calendar day at the same time of day |
| DateUtils.GetNextWeek | src/common/utils/date_utils.ts:59-63 | seven calendar days later at the same time of day |
| DateUtils.GetNextMonth | src/common/utils/date_utils.ts:65-69 | the same day of the next month when it exists, otherwise the overflow into the month after |
| DateUtils.HelpersShiftDayNumber | src/common/utils/date_utils.ts:47-63 | the helpers move the day number by -1, +1 and +7 across month and year ends |
| DateUtils.NextMonthOverflows | src/common/utils/date_utils.ts:65-69 | next month from 31 January 2024 is 2 March 2024 |
| Dates.SetMonth | src/common/utils/date_utils.ts:66-67 | `setMonth` keeps the day of month whenever the target month has it, carrying month overflow into the year |
| DateUtils.IsSameDay | src/common/utils/date_utils.ts:71 | two instants are the same day exactly when their calendar dates are equal, whatever the time of day |
| DateUtils.ParseDayAsUtc | src/sections/planner/components/PlannerDay/DayItem/DayItem.tsx:33 | a day text parses exactly when it is a valid full-date; its local date is that day at or east of UTC and the day before west of it |
| DateUtils.UtcDate | src/sections/planner/components/PlannerDay/PlannerDay.tsx:41 | the UTC date of a local instant is within one day of the local date, and equal to it at offset 0 |
| PlannerDateUtils.FormatDate | src/sections/planner/utils/dateUtils.ts:6-11 | the planner's formatter gives the same text as the shared API formatter |
| PlannerDateUtils.GetNextDate | src/sections/planner/utils/dateUtils.ts:44-48 | the next calendar day at the same time of day, across month and year ends |
| Dates.DayZeroIsLastOfPreviousMonth | src/sections/planner/components/Calendar/Calendar.tsx:59 | `new Date(y, m + 1, 0)` is the last day of month m |
| Dates.NextDay | src/common/utils/date_utils.ts:53-57 | the day before the next day is the day itself |
| Dates.NextDayNumber | src/common/utils/date_utils.ts:53-57 | the next day has the next day number, across month and year ends |
| Dates.PrevDay | src/common/utils/date_utils.ts:47-51 | the day before is an earlier calendar date, at most one year back (the exact day number is stated by PrevDayNumber) |
| Dates.PrevDayNumber | src/common/utils/date_utils.ts:47-51 | the previous day has the day number before |
| Dates.SetDate | src/common/utils/date_utils.ts:53-61 | `setDate(day)` moves the date by the difference of the days, and lands on that day when the month has it |
| Dates.MakeDate | src/sections/planner/components/Calendar/Calendar.tsx:59 | `new Date(y, m, d)` with an in-range month and day is exactly that date |
| Dates.SetDateShift | src/common/utils/date_utils.ts:53-57 | `setDate(getDate() + n)` moves the date by n calendar days |
| Dates.AddDays | src/common/utils/date_utils.ts:53-63 | moving by a positive count gives a later date, by a negative count an earlier one, and by zero the same date (the exact distance is stated by AddDaysNumber) |
| Dates.AddDaysNumber | src/common/utils/date_utils.ts:47-63 | adding n days moves the day number by exactly n |
| Dates.NextPrevInverse | src/common/utils/date_utils.ts:47-57 | the next day of the previous day, and the previous day of the next day, is the day itself |
| Dates.DaysInMonth | src/sections/planner/components/Calendar/Calendar.tsx:56-60 | 28 to 31 days, 29 exactly for February of a leap year |
| Text.Trim | src/sections/planner/hooks/usePlannerAgendas.ts:71 | the trimmed text is no longer than the text, is empty exactly when every character is JavaScript whitespace, has no whitespace at either end, and is the text itself when it has none there |
| Text.Contains | src/sections/MobileHeader.tsx:14 | `includes` holds exactly when the text occurs at some position |
| Text.ToLower | src/sections/planner/hooks/usePlannerAgendas.ts:260 | same length, each ASCII capital letter replaced by its small letter and every other character kept |
| Text.IntToString | src/common/utils/date_utils.ts:5-7 | a non-negative number's text is all digits and reads back as the number; a negative one is a minus sign followed by the digits of its magnitude |
| Text.NatToStringRoundTrip | src/common/utils/date_utils.ts:5-7 | the decimal text of a number reads back as that number |
| Text.PadStart | src/common/utils/date_utils.ts:6-7 | the text is padded on the left to the width with the pad character and ends with the original text |
| Storage.Get | src/common/utils/storage.ts:22-34 | the stored value when storage is available and has the key, otherwise the default |
| Storage.Set | src/common/utils/storage.ts:37-48 | with storage available the key is set to the value; with none nothing changes |
| Storage.Remove | src/common/utils/storage.ts:51-62 | with storage available the key is removed; with none nothing changes |
| Storage.GetAfterSetAndRemove | src/common/utils/storage.ts:22-62 | a set value reads back, a removed key reads the default, and other keys read as before |
| Storage.GetBoolean | src/common/utils/storage.ts:89-108 | "true" and "1" read true, "false" and "0" read false, a missing key reads the default |
| Storage.SetBoolean | src/common/utils/storage.ts:110-113 | with storage available the key is set to "true" or "false", every other key is kept and no other key appears; with none nothing is stored |
| Storage.BooleanRoundTrip | src/common/utils/storage.ts:89-113 | with storage available a stored boolean reads back whatever the default; with none the default is read |
| Storage.OtherTextReadsDefault | src/common/utils/storage.ts:102-104 | any other stored text reads as the default |
| Storage.GetJson | src/common/utils/storage.ts:65-76 | a missing key or an unparsable text reads the default; otherwise the parsed value |
| Storage.SetJson | src/common/utils/storage.ts:79-86 | a value that cannot be serialised changes nothing; otherwise its text is stored |
| Storage.JsonRoundTrip | src/common/utils/storage.ts:65-86 | with storage available a value whose text parses back to it reads back |
| AuthApi.StoreToken | src/api/auth.ts:45-51 | access token and type are stored; the refresh token only when given and non-empty; other keys are kept |
| AuthApi.GetToken | src/api/auth.ts:53-63 | a token exactly when both access token and type are non-empty; its refresh token is present exactly when the stored one is non-empty |
| AuthApi.RemoveToken | src/api/auth.ts:65-69 | the three token keys are gone and every other key is kept |
| AuthApi.StoreThenGet | src/api/auth.ts:45-63 | a stored token reads back with its access token and type, and with the new refresh token or else the old one |
| AuthApi.IsAuthenticated | src/api/auth.ts:71-73 | signed in exactly when both the access token and its type are stored non-empty |
| AuthApi.StoreEmptySignsOut | src/api/auth.ts:58-73 | storing a token with an empty access token or type leaves the user signed out |
| AuthApi.RemoveSignsOut | src/api/auth.ts:65-73 | after removal there is no token and no refresh token |
| AuthApi.Authorize | src/api/auth.ts:95-102 | with a token every request carries its bearer header; without one the request is unchanged |
| AuthApi.SignOut | src/api/auth.ts:147-155 | the tokens are removed, the request is rejected, and the user is sent to sign in unless already on that page |
| AuthApi.OnResponseError | src/api/auth.ts:113-157 | a refresh is tried exactly for a 401 on a request not yet retried, not the refresh call, with a refresh token stored; the request is then marked retried; other 401s sign out |
| AuthApi.RefreshSettled | src/api/auth.ts:125-146 | a successful refresh stores the new token and retries with its bearer header; a failed one signs out and rejects |
| AuthApi.AtMostOneRefresh | src/api/auth.ts:118-123 | a request that was refreshed once is never refreshed again |
| AuthApi.RefreshCallNeverRefreshes | src/api/auth.ts:121 | an error of the refresh call itself is only rejected and changes nothing |
| AuthApi.RetryHeaderMatchesInterceptor | src/api/auth.ts:94-136 | the retried request's header is the one the request interceptor would set from the stored token |
| AuthSession.Initial | src/contexts/AuthContext.tsx:13-14 | the provider starts signed out and loading, on the storage as found |
| AuthSession.CheckAuth | src/contexts/AuthContext.tsx:27-37 | the user is fetched exactly when a token is stored; without one loading ends at once |
| AuthSession.CheckAuthFetched | src/contexts/AuthContext.tsx:30-39 | a fetched user is set; a failed fetch removes the token; loading ends either way |
| AuthSession.UserFetched | src/contexts/AuthContext.tsx:16-23 | a fetched user replaces the current one and a failure keeps it; loading and the stored tokens are untouched; the step fails exactly when the fetch failed |
| AuthSession.Signin | src/contexts/AuthContext.tsx:45-48 | sign-in starts loading, sends one sign-in with the credentials, and keeps the user and the stored tokens |
| AuthSession.SigninResponded | src/contexts/AuthContext.tsx:45-54 | the token is stored before the user is fetched; a failed sign-in ends loading |
| AuthSession.SigninFetched | src/contexts/AuthContext.tsx:51-54 | the user fetch after sign-in ends loading; the user is the fetched one on success and unchanged on failure, and the step fails exactly on failure |
| AuthSession.SignupStart | src/contexts/AuthContext.tsx:57-60 | sign-up starts loading, sends one sign-up with the data, and keeps the user and the stored tokens |
| AuthSession.SignupResponded | src/contexts/AuthContext.tsx:57-70 | a created user is set and a sign-in with the same credentials follows; a failure ends loading |
| AuthSession.UpdateUser | src/contexts/AuthContext.tsx:78-81 | an update starts loading, sends one update with the data, and keeps the user and the stored tokens |
| AuthSession.UpdateResponded | src/contexts/AuthContext.tsx:78-86 | a successful update refetches the user; a failure ends loading |
| AuthSession.StartupSettles | src/contexts/AuthContext.tsx:26-43 | startup ends not loading, signed in exactly when a token was stored and the fetch succeeded, and a failed fetch removes the token |
| AuthSession.SigninSignsIn | src/contexts/AuthContext.tsx:45-55 | a successful sign-in and user fetch end signed in, not loading, with the token readable |
| AuthSession.FailuresEndLoading | src/contexts/AuthContext.tsx:45-87 | every failed sign-in, user fetch, sign-up or update ends loading |
| AuthSession.Logout | src/contexts/AuthContext.tsx:73-76 | after logout neither the session nor the stored token is signed in, and the loading flag is kept |
| AuthSession.LogoutSignsOut | src/contexts/AuthContext.tsx:73-76 | logging out twice is the same as once, and leaves the user signed out |
| AuthSession.UpdateRefreshesUser | src/contexts/AuthContext.tsx:78-87 | after a successful update the user is refetched and shows the update applied |
| ProfileForm.HasChanges | src/sections/settings/components/SettingsProfile/SettingsProfile.tsx:38-46 | the form has changes exactly when the user it shows differs from the signed-in user |
| ProfileForm.Patch | src/sections/settings/components/SettingsProfile/SettingsProfile.tsx:70-74 | each field is in the patch exactly when it differs from the user's (all fields with no user), holding the form's value |
| ProfileForm.PatchEmptyIffUnchanged | src/sections/settings/components/SettingsProfile/SettingsProfile.tsx:38-77 | the patch is empty exactly when the form has no changes |
| ProfileForm.PatchAppliedGivesForm | src/sections/settings/components/SettingsProfile/SettingsProfile.tsx:70-74 | applying the patch to the user gives the user the form shows |
| ProfileForm.FreshFormUnchanged | src/sections/settings/components/SettingsProfile/SettingsProfile.tsx:30-46 | a form filled from the user has no changes and an empty patch |
| ProfileForm.SubmitProfile | src/sections/settings/components/SettingsProfile/SettingsProfile.tsx:64-83 | an empty patch makes no request and shows the no-changes error; otherwise the patch is sent and the form is busy |
| ProfileForm.ProfileAnswered | src/sections/settings/components/SettingsProfile/SettingsProfile.tsx:77-89 | the busy flag is reset; success shows the success toast and refetches the user; failure shows the error toast |
| ProfileForm.EnabledSubmitSends | src/sections/settings/components/SettingsProfile/SettingsProfile.tsx:38-78 | whenever the save button is enabled a submit sends the patch and shows no error |
| ProfileForm.SubmitPassword | src/sections/settings/components/SettingsProfile/SettingsProfile.tsx:92-108 | with either field empty no request and an error; otherwise both passwords are sent |
| ProfileForm.PasswordAnswered | src/sections/settings/components/SettingsProfile/SettingsProfile.tsx:108-118 | the busy flag is reset; both fields are cleared only after success; failure keeps them and shows the error |
| ProfileForm.PasswordGuardAgrees | src/sections/settings/components/SettingsProfile/SettingsProfile.tsx:49-112 | a password request is sent exactly when the button is enabled, and after success the button is disabled |
| LegacyProfileForm.Patch | src/sections/settings/SettingsProfile.tsx:59-64 | the changed profile fields, plus the password exactly when it is non-empty |
| LegacyProfileForm.PatchEmptyIffUnchanged | src/sections/settings/SettingsProfile.tsx:29-67 | the patch is empty exactly when no field changed and the password is empty |
| LegacyProfileForm.Submit | src/sections/settings/SettingsProfile.tsx:52-78 | the error is cleared first; no changes sets the error and sends nothing; otherwise the patch is sent |
| LegacyProfileForm.Answered | src/sections/settings/SettingsProfile.tsx:66-85 | busy is reset; success sets the success message and clears the password; failure sets the error and keeps the password |
| LegacyProfileForm.SuccessExpired | src/sections/settings/SettingsProfile.tsx:72-75 | the timer clears only the success message |
| LegacyProfileForm.PasswordOnlySaveSettles | src/sections/settings/SettingsProfile.tsx:29-70 | saving only a password sends just the password, and afterwards the form has no changes |
| Toasts.Show | src/contexts/ToastContext.tsx:35-39 | exactly one message is appended at the end; type info and duration 4000 unless given |
| Toasts.ShowError | src/contexts/ToastContext.tsx:41-43 | exactly one message is appended at the end, with the given id and text, type error, and duration 4000 unless given |
| Toasts.ShowErrorThenRemove | src/contexts/ToastContext.tsx:13-43 | an error toast is shown red, and removing it when its id is fresh gives the queue back |
| Toasts.Remove | src/contexts/ToastContext.tsx:31-33 | no message with that id is left, and the queue is unchanged exactly when none had it |
| Toasts.RemoveKeepsOthers | src/contexts/ToastContext.tsx:31-33 | removal keeps exactly the messages with another id |
| Toasts.ShowThenRemove | src/contexts/ToastContext.tsx:31-39 | removing a just-shown message with a fresh id gives the queue back |
| Toasts.RemoveCommutesWithShow | src/contexts/ToastContext.tsx:31-39 | removing one id and showing a message with another commute, so the rest keep their order |
| Toasts.Colour | src/contexts/ToastContext.tsx:13-19 | gray is the colour of info toasts and of no other type |
| Toasts.ColourInjective | src/contexts/ToastContext.tsx:13-19 | each of the four types has its own colour |
| MobileHeader.SectionName | src/sections/MobileHeader.tsx:12-19 | the title is always one of five fixed names |
| MobileHeader.SectionNameIsFirstMatch | src/sections/MobileHeader.tsx:12-19 | the title is the first section in the order planner, projects, notes, settings whose word the path contains, and Perga exactly when none matches |
| ConfigTemplate.WordRun | scripts/generate-config.js:12 | the longest run of word characters at the start of a text |
| ConfigTemplate.Generate | scripts/generate-config.js:12-20 | generation fails only for a well-formed placeholder whose name is not in the environment |
| ConfigTemplate.WithoutDollarUnchanged | scripts/generate-config.js:12 | a template without a dollar sign is copied unchanged |
| ConfigTemplate.PlaceholderPrefix | scripts/generate-config.js:12-19 | a leading placeholder is replaced by its value, or generation fails for an undefined name |
| ConfigTemplate.GenerateFillsTemplate | scripts/generate-config.js:12-20 | rendering any well-formed list of literal pieces and placeholders and generating fills every placeholder from the environment, or fails on the first undefined one |
| ConfigTemplate.EmptyBracesStay | scripts/generate-config.js:12 | `${}` is left as it is |
| ConfigTemplate.ValueNotRescanned | scripts/generate-config.js:12-20 | an inserted value is not scanned again for placeholders |

## Left out

- Network calls. Every API call is a `Call` value in a step's result, and its
  answer is an `Outcome` passed to the next step. Nothing is sent.
- Scheduling and re-rendering. Concurrent handlers are modelled by calling the
  `Begin` and `Complete` steps in any order. React's batching and closure
  capture appear only where the code's result depends on them: the captured
  map in the agenda-item add, delete and update success paths, and the
  functional updaters of copy, move and the settings update.
- Rendering, CSS classes, icons, the dropdown open/close flags and
  click-outside listeners, and drag visuals (`isDragging`, opacity,
  `dataTransfer`).
- Locale text. `toLocaleDateString` (`formatDateForDisplay`,
  `formatDateMonthName`, `formatDateWeekDayShort`) is not modelled. The month
  caption used by the copy targets is a function parameter of year and month.
  The shared `formatDateForDisplay` with its relative tag is also out; as
  written it compares today with yesterday and with tomorrow, so it can only
  ever add "(Today)".
- Time and randomness. The current time and toast ids (`Date.now() +
  Math.random()`) are parameters. The toast auto-dismiss timer is the `Remove`
  it eventually performs. The legacy form's 3-second timer is the
  `SuccessExpired` step.
- Failure modes inside the browser. A `localStorage` whose access throws, or a
  `setItem` that exceeds the quota, is modelled only as unavailable storage
  (`None`), not per key.
- JSON. `JSON.parse` and `JSON.stringify` are function parameters of
  `GetJson`/`SetJson`, and `useCollapsedAgendas` is not modelled.
- The config generator's file reading and writing and `.env` loading. Only the
  substitution is modelled. An undefined variable is the `Undefined` result,
  standing for the exception thrown before anything is written.
- The server. `AuthSession.UpdateRefreshesUser` assumes the server applies an
  update as `ApplyUpdate` does. The returned agenda, item and user values are
  otherwise arbitrary.
- Prop wiring between `Planner.tsx`, `PlannerAgendas.tsx` and
  `AgendaItem.tsx`. These disagree on names such as `onSnoozeItem` and
  `onMoveItem`. Each file's own logic is modelled instead, and the pane
  resizing of `Planner.tsx` is out.
- `DayItem.tsx` imports `getNextDay`, `getNextWeek` and `getNextMonth` from
  the planner's `dateUtils.ts`, which defines none of them. The model uses the
  shared `date_utils.ts` helpers of the same names.
- The legacy profile form sends a `password` field. The `UserUpdate`
  interface has no such field, and what the server does with it is not
  modelled; only the patch the form builds is.
- The draft agenda line of the settings screen has no item counters, so its
  label is not modelled.
- The date helpers copy their argument before changing it. In the model all
  values are immutable, so "does not mutate its argument" holds by
  construction and is not stated as a contract.
- `Dates` is a proleptic Gregorian calendar on unbounded years. JavaScript's
  range limit of ±100,000,000 days and daylight-saving shifts (a fixed zone
  offset is assumed) are not modelled.
- Text.ToLower lower-cases ASCII letters only. JavaScript's `toLowerCase`
  also maps non-ASCII capitals. The captions it is applied to come from an
  en-US `toLocaleDateString`, so `AgendaItemsHook.FirstMatch` sees only ASCII
  month names there; agenda names with non-ASCII capitals are not matched the
  way the browser would.
- InlineEdit.Clip counts characters, not UTF-16 code units as `maxLength`
  and `slice` do. A text with characters outside the Basic Multilingual Plane
  is clipped later than in the browser.
- InlineEdit.SentTextsFit bounds the sent texts in characters, not UTF-16
  code units, for the same reason.
- DateUtils.FormatDateForApi, DayItemRow.CopyCall and DayItemRow.SnoozeCall
  state the round trip to the date only for years 1000 to 9999. Other years
  give a text with fewer or more year digits, which is not a `full-date`.
- The settings fetch calls `getPlannerAgendas` with the types, no day and a
  third argument `true`, and the agenda hook calls it with the types and a
  day. `src/api/planner_agendas.ts` defines only `getPlannerAgendasByDay`,
  so the call's meaning, the flag's included, is not stated; the request
  carries the arguments as written.
- `DayView.DraftDayAndZone` and `DayItemRow.NextDayDependsOnZone` state the
  zone effect for a whole offset in minutes. They do not model sub-minute
  offsets or historical zone changes.

## Findings

| source | as written | input that shows it | evidently intended | confidence | as-written member | corrected member |
|---|---|---|---|---|---|---|
| src/sections/planner/hooks/usePlannerAgendas.ts:155-158 | every drag-over step overwrites the recorded order with the order just before that step, so the drag-end skip compares against the previous step | agenda 7 shows `[a, b]`; drag a below b, then back above it; the list is `[a, b]` again, yet drag end sends a reorder `[1, 2]` | record the order once at drag start and skip the commit when the gesture ends where it began; the comment on the skip (line 175) says it is meant for an unchanged order | not executed | AgendaItemsHook.ReturningGestureStillCommits | AgendaItemsHook.FixedCommitSkipsUnchangedGesture |
| src/sections/planner/hooks/usePlannerAgendas.ts:195-203 | the last month starts at 0 and only the month index is compared | open the planner on 15 January: no agendas are fetched; go from June 2024 to June 2025: no refetch | fetch on the first date and whenever year or month changes | not executed | AgendaItemsHook.MonthGuardMissesJanuary | AgendaItemsHook.FixedGuardFetchesOnMonthChange |
| src/sections/planner/components/Calendar/Calendar.tsx:37-47 | month navigation calls `setMonth` on a copy that keeps the day of month | showing 31 January 2024, "next" shows March 2024; showing 31 March, "previous" shows March again | move the shown month by exactly one (set the day to 1 first) | not executed | CalendarView.NavigationOvershoots | CalendarView.NextMonthFixed |
| src/sections/planner/hooks/usePlannerAgendas.ts:241-248 | the target list is read from the map before the removal and written last | moving item 5 of agenda 1 into agenda 1 leaves `[x, x]` | the target list is read after the removal | not executed | AgendaItemsHook.MoveIntoSameAgendaDuplicates | AgendaItemsHook.MoveFixedKeepsOneCopy |
| src/sections/planner/components/PlannerDay/PlannerDay.tsx:65-73 | with no dragged item `findIndex` gives -1 and `splice(-1, 1)` removes the last item | no drag in progress, a foreign drag over `[a, b]` at index 0 gives `[b, a]` | ignore drag-over when nothing is dragged | not executed | DayView.DragOverWithoutDragMovesLast | DayView.DragOverFixed |
| src/sections/planner/components/PlannerDay/PlannerDay.tsx:61-73 | the hovered index is a position in the pane's filtered list but is used on the full list of both days | today `[a, b]`, tomorrow `[c, d]`; dragging c over d (pane index 1) gives `[a, c, b, d]`: tomorrow's pane is unchanged and c moved among today's items | translate the pane index to the full-list position of the pane's n-th item | not executed | DayView.DragOverFilteredIndexMisses | DayView.DragOverFixedMovesWithinPane |
| src/sections/planner/components/PlannerDay/DayItem/DayItem.tsx:33-75 | `new Date(item.day)` reads the day as UTC midnight, and the helpers then work on the local date | at UTC-5, item day "2024-06-10": "Next day" is 10 June, so the copy lands on the same day | read the item day as a local date | not executed | DayItemRow.NextDayWestOfUtcIsSameDay | DayItemRow.FixedDatesFollowItemDay |
| src/sections/planner/hooks/usePlannerDays.ts:53-56 | after a successful create the handler calls its third parameter `setItemText('')`, which no caller passes (the day pane's draft row at PlannerDay.tsx:49 and the agenda rows' copy to today or tomorrow at Planner.tsx:195-196 pass two arguments) | add "buy milk" from the draft row of today's pane: the create succeeds and the item is appended, then `setItemText` is undefined, the call throws, and "Error adding day item" is logged | call the setter only when one is given, so that a successful add logs nothing | not executed | DayItemsHook.PlannerAddLogsError | DayItemsHook.AddCompletedFixed |

=== FILE: agenda_actions.dfy ===
/** The per-agenda actions menu (`AgendaActionsDropdown.tsx`): one action at a
    time runs on the server, the agenda's items are reloaded after it
    succeeds, and the menu closes and unlocks on every path. */
module AgendaActions {
  import opened Outcomes
  import Hook = AgendaItemsHook

  datatype Action = DeleteFinishedItems | SortItemsByState

  /** The menu entries and their captions. */
  const Actions: seq<Action> := [DeleteFinishedItems, SortItemsByState]

  function Caption(a: Action): string {
    match a
    case DeleteFinishedItems => "Delete finished items"
    case SortItemsByState => "Sort items by state"
  }

  const ActionFailedMessage: string := "Failed to perform action"

  /** `open` and `loadingAction`. */
  datatype Menu = Menu(open: bool, loading: Option<Action>)

  const Closed: Menu := Menu(false, None)

  datatype Call = RunAction(agendaId: int, action: Action) | Reload(call: Hook.Call)

  datatype Step = Step(menu: Menu, calls: seq<Call>, errors: seq<string>)

  /** Every entry is disabled while an action is loading. */
  predicate EntriesEnabled(m: Menu) {
    m.loading.None?
  }

  /** Clicking an entry: shown only while the menu is open, ignored while
      disabled; otherwise the action starts. */
  function Click(m: Menu, agendaId: int, a: Action): (r: Step)
    ensures !m.open || !EntriesEnabled(m) ==> r == Step(m, [], [])
    ensures m.open && EntriesEnabled(m) ==> r == Step(Menu(true, Some(a)), [RunAction(agendaId, a)], [])
  {
    if !m.open || !EntriesEnabled(m) then Step(m, [], [])
    else Step(Menu(true, Some(a)), [RunAction(agendaId, a)], [])
  }

  /** The action returned: success reloads that agenda's items (the menu stays
      locked until the reload is over); failure shows a toast and closes. */
  function ActionDone(m: Menu, agendaId: int, outcome: Ack): (r: Step)
    ensures outcome.Ok? ==> r == Step(m, [Reload(Hook.GetItems([agendaId]))], [])
    ensures outcome.Err? ==> r == Step(Closed, [], [ActionFailedMessage])
  {
    match outcome
    case Ok(_) => Step(m, Reloads(Hook.FetchItemsCalls([agendaId])), [])
    case Err => Step(Closed, [], [ActionFailedMessage])
  }

  /** The hook's requests, issued from the menu in the same order. */
  function Reloads(calls: seq<Hook.Call>): (r: seq<Call>)
    ensures |r| == |calls| && forall i :: 0 <= i < |calls| ==> r[i] == Reload(calls[i])
  {
    seq(|calls|, i requires 0 <= i < |calls| => Reload(calls[i]))
  }

  /** The reload never fails from here (the hook logs its own errors), and the
      menu closes and unlocks. */
  function ReloadDone(m: Menu): (r: Menu)
    ensures !r.open && EntriesEnabled(r)
  {
    Closed
  }

  /** The whole run of one action: after a click on an open idle menu, the
      reload is requested only when the action succeeded, exactly one error is
      shown only when it failed, and the menu ends closed and idle either
      way. */
  lemma ActionRun(agendaId: int, a: Action, outcome: Ack)
    ensures var started := Click(Menu(true, None), agendaId, a);
            var done := ActionDone(started.menu, agendaId, outcome);
            var final := if outcome.Ok? then ReloadDone(done.menu) else done.menu;
            started.calls == [RunAction(agendaId, a)] && !EntriesEnabled(started.menu)
            && (done.calls != [] <==> outcome.Ok?)
            && (done.errors != [] <==> outcome.Err?)
            && final == Closed && EntriesEnabled(final)
  {
  }

  /** While one action runs, clicking any entry starts nothing. */
  lemma SingleActionInFlight(agendaId: int, a: Action, b: Action)
    ensures var started := Click(Menu(true, None), agendaId, a);
            Click(started.menu, agendaId, b).calls == []
  {
  }
}

=== FILE: agenda_item_row.dfy ===
/** One row of an agenda (`AgendaItem.tsx`): the checkbox, the Drop action,
    the inline text editor, and the copy and move pickers. The draft row
    (id -1) is the agenda's "add" line. */
module AgendaItemRow {
  import opened Outcomes
  import opened Text
  import opened PlannerItems
  import opened InlineEdit
  import Hook = AgendaItemsHook
  import AgendasView

  predicate IsDraft(item: AgendaItem) {
    item.id == DraftId
  }

  /** What the row shows besides its text. */
  datatype Controls = Controls(draggable: bool, checkbox: bool, actions: bool)

  /** The draft row cannot be dragged and has neither checkbox nor actions;
      every other row has all three. */
  function ControlsOf(item: AgendaItem): (r: Controls)
    ensures r.draggable == r.checkbox == r.actions == !IsDraft(item)
  {
    var shown := !IsDraft(item);
    Controls(shown, shown, shown)
  }

  /** An update the row hands to `onUpdateItem`. */
  datatype Update = Update(itemId: int, changes: ItemChanges)

  /** The checkbox: a todo item becomes completed, any other becomes todo. */
  function NextCheckboxState(s: ItemState): (r: ItemState)
    ensures r != s
    ensures r == Todo || r == Completed
    ensures r == Completed <==> s == Todo
  {
    if s == Todo then Completed else Todo
  }

  /** Two clicks give the state back exactly for todo and completed items; a
      snoozed or dropped item ends up completed. */
  lemma CheckboxTwice(s: ItemState)
    ensures NextCheckboxState(NextCheckboxState(s)) == s <==> s == Todo || s == Completed
    ensures NextCheckboxState(NextCheckboxState(s)) == (if s == Todo then Todo else Completed)
  {
  }

  function CheckboxUpdate(item: AgendaItem): (r: Update)
    ensures r.itemId == item.id && r.changes.text.None? && r.changes.state.Some?
    ensures r.changes.state.value != item.state
  {
    Update(item.id, ItemChanges(None, Some(NextCheckboxState(item.state))))
  }

  /** The Drop action always asks for `dropped`. */
  function DropUpdate(item: AgendaItem): (r: Update)
    ensures r.itemId == item.id && r.changes == ItemChanges(None, Some(Dropped))
  {
    Update(item.id, ItemChanges(None, Some(Dropped)))
  }

  /** Through the hook's optimistic merge, a checkbox click or a drop changes
      the item's state and nothing else. */
  lemma StateUpdatesKeepText(item: AgendaItem)
    ensures ApplyChanges(item, CheckboxUpdate(item).changes) == item.(state := NextCheckboxState(item.state))
    ensures ApplyChanges(item, DropUpdate(item).changes) == item.(state := Dropped)
  {
  }

  /** The row's editor reacts to an event; a sent text becomes a text update
      of this row's item. The draft is the only row whose key and blur handlers
      treat it as the add line. */
  function Edit(item: AgendaItem, e: Editor, ev: Event): (r: (Editor, Option<Update>))
    ensures var rx := React(e, IsDraft(item), IsDraft(item), item.text, ItemTextMaxLength, ev);
            r.0 == rx.editor
            && (r.1.Some? <==> rx.sent.Some?)
            && (r.1.Some? ==> r.1.value == Update(item.id, ItemChanges(Some(rx.sent.value), None)))
  {
    var rx := React(e, IsDraft(item), IsDraft(item), item.text, ItemTextMaxLength, ev);
    (rx.editor, if rx.sent.Some? then Some(Update(item.id, ItemChanges(Some(rx.sent.value), None))) else None)
  }

  /** Enter on the agenda's draft row hands the typed text to the add line,
      which creates an item exactly when the text is not blank; the draft stays
      in edit mode with a cleared input. */
  lemma DraftEnterAdds(agendaId: int, e: Editor)
    requires e.editing
    ensures var (ed, upd) := Edit(AgendasView.DraftItem(agendaId), e, KeyDown(Enter));
            ed == Editor(true, "") && upd == Some(Update(DraftId, ItemChanges(Some(e.value), None)))
            && (AgendasView.DraftUpdate(agendaId, upd.value.changes).Some? <==> !IsBlank(e.value))
  {
  }

  /** Blur on an existing row commits its text through the hook's guarded
      update; a text that trims to nothing is then dropped by the hook. */
  lemma BlurCommitsThroughHook(s: Hook.State, item: AgendaItem, e: Editor)
    requires !IsDraft(item) && e.editing
    ensures var (ed, upd) := Edit(item, e, Blur);
            !ed.editing && upd.Some?
            && (IsBlank(e.value) ==> Hook.BeginUpdate(s, item.id, item.agendaId, upd.value.changes) == Hook.Quiet(s))
  {
  }

  /** `!toAgendaId`: a missing target or the id 0 picks nothing. */
  predicate Falsy(to: Option<int>) {
    to.None? || to.value == 0
  }

  /** The copy picker: with a real target, the copy request `(item, target)`
      is made and the picker closes; otherwise nothing happens. */
  function CopyPick(item: AgendaItem, pickerOpen: bool, to: Option<int>): (r: (bool, Option<(int, int)>))
    ensures Falsy(to) ==> r == (pickerOpen, None)
    ensures !Falsy(to) ==> r == (false, Some((item.id, to.value)))
  {
    if Falsy(to) then (pickerOpen, None) else (false, Some((item.id, to.value)))
  }

  /** The move picker: like the copy picker, and the source agenda is the
      row's own. */
  function MovePick(item: AgendaItem, pickerOpen: bool, to: Option<int>): (r: (bool, Option<(int, int, int)>))
    ensures Falsy(to) ==> r == (pickerOpen, None)
    ensures !Falsy(to) ==> r == (false, Some((item.id, item.agendaId, to.value)))
  {
    if Falsy(to) then (pickerOpen, None) else (false, Some((item.id, item.agendaId, to.value)))
  }

  /** A move picked on a row, once the server answers with the item in another
      agenda, takes the item out of the list the row was shown in. */
  lemma MovePickLeavesShownList(s: Hook.State, item: AgendaItem, to: int, moved: AgendaItem)
    requires to != 0 && moved.agendaId != item.agendaId
    ensures var pick := MovePick(item, true, Some(to)).1;
            pick.Some?
            && var r := Hook.MoveCompleted(s, pick.value.0, pick.value.1, Ok(moved)).items;
               item.agendaId in r && item.id !in AgendaItemIds(r[item.agendaId])
  {
    var r := Hook.MoveCompleted(s, item.id, item.agendaId, Ok(moved)).items;
    var l := r[item.agendaId];
    if item.id in AgendaItemIds(l) {
      var i :| 0 <= i < |l| && AgendaItemIds(l)[i] == item.id;
      WithoutAgendaItemMembers(ListOf(s.items, item.agendaId), item.id, l[i]);
    }
  }
}

=== FILE: agenda_items_hook.dfy ===
/** The agenda-item state of the planner (`usePlannerAgendas`): loading agendas
    and their items, the optimistic single-flight edit, the deferred drag
    reorder, copy and move, and the choice of copy targets.

    Each handler is split at its `await`: a synchronous step that returns the
    new state and the requests it issues, and a completion step that takes the
    request's outcome. A completion receives the state at completion time
    (`now`) and, where the source writes from a value captured when the
    handler started, that captured value as well. */
module AgendaItemsHook {
  import opened Outcomes
  import opened Text
  import opened Dates
  import opened Lists
  import opened PlannerItems
  import PlannerDateUtils
  import DateUtils

  type ItemsMap = map<int, seq<AgendaItem>>

  /** The requests the hook issues. */
  datatype Call =
    | GetAgendas(types: seq<AgendaType>, day: string)
    | GetItems(agendaIds: seq<int>)
    | CreateItem(agendaId: int, text: string)
    | UpdateItem(itemId: int, agendaId: int, changes: ItemChanges)
    | DeleteItem(itemId: int)
    | ReorderItems(agendaId: int, orderedIds: seq<int>)
    | CopyItem(itemId: int, toAgendaId: int)
    | MoveItem(itemId: int, toAgendaId: int)

  /** React state (`agendas`, `items`, `drag`) and the hook's refs: the
      in-flight ids, the per-agenda recorded and pending orders, and the month
      of the last agenda fetch. */
  datatype State = State(
    agendas: seq<Agenda>,
    items: ItemsMap,
    drag: Option<AgendaItem>,
    updating: set<int>,
    recordedOrder: map<int, seq<int>>,
    pendingOrder: map<int, seq<int>>,
    previousMonth: int)

  /** Nothing is loaded, locked or recorded when the planner opens, and the
      recorded month is 0 (January). */
  function Init(): (r: State)
    ensures |r.agendas| == 0 && |r.items| == 0 && r.drag.None? && |r.updating| == 0
    ensures |r.recordedOrder| == 0 && |r.pendingOrder| == 0 && r.previousMonth == 0
  {
    State([], map[], None, {}, map[], map[], 0)
  }

  /** A new state, the requests issued, and the error toasts shown. */
  datatype Step = Step(state: State, calls: seq<Call>, errors: seq<string>)

  function Quiet(s: State): Step {
    Step(s, [], [])
  }

  const UpdateFailedMessage: string := "Failed to update item, please try again"
  const ReorderFailedMessage: string := "Failed to save agenda order, restoring\U{2026}"

  // ---- loading ----

  /** `fetchAgendasWithItems` issues this request: monthly and custom agendas
      for the selected day. */
  function FetchAgendasCall(selected: CalendarDate): (c: Call)
    ensures c.GetAgendas? && c.types == [Monthly, Custom]
    ensures c.day == PlannerDateUtils.FormatDate(selected)
  {
    GetAgendas([Monthly, Custom], PlannerDateUtils.FormatDate(selected))
  }

  /** The agendas arrived: store them, then load the items of all of them
      (no request for an empty list). A failure is only logged. */
  function AgendasFetched(s: State, outcome: Outcome<seq<Agenda>>): (r: Step)
    ensures outcome.Err? ==> r == Quiet(s)
    ensures outcome.Ok? ==> r.state == s.(agendas := outcome.value) && r.errors == []
    ensures outcome.Ok? ==> (r.calls == [] <==> outcome.value == [])
    ensures r.calls != [] ==> r.calls == [GetItems(AgendaIds(outcome.value))]
  {
    match outcome
    case Err => Quiet(s)
    case Ok(agendas) => Step(s.(agendas := agendas), FetchItemsCalls(AgendaIds(agendas)), [])
  }

  /** `fetchAgendaItems`: nothing to ask for an empty id list. */
  function FetchItemsCalls(ids: seq<int>): (r: seq<Call>)
    ensures r == [] <==> ids == []
    ensures r != [] ==> r == [GetItems(ids)]
  {
    if |ids| == 0 then [] else [GetItems(ids)]
  }

  /** `{ ...prev, ...itemsByAgenda }`: the fetched lists replace those keys, all
      other lists stay. Uses the current state. */
  function ItemsFetched(s: State, outcome: Outcome<ItemsMap>): (r: State)
    ensures outcome.Err? ==> r == s
    ensures r == s.(items := r.items)
    ensures outcome.Ok? ==> r.items.Keys == s.items.Keys + outcome.value.Keys
    ensures outcome.Ok? ==> forall k :: k in outcome.value ==> r.items[k] == outcome.value[k]
    ensures outcome.Ok? ==> forall k :: k in s.items && k !in outcome.value ==> r.items[k] == s.items[k]
  {
    match outcome
    case Err => s
    case Ok(fetched) => s.(items := s.items + fetched)
  }

  /** The refresh event refetches everything for the selected date. */
  function Refresh(s: State, selected: CalendarDate): (r: Step)
    ensures r.state == s && r.errors == [] && |r.calls| == 1
    ensures r.calls[0].GetAgendas? && r.calls[0].types == [Monthly, Custom]
    ensures 1000 <= selected.year <= 9999 ==> DateUtils.ParseFullDate(r.calls[0].day) == Some(selected)
  {
    if 1000 <= selected.year <= 9999 then
      DateUtils.FullDateRoundTrip(selected);
      Step(s, [FetchAgendasCall(selected)], [])
    else
      Step(s, [FetchAgendasCall(selected)], [])
  }

  /** A refresh whose answer arrives stores exactly the fetched agendas, asks
      for the items of exactly those agendas, and leaves the item lists to the
      item fetch. */
  lemma RefreshThenFetched(s: State, selected: CalendarDate, agendas: seq<Agenda>)
    ensures var r := AgendasFetched(Refresh(s, selected).state, Ok(agendas));
            r.state.agendas == agendas && r.state.items == s.items && r.errors == []
            && (agendas != [] ==> r.calls == [GetItems(AgendaIds(agendas))])
            && (agendas == [] ==> r.calls == [])
  {
  }

  // ---- add and delete (not optimistic) ----

  /** `handleAddAgendaItem` before the request: blank text asks for nothing. */
  function AddCalls(agendaId: int, text: string): (r: seq<Call>)
    ensures r == [] <==> IsBlank(text)
    ensures r != [] ==> r == [CreateItem(agendaId, text)]
  {
    if IsBlank(text) then [] else [CreateItem(agendaId, text)]
  }

  /** After the create: the server's item is appended to that agenda's list as
      it was when the handler started (`callTime`); every other list is also
      taken from `callTime`. A failure is only logged. */
  function AddCompleted(now: State, callTime: ItemsMap, agendaId: int, outcome: Outcome<AgendaItem>)
    : (r: State)
    ensures outcome.Err? ==> r == now
    ensures r == now.(items := r.items)
    ensures outcome.Ok? ==> agendaId in r.items
                            && r.items[agendaId] == ListOf(callTime, agendaId) + [outcome.value]
    ensures outcome.Ok? ==> forall k :: k != agendaId ==>
                              (k in r.items <==> k in callTime) && (k in callTime ==> r.items[k] == callTime[k])
  {
    match outcome
    case Err => now
    case Ok(item) => now.(items := callTime[agendaId := ListOf(callTime, agendaId) + [item]])
  }

  /** The add writes from the captured map: whatever changed meanwhile is lost. */
  lemma AddIgnoresInterimItems(now1: State, now2: State, callTime: ItemsMap, agendaId: int,
                               item: AgendaItem)
    ensures AddCompleted(now1, callTime, agendaId, Ok(item)).items
            == AddCompleted(now2, callTime, agendaId, Ok(item)).items
  {
  }

  /** `handleDeleteAgendaItem` first sends the item id alone; the agenda id
      is used only afterwards, by the local filter. */
  function DeleteCalls(itemId: int, agendaId: int): (r: seq<Call>)
    ensures |r| == 1 && r[0].DeleteItem? && r[0].itemId == itemId
  {
    [DeleteItem(itemId)]
  }

  /** After the delete: the captured list without that id. When the captured
      map has no such agenda the lookup throws inside `try` and nothing
      changes. */
  function DeleteCompleted(now: State, callTime: ItemsMap, itemId: int, agendaId: int, outcome: Ack)
    : (r: State)
    ensures outcome.Err? || agendaId !in callTime ==> r == now
    ensures r == now.(items := r.items)
    ensures outcome.Ok? && agendaId in callTime ==>
              agendaId in r.items
              && (forall x :: x in r.items[agendaId] <==> x in callTime[agendaId] && x.id != itemId)
              && forall k :: k != agendaId ==>
                   (k in r.items <==> k in callTime) && (k in callTime ==> r.items[k] == callTime[k])
  {
    if outcome.Ok? && agendaId in callTime then
      var kept := WithoutAgendaItem(callTime[agendaId], itemId);
      assert forall x :: x in kept <==> x in callTime[agendaId] && x.id != itemId by {
        forall x { WithoutAgendaItemMembers(callTime[agendaId], itemId, x); }
      }
      now.(items := callTime[agendaId := kept])
    else now
  }

  /** Deleting the item an add just appended gives back the list from before
      the add, when its id was new to that list. */
  lemma AddThenDelete(s: State, agendaId: int, item: AgendaItem)
    requires item.id !in AgendaItemIds(ListOf(s.items, agendaId))
    ensures var added := AddCompleted(s, s.items, agendaId, Ok(item));
            DeleteCompleted(added, added.items, item.id, agendaId, Ok(())).items[agendaId]
            == ListOf(s.items, agendaId)
  {
    var xs := ListOf(s.items, agendaId);
    var p := (x: AgendaItem) => x.id != item.id;
    FilterConcat(xs, [item], p);
    FilterOne(item, p);
    WithoutAbsentAgendaItem(xs, item.id);
  }

  // ---- update (optimistic, single flight) ----

  /** The guard of `handleUpdateAgendaItem`: the item already has an update in
      flight, or the new text trims to nothing. */
  predicate UpdateDropped(s: State, itemId: int, changes: ItemChanges) {
    itemId in s.updating || (changes.text.Some? && IsBlank(changes.text.value))
  }

  /** The list with the edited item merged with `changes`; the item is the
      first one with that id, as `find` picks it. */
  function Optimistic(xs: seq<AgendaItem>, itemId: int, changes: ItemChanges): (r: seq<AgendaItem>)
    ensures |r| == |xs|
    ensures forall i :: 0 <= i < |xs| && xs[i].id != itemId ==> r[i] == xs[i]
    ensures forall i :: 0 <= i < |xs| && xs[i].id == itemId ==>
              r[i] == ApplyChanges(xs[IndexOf(AgendaItemIds(xs), itemId)], changes)
  {
    var k := IndexOf(AgendaItemIds(xs), itemId);
    if k == -1 then
      ReplaceAbsent(xs, itemId, AgendaItem(itemId, "", Todo, 0, 0));
      xs
    else ReplaceAgendaItem(xs, itemId, ApplyChanges(xs[k], changes))
  }

  /** `handleUpdateAgendaItem` up to its request. A dropped update changes
      nothing. Otherwise the id is locked; if the agenda has no list the lookup
      throws before `try`, leaving the lock held and nothing sent; else the
      list shows the merged item at once and the update is sent. */
  function BeginUpdate(s: State, itemId: int, agendaId: int, changes: ItemChanges): (r: Step)
    ensures UpdateDropped(s, itemId, changes) ==> r == Quiet(s)
    ensures !UpdateDropped(s, itemId, changes) ==> r.state.updating == s.updating + {itemId}
    ensures !UpdateDropped(s, itemId, changes) && agendaId !in s.items ==>
              r == Quiet(s.(updating := s.updating + {itemId}))
    ensures !UpdateDropped(s, itemId, changes) && agendaId in s.items ==>
              r.calls == [UpdateItem(itemId, agendaId, changes)] && r.errors == []
              && r.state == s.(updating := r.state.updating, items := r.state.items)
              && r.state.items == s.items[agendaId := Optimistic(s.items[agendaId], itemId, changes)]
  {
    if UpdateDropped(s, itemId, changes) then Quiet(s)
    else
      var locked := s.(updating := s.updating + {itemId});
      if agendaId !in s.items then Quiet(locked)
      else
        Step(locked.(items := s.items[agendaId := Optimistic(s.items[agendaId], itemId, changes)]),
             [UpdateItem(itemId, agendaId, changes)], [])
  }

  /** After the update request. `snapshot` is the map captured when the handler
      started. Success writes the server's item into the snapshot's list;
      failure restores the snapshot and shows a toast. Either way the id is
      unlocked and nothing else about `now` changes. */
  function CompleteUpdate(now: State, snapshot: ItemsMap, itemId: int, agendaId: int,
                          outcome: Outcome<AgendaItem>): (r: Step)
    ensures r.calls == [] && itemId !in r.state.updating
    ensures r.state == now.(items := r.state.items, updating := now.updating - {itemId})
    ensures outcome.Ok? && agendaId in snapshot ==>
              r.errors == []
              && r.state.items == snapshot[agendaId := ReplaceAgendaItem(snapshot[agendaId], itemId, outcome.value)]
    ensures outcome.Err? ==> r.state.items == snapshot && r.errors == [UpdateFailedMessage]
  {
    var unlocked := now.(updating := now.updating - {itemId});
    if outcome.Ok? && agendaId in snapshot then
      Step(unlocked.(items := snapshot[agendaId := ReplaceAgendaItem(snapshot[agendaId], itemId, outcome.value)]),
           [], [])
    else Step(unlocked.(items := snapshot), [], [UpdateFailedMessage])
  }

  /** Single flight: once an update of an item is under way, a second one for
      the same item sends nothing and changes nothing, whatever its changes. */
  lemma SecondUpdateDropped(s: State, itemId: int, agendaId: int, c1: ItemChanges,
                            agendaId2: int, c2: ItemChanges)
    requires BeginUpdate(s, itemId, agendaId, c1).calls != []
    ensures var mid := BeginUpdate(s, itemId, agendaId, c1).state;
            BeginUpdate(mid, itemId, agendaId2, c2) == Quiet(mid)
  {
  }

  /** A failed update puts the state back exactly as it was before the edit. */
  lemma FailedUpdateRestores(s: State, itemId: int, agendaId: int, changes: ItemChanges)
    requires BeginUpdate(s, itemId, agendaId, changes).calls != []
    ensures var mid := BeginUpdate(s, itemId, agendaId, changes).state;
            CompleteUpdate(mid, s.items, itemId, agendaId, Err).state == s
  {
  }

  /** A successful update leaves the other agendas as they were and replaces
      only the items with that id. */
  lemma SuccessfulUpdateReplaces(s: State, itemId: int, agendaId: int, changes: ItemChanges,
                                 resp: AgendaItem)
    requires BeginUpdate(s, itemId, agendaId, changes).calls != []
    ensures var mid := BeginUpdate(s, itemId, agendaId, changes).state;
            var r := CompleteUpdate(mid, s.items, itemId, agendaId, Ok(resp)).state;
            r == s.(items := r.items)
            && r.items.Keys == s.items.Keys
            && (forall k :: k in s.items && k != agendaId ==> r.items[k] == s.items[k])
            && |r.items[agendaId]| == |s.items[agendaId]|
            && forall i :: 0 <= i < |s.items[agendaId]| ==>
                 r.items[agendaId][i] == if s.items[agendaId][i].id == itemId then resp else s.items[agendaId][i]
  {
  }

  /** When the agenda has no list, the lock taken before the throw is never
      released, so every later update of that item is dropped. The hook never
      removes an agenda's list, so the screen cannot reach this path. */
  lemma MissingAgendaKeepsLock(s: State, itemId: int, agendaId: int, changes: ItemChanges,
                               agendaId2: int, changes2: ItemChanges)
    requires !UpdateDropped(s, itemId, changes) && agendaId !in s.items
    ensures var mid := BeginUpdate(s, itemId, agendaId, changes).state;
            itemId in mid.updating && BeginUpdate(mid, itemId, agendaId2, changes2).calls == []
  {
  }

  // ---- deferred reorder ----

  function DragStart(s: State, item: AgendaItem): (r: State)
    ensures r.drag == Some(item) && r == s.(drag := r.drag)
  {
    s.(drag := Some(item))
  }

  /** `handleReorderAgendaItems`, run on every drag-over step: the recorded
      order becomes the ids shown just before this step, the list shows the new
      items, and the pending order becomes their ids. */
  function HandleReorder(s: State, agendaId: int, items: seq<AgendaItem>): (r: State)
    ensures r.items == s.items[agendaId := items]
    ensures r.recordedOrder == s.recordedOrder[agendaId := AgendaItemIds(ListOf(s.items, agendaId))]
    ensures r.pendingOrder == s.pendingOrder[agendaId := AgendaItemIds(items)]
    ensures r == s.(items := r.items, recordedOrder := r.recordedOrder, pendingOrder := r.pendingOrder)
  {
    s.(recordedOrder := s.recordedOrder[agendaId := AgendaItemIds(ListOf(s.items, agendaId))],
       items := s.items[agendaId := items],
       pendingOrder := s.pendingOrder[agendaId := AgendaItemIds(items)])
  }

  /** The skip test: same length and the same id at every position. */
  predicate SameOrder(a: seq<int>, b: seq<int>) {
    |a| == |b| && forall i :: 0 <= i < |a| ==> a[i] == b[i]
  }

  lemma SameOrderIsEquality(a: seq<int>, b: seq<int>)
    ensures SameOrder(a, b) <==> a == b
  {
  }

  /** `applyUpdatedItemsOrder` up to its request: nothing when no order is
      pending or the pending order equals the recorded one; otherwise one
      reorder request with the pending ids. The refs change only after the
      request. */
  function ApplyUpdatedOrder(s: State, agendaId: int): (r: Step)
    ensures r.state == s && r.errors == []
    ensures r.calls == [] <==>
              agendaId !in s.pendingOrder
              || (agendaId in s.recordedOrder && s.recordedOrder[agendaId] == s.pendingOrder[agendaId])
    ensures r.calls != [] ==> r.calls == [ReorderItems(agendaId, s.pendingOrder[agendaId])]
  {
    if agendaId !in s.pendingOrder then Quiet(s)
    else
      var pending := s.pendingOrder[agendaId];
      if agendaId !in s.recordedOrder then Step(s, [ReorderItems(agendaId, pending)], [])
      else
        SameOrderIsEquality(s.recordedOrder[agendaId], pending);
        if SameOrder(s.recordedOrder[agendaId], pending) then Quiet(s)
        else Step(s, [ReorderItems(agendaId, pending)], [])
  }

  /** After the reorder request: success records the sent order; failure keeps
      the local order, shows a toast and refetches everything instead of
      rolling back. */
  function ReorderCompleted(now: State, agendaId: int, sent: seq<int>, selected: CalendarDate,
                            outcome: Ack): (r: Step)
    ensures outcome.Ok? ==> r == Quiet(now.(recordedOrder := now.recordedOrder[agendaId := sent]))
    ensures outcome.Err? ==> r.state == now && r.calls == [FetchAgendasCall(selected)]
                             && r.errors == [ReorderFailedMessage]
  {
    match outcome
    case Ok(_) => Quiet(now.(recordedOrder := now.recordedOrder[agendaId := sent]))
    case Err => Step(now, [FetchAgendasCall(selected)], [ReorderFailedMessage])
  }

  /** `handleDragEndAgendaItem`: without a dragged item nothing happens;
      otherwise the drag is cleared and the dragged item's agenda committed. */
  function DragEnd(s: State): (r: Step)
    ensures s.drag.None? ==> r == Quiet(s)
    ensures s.drag.Some? ==> r == ApplyUpdatedOrder(s.(drag := None), s.drag.value.agendaId)
    ensures r.state.drag.None?
  {
    match s.drag
    case None => Quiet(s)
    case Some(item) => ApplyUpdatedOrder(s.(drag := None), item.agendaId)
  }

  /** The skip test only looks at the last drag-over step: after a step the
      commit is skipped exactly when that step left the ids as they were. */
  lemma CommitDependsOnLastStep(s: State, agendaId: int, items: seq<AgendaItem>)
    ensures ApplyUpdatedOrder(HandleReorder(s, agendaId, items), agendaId).calls == []
            <==> AgendaItemIds(items) == AgendaItemIds(ListOf(s.items, agendaId))
  {
  }

  /** A successful commit makes an immediate second commit a no-op. */
  lemma CommitThenNoop(s: State, agendaId: int, selected: CalendarDate)
    requires ApplyUpdatedOrder(s, agendaId).calls != []
    ensures var after := ReorderCompleted(s, agendaId, s.pendingOrder[agendaId], selected, Ok(())).state;
            ApplyUpdatedOrder(after, agendaId).calls == []
  {
  }

  /** A gesture that drags an item away and back again still commits, because
      the recorded order is the one from just before the last step. */
  lemma ReturningGestureStillCommits()
    ensures var a := AgendaItem(1, "a", Todo, 0, 7);
            var b := AgendaItem(2, "b", Todo, 1, 7);
            var s0 := Init().(items := map[7 := [a, b]]);
            var s2 := HandleReorder(HandleReorder(s0, 7, [b, a]), 7, [a, b]);
            s2.items[7] == s0.items[7] && ApplyUpdatedOrder(s2, 7).calls == [ReorderItems(7, [1, 2])]
  {
    var a := AgendaItem(1, "a", Todo, 0, 7);
    var b := AgendaItem(2, "b", Todo, 1, 7);
    assert AgendaItemIds([b, a]) == [2, 1];
    assert AgendaItemIds([a, b]) == [1, 2];
  }

  /** The corrected drag start records the order the gesture starts from and
      forgets any pending order. */
  function DragStartFixed(s: State, item: AgendaItem): (r: State)
    ensures r.drag == Some(item)
    ensures r.recordedOrder == s.recordedOrder[item.agendaId := AgendaItemIds(ListOf(s.items, item.agendaId))]
    ensures item.agendaId !in r.pendingOrder
    ensures r.items == s.items
  {
    s.(drag := Some(item),
       recordedOrder := s.recordedOrder[item.agendaId := AgendaItemIds(ListOf(s.items, item.agendaId))],
       pendingOrder := s.pendingOrder - {item.agendaId})
  }

  /** The corrected drag-over step leaves the recorded order alone. */
  function HandleReorderFixed(s: State, agendaId: int, items: seq<AgendaItem>): (r: State)
    ensures r.items == s.items[agendaId := items] && r.recordedOrder == s.recordedOrder
    ensures r.pendingOrder == s.pendingOrder[agendaId := AgendaItemIds(items)]
  {
    s.(items := s.items[agendaId := items], pendingOrder := s.pendingOrder[agendaId := AgendaItemIds(items)])
  }

  /** The drag-over steps of one gesture, in order. */
  function Gesture(s: State, agendaId: int, steps: seq<seq<AgendaItem>>): State
    decreases |steps|
  {
    if |steps| == 0 then s
    else Gesture(HandleReorderFixed(s, agendaId, steps[0]), agendaId, steps[1..])
  }

  lemma {:induction false} GestureOrders(s: State, agendaId: int, steps: seq<seq<AgendaItem>>)
    ensures Gesture(s, agendaId, steps).recordedOrder == s.recordedOrder
    ensures |steps| == 0 ==> Gesture(s, agendaId, steps).pendingOrder == s.pendingOrder
    ensures |steps| > 0 ==> Gesture(s, agendaId, steps).pendingOrder
                            == s.pendingOrder[agendaId := AgendaItemIds(steps[|steps| - 1])]
    decreases |steps|
  {
    if |steps| > 0 {
      var s1 := HandleReorderFixed(s, agendaId, steps[0]);
      GestureOrders(s1, agendaId, steps[1..]);
      if |steps| > 1 {
        assert steps[1..][|steps[1..]| - 1] == steps[|steps| - 1];
      }
    }
  }

  /** With the corrected steps, the commit at drag end is skipped exactly when
      the gesture made no step or its last list has the ids it started with. */
  lemma FixedCommitSkipsUnchangedGesture(s: State, item: AgendaItem, steps: seq<seq<AgendaItem>>)
    ensures var start := DragStartFixed(s, item);
            var a := item.agendaId;
            ApplyUpdatedOrder(Gesture(start, a, steps), a).calls == []
            <==> |steps| == 0 || AgendaItemIds(steps[|steps| - 1]) == AgendaItemIds(ListOf(s.items, a))
  {
    GestureOrders(DragStartFixed(s, item), item.agendaId, steps);
  }

  // ---- month guard ----

  /** The effect on `selectedDate`: refetch only when its month (0..11, year
      ignored) differs from the recorded one, then record it. */
  function SelectedDateChanged(s: State, selected: CalendarDate): (r: Step)
    ensures r.state == s.(previousMonth := selected.month) && r.errors == []
    ensures r.calls == [] <==> selected.month == s.previousMonth
    ensures r.calls != [] ==> r.calls == [FetchAgendasCall(selected)]
  {
    if selected.month == s.previousMonth then Quiet(s)
    else Step(s.(previousMonth := selected.month), [FetchAgendasCall(selected)], [])
  }

  /** The refresh event sends the same request as a month change, but it
      bypasses the month guard: it refetches even when the month is unchanged. */
  lemma RefreshAgreesWithDateChange(s: State, selected: CalendarDate)
    ensures SelectedDateChanged(s, selected).calls != [] ==> SelectedDateChanged(s, selected).calls == Refresh(s, selected).calls
    ensures Refresh(s.(previousMonth := selected.month), selected).calls != []
    ensures SelectedDateChanged(s.(previousMonth := selected.month), selected).calls == []
  {
  }

  /** Because the recorded month starts at 0, opening the planner on any
      January date loads no agendas; and moving to the same month of another
      year does not refetch either. */
  lemma MonthGuardMissesJanuary(selected: CalendarDate, s: State, shown: CalendarDate, other: CalendarDate)
    requires selected.month == 0
    requires other.month == shown.month && other.year != shown.year
    ensures SelectedDateChanged(Init(), selected).calls == []
    ensures SelectedDateChanged(Init(), selected).state.agendas == []
    ensures var seen := SelectedDateChanged(s, shown).state;
            SelectedDateChanged(seen, other).calls == [] && SelectedDateChanged(seen, other).state == seen
  {
  }

  /** The corrected guard: remember the year and month of the last fetch, with
      nothing recorded at first. */
  datatype MonthKey = MonthKey(year: int, month: int)

  function MonthGuardFixed(last: Option<MonthKey>, selected: CalendarDate): (r: (bool, Option<MonthKey>))
    ensures r.1 == Some(MonthKey(selected.year, selected.month))
    ensures r.0 <==> last != Some(MonthKey(selected.year, selected.month))
  {
    var key := MonthKey(selected.year, selected.month);
    (last != Some(key), Some(key))
  }

  /** With the corrected guard the first date always fetches, and a later date
      fetches exactly when its year or month differs from the previous one. */
  lemma FixedGuardFetchesOnMonthChange(first: CalendarDate, next: CalendarDate)
    ensures MonthGuardFixed(None, first).0
    ensures MonthGuardFixed(MonthGuardFixed(None, first).1, next).0
            <==> next.year != first.year || next.month != first.month
  {
  }

  // ---- copy and move ----

  /** `handleCopyAgendaItem` sends the item and the target agenda. */
  function CopyCalls(itemId: int, toAgendaId: int): (r: seq<Call>)
    ensures |r| == 1 && r[0].CopyItem? && r[0].itemId == itemId && r[0].toAgendaId == toAgendaId
  {
    [CopyItem(itemId, toAgendaId)]
  }

  /** `handleMoveAgendaItem` sends the item and the target agenda; the source
      agenda is used only afterwards, for the local removal. */
  function MoveCalls(itemId: int, fromAgendaId: int, toAgendaId: int): (r: seq<Call>)
    ensures |r| == 1 && r[0].MoveItem? && r[0].itemId == itemId && r[0].toAgendaId == toAgendaId
  {
    [MoveItem(itemId, toAgendaId)]
  }

  /** The server learns nothing about where a deleted or moved item was
      shown: the requests are the same for every source agenda, and a move
      carries the same arguments as a copy. */
  lemma RequestsOmitSourceAgenda(itemId: int, from1: int, from2: int, toAgendaId: int)
    ensures DeleteCalls(itemId, from1) == DeleteCalls(itemId, from2)
    ensures MoveCalls(itemId, from1, toAgendaId) == MoveCalls(itemId, from2, toAgendaId)
    ensures MoveCalls(itemId, from1, toAgendaId)[0].itemId == CopyCalls(itemId, toAgendaId)[0].itemId
            && MoveCalls(itemId, from1, toAgendaId)[0].toAgendaId == CopyCalls(itemId, toAgendaId)[0].toAgendaId
  {
  }

  /** After a copy: the server's item is appended to its own agenda's current
      list; every other list is untouched. */
  function CopyCompleted(now: State, outcome: Outcome<AgendaItem>): (r: State)
    ensures outcome.Err? ==> r == now
    ensures r == now.(items := r.items)
    ensures outcome.Ok? ==> var to := outcome.value.agendaId;
              to in r.items && r.items[to] == ListOf(now.items, to) + [outcome.value]
              && forall k :: k != to ==> (k in r.items <==> k in now.items)
                                         && (k in now.items ==> r.items[k] == now.items[k])
  {
    match outcome
    case Err => now
    case Ok(item) => now.(items := now.items[item.agendaId := ListOf(now.items, item.agendaId) + [item]])
  }

  /** After a move, as written: both new lists are computed from the current
      map, the source without the item and the target with the server's item
      appended, and the target list is written last. */
  function MoveCompleted(now: State, itemId: int, fromAgendaId: int, outcome: Outcome<AgendaItem>)
    : (r: State)
    ensures outcome.Err? ==> r == now
    ensures r == now.(items := r.items)
    ensures outcome.Ok? ==> var to := outcome.value.agendaId;
              to in r.items && r.items[to] == ListOf(now.items, to) + [outcome.value]
              && (fromAgendaId != to ==>
                    fromAgendaId in r.items
                    && r.items[fromAgendaId] == WithoutAgendaItem(ListOf(now.items, fromAgendaId), itemId))
              && forall k :: k != to && k != fromAgendaId ==>
                   (k in r.items <==> k in now.items) && (k in now.items ==> r.items[k] == now.items[k])
  {
    match outcome
    case Err => now
    case Ok(item) =>
      now.(items := now.items[fromAgendaId := WithoutAgendaItem(ListOf(now.items, fromAgendaId), itemId)]
                             [item.agendaId := ListOf(now.items, item.agendaId) + [item]])
  }

  /** Moving an item into the agenda it is already in keeps the original and
      appends the moved copy, so the id appears twice. */
  lemma MoveIntoSameAgendaDuplicates()
    ensures var x := AgendaItem(5, "call", Todo, 0, 1);
            var s := Init().(items := map[1 := [x]]);
            MoveCompleted(s, 5, 1, Ok(x)).items[1] == [x, x]
  {
  }

  /** The corrected move: the target list is taken from the map after the
      removal. */
  function MoveCompletedFixed(now: State, itemId: int, fromAgendaId: int, outcome: Outcome<AgendaItem>)
    : (r: State)
    ensures outcome.Err? ==> r == now
    ensures r == now.(items := r.items)
    ensures outcome.Ok? ==> var to := outcome.value.agendaId;
              var removed := now.items[fromAgendaId := WithoutAgendaItem(ListOf(now.items, fromAgendaId), itemId)];
              to in r.items && r.items[to] == ListOf(removed, to) + [outcome.value]
              && (fromAgendaId != to ==> fromAgendaId in r.items && r.items[fromAgendaId] == removed[fromAgendaId])
  {
    match outcome
    case Err => now
    case Ok(item) =>
      var removed := now.items[fromAgendaId := WithoutAgendaItem(ListOf(now.items, fromAgendaId), itemId)];
      now.(items := removed[item.agendaId := ListOf(removed, item.agendaId) + [item]])
  }

  /** With the corrected move the moved id is in the target list once, as its
      last entry, also when source and target are the same agenda; and it is no
      longer in a different source list. */
  lemma MoveFixedKeepsOneCopy(now: State, itemId: int, fromAgendaId: int, item: AgendaItem)
    requires item.id == itemId
    requires item.agendaId == fromAgendaId || itemId !in AgendaItemIds(ListOf(now.items, item.agendaId))
    ensures var r := MoveCompletedFixed(now, itemId, fromAgendaId, Ok(item)).items;
            var l := r[item.agendaId];
            |l| > 0 && l[|l| - 1] == item && forall i :: 0 <= i < |l| - 1 ==> l[i].id != itemId
    ensures var r := MoveCompletedFixed(now, itemId, fromAgendaId, Ok(item)).items;
            item.agendaId != fromAgendaId ==> itemId !in AgendaItemIds(r[fromAgendaId])
  {
    var r := MoveCompletedFixed(now, itemId, fromAgendaId, Ok(item)).items;
    var src := ListOf(now.items, fromAgendaId);
    var kept := WithoutAgendaItem(src, itemId);
    forall i | 0 <= i < |kept|
      ensures kept[i].id != itemId
    {
      WithoutAgendaItemMembers(src, itemId, kept[i]);
    }
    if item.agendaId != fromAgendaId {
      var l := r[item.agendaId];
      var prior := ListOf(now.items, item.agendaId);
      assert l == prior + [item];
      forall i | 0 <= i < |prior|
        ensures prior[i].id != itemId
      {
        assert AgendaItemIds(prior)[i] == prior[i].id;
      }
    }
  }

  // ---- copy targets ----

  /** `copyAgendasMap`; `today` and `tomorrow` are the current- and next-month
      agendas, as in the source. A missing agenda is `None`. */
  datatype CopyTargets = CopyTargets(today: Option<Agenda>, tomorrow: Option<Agenda>,
                                     currentMonth: Option<Agenda>, nextMonth: Option<Agenda>,
                                     customAgendas: seq<Agenda>)

  function MonthlyAgendas(agendas: seq<Agenda>): seq<Agenda> {
    Filter(agendas, (a: Agenda) => a.agendaType == Monthly)
  }

  function CustomAgendas(agendas: seq<Agenda>): seq<Agenda> {
    Filter(agendas, (a: Agenda) => a.agendaType == Custom)
  }

  /** The caption test: the lower-cased name contains the lower-cased caption. */
  predicate NameMatches(a: Agenda, caption: string) {
    Contains(ToLower(a.name), ToLower(caption))
  }

  /** `find`: the position of the first agenda whose name matches, or -1. */
  function FirstMatch(xs: seq<Agenda>, caption: string): (r: int)
    ensures -1 <= r < |xs|
    ensures r >= 0 ==> NameMatches(xs[r], caption) && forall j :: 0 <= j < r ==> !NameMatches(xs[j], caption)
    ensures r == -1 ==> forall j :: 0 <= j < |xs| ==> !NameMatches(xs[j], caption)
  {
    if |xs| == 0 then -1
    else if NameMatches(xs[0], caption) then 0
    else
      var k := FirstMatch(xs[1..], caption);
      if k == -1 then -1 else k + 1
  }

  /** `xs[i]` where a missing element is `undefined`. */
  function At(xs: seq<Agenda>, i: nat): Option<Agenda> {
    if i < |xs| then Some(xs[i]) else None
  }

  /** The month labels are an abstract function of year and month (the source
      uses the locale's long month name with the year). */
  function ChooseCopyTargets(agendas: seq<Agenda>, selected: CalendarDate,
                             caption: (int, int) -> string): (r: CopyTargets)
    ensures var monthly := MonthlyAgendas(agendas);
            var k := FirstMatch(monthly, caption(selected.year, selected.month));
            r.currentMonth == (if k >= 0 then Some(monthly[k]) else At(monthly, 0))
    ensures var monthly := MonthlyAgendas(agendas);
            var n := MakeDate(selected.year, selected.month + 1, 1);
            var k := FirstMatch(monthly, caption(n.year, n.month));
            r.nextMonth == (if k >= 0 then Some(monthly[k])
                            else if |monthly| > 1 then At(monthly, 1) else At(monthly, 0))
    ensures r.today == r.currentMonth && r.tomorrow == r.nextMonth
    ensures r.customAgendas == CustomAgendas(agendas)
  {
    var monthly := MonthlyAgendas(agendas);
    var nextMonthDate := MakeDate(selected.year, selected.month + 1, 1);
    var cur := FirstMatch(monthly, caption(selected.year, selected.month));
    var nxt := FirstMatch(monthly, caption(nextMonthDate.year, nextMonthDate.month));
    var current := if cur >= 0 then Some(monthly[cur]) else At(monthly, 0);
    var next := if nxt >= 0 then Some(monthly[nxt]) else if |monthly| > 1 then At(monthly, 1) else At(monthly, 0);
    CopyTargets(current, next, current, next, CustomAgendas(agendas))
  }

  /** The targets are drawn from the right agendas: the month targets are
      monthly agendas (present whenever there is one), and the custom targets
      are exactly the custom agendas. */
  lemma CopyTargetsComeFromAgendas(agendas: seq<Agenda>, selected: CalendarDate,
                                   caption: (int, int) -> string, a: Agenda)
    ensures var r := ChooseCopyTargets(agendas, selected, caption);
            (r.currentMonth.Some? <==> MonthlyAgendas(agendas) != [])
            && (r.nextMonth.Some? <==> MonthlyAgendas(agendas) != [])
            && (r.currentMonth.Some? ==> r.currentMonth.value in agendas
                                         && r.currentMonth.value.agendaType == Monthly)
            && (r.nextMonth.Some? ==> r.nextMonth.value in agendas && r.nextMonth.value.agendaType == Monthly)
            && (a in r.customAgendas <==> a in agendas && a.agendaType == Custom)
  {
    var p := (x: Agenda) => x.agendaType == Monthly;
    var monthly := MonthlyAgendas(agendas);
    var r := ChooseCopyTargets(agendas, selected, caption);
    FilterMembers(agendas, (x: Agenda) => x.agendaType == Custom, a);
    if r.currentMonth.Some? {
      assert r.currentMonth.value in monthly;
      FilterMembers(agendas, p, r.currentMonth.value);
    }
    if r.nextMonth.Some? {
      assert r.nextMonth.value in monthly;
      FilterMembers(agendas, p, r.nextMonth.value);
    }
  }
}

=== FILE: agenda_line.dfy ===
/** One agenda line of the settings screen (`AgendaLine.tsx`): the archive
    toggle, the drag rule and the inline name editor. The draft line (id -1)
    is the "add agenda" line. */
module AgendaLine {
  import opened Outcomes
  import opened Text
  import opened PlannerItems
  import opened InlineEdit
  import Settings = SettingsAgendasHook

  predicate IsDraft(a: Agenda) {
    a.id == DraftId
  }

  predicate IsArchived(a: Agenda) {
    a.agendaType == Archived
  }

  /** What the line offers: dragging it, dropping onto it, the drag handle,
      and the archive and delete buttons. */
  datatype Controls = Controls(draggable: bool, dropTarget: bool, handle: bool, actions: bool)

  /** Lines other than the draft and the archived ones can be dragged and
      dropped onto; every line but the draft has the buttons. */
  function ControlsOf(a: Agenda): (r: Controls)
    ensures r.draggable == r.dropTarget == r.handle == (!IsDraft(a) && !IsArchived(a))
    ensures r.actions == !IsDraft(a)
  {
    var movable := !IsDraft(a) && !IsArchived(a);
    Controls(movable, movable, movable, !IsDraft(a))
  }

  /** The archive button: an archived agenda goes back to `custom`, any other
      becomes `archived`. */
  function ArchiveChanges(a: Agenda): (r: Settings.AgendaChanges)
    ensures r.name.None? && r.agendaType.Some?
    ensures IsArchived(a) <==> r.agendaType.value == Custom
    ensures !IsArchived(a) <==> r.agendaType.value == Archived
  {
    Settings.AgendaChanges(None, Some(if IsArchived(a) then Custom else Archived))
  }

  /** Archiving and unarchiving gives the agenda back exactly when it was a
      custom (or archived) one: a monthly or backlog agenda comes back as
      custom. */
  lemma ArchiveTwice(a: Agenda)
    ensures var once := Settings.ApplyAgendaChanges(a, ArchiveChanges(a));
            var twice := Settings.ApplyAgendaChanges(once, ArchiveChanges(once));
            (twice == a <==> a.agendaType == Custom || a.agendaType == Archived)
            && twice.agendaType == (if IsArchived(a) then Archived else Custom)
  {
  }

  /** Pressing the archive button of a line flips whether it can be dragged. */
  lemma ArchiveFlipsDragging(a: Agenda)
    requires !IsDraft(a)
    ensures ControlsOf(Settings.ApplyAgendaChanges(a, ArchiveChanges(a))).draggable == !ControlsOf(a).draggable
  {
  }

  /** The name editor; a sent name becomes `{ name }`. */
  function Edit(a: Agenda, e: Editor, ev: Event): (r: (Editor, Option<Settings.AgendaChanges>))
    ensures var rx := React(e, IsDraft(a), IsDraft(a), a.name, AgendaNameMaxLength, ev);
            r.0 == rx.editor
            && (r.1.Some? <==> rx.sent.Some?)
            && (r.1.Some? ==> r.1.value == Settings.AgendaChanges(Some(rx.sent.value), None))
  {
    var rx := React(e, IsDraft(a), IsDraft(a), a.name, AgendaNameMaxLength, ev);
    (rx.editor, if rx.sent.Some? then Some(Settings.AgendaChanges(Some(rx.sent.value), None)) else None)
  }

  /** Committing a blank name on an existing line leaves edit mode, and the
      hook then drops the update, so the old name stays in the list while the
      line shows it again on its next render. */
  lemma BlankRenameDropped(s: Settings.State, a: Agenda, e: Editor, ev: Event)
    requires !IsDraft(a) && e.editing && IsBlank(e.value)
    requires ev == KeyDown(Enter) || ev == Blur
    ensures var (ed, changes) := Edit(a, e, ev);
            !ed.editing && changes.Some?
            && Settings.BeginUpdate(s, a.id, changes.value) == Settings.Quiet(s)
  {
  }
}

=== FILE: agendas_view.dfy ===
/** The agenda column of the planner (`PlannerAgendas.tsx`): the drag-over
    reorder of one agenda's rows, the drag-end sequence, the draft row that
    adds items, and the per-agenda collapse flags. */
module AgendasView {
  import opened Outcomes
  import opened Text
  import opened Lists
  import opened PlannerItems
  import Hook = AgendaItemsHook

  /** The row at `index` of agenda `agendaId` is dragged over: the list handed
      to the reorder handler, or `None` when the handler returns early. The
      dragged item is looked up by id (`findIndex`); a miss (-1) makes `splice`
      take the last row. */
  function DragOver(drag: Option<AgendaItem>, agendaId: int, items: seq<AgendaItem>, index: int)
    : (r: Option<seq<AgendaItem>>)
    requires 0 <= index < |items|
    ensures drag.None? || drag.value.agendaId != agendaId ==> r.None?
    ensures r.Some? ==> |r.value| == |items| && multiset(r.value) == multiset(items)
  {
    if drag.None? || drag.value.agendaId != agendaId then None
    else
      var from := IndexOf(AgendaItemIds(items), drag.value.id);
      if from == index then None
      else Some(MoveTo(items, SpliceStart(|items|, from), index))
  }

  /** When the dragged item is in the list, a drag-over over another row moves
      exactly it to the hovered position, keeping the other rows in order; over
      its own row nothing happens. */
  lemma DragOverMovesDragged(drag: AgendaItem, items: seq<AgendaItem>, index: int)
    requires 0 <= index < |items| && drag.id in AgendaItemIds(items)
    ensures var from := IndexOf(AgendaItemIds(items), drag.id);
            var r := DragOver(Some(drag), drag.agendaId, items, index);
            (r.None? <==> from == index)
            && (r.Some? ==> r.value[index] == items[from] && r.value[index].id == drag.id
                            && Remove(r.value, index) == Remove(items, from))
  {
  }

  /** Moving the row back where it came from restores the list. */
  lemma DragOverUndone(drag: AgendaItem, items: seq<AgendaItem>, index: int)
    requires 0 <= index < |items| && drag.id in AgendaItemIds(items)
    requires DragOver(Some(drag), drag.agendaId, items, index).Some?
    ensures var from := IndexOf(AgendaItemIds(items), drag.id);
            MoveTo(DragOver(Some(drag), drag.agendaId, items, index).value, index, from) == items
  {
    var from := IndexOf(AgendaItemIds(items), drag.id);
    MoveToInverse(items, from, index);
  }

  /** Drag end: the hook's drag-end handler runs first (it decides whether to
      commit), then the reorder handler runs again with the list on screen. */
  function DragEndSequence(s: Hook.State, agendaId: int, shown: seq<AgendaItem>): (r: Hook.Step)
    ensures r.calls == Hook.DragEnd(s).calls
    ensures r.state == Hook.HandleReorder(Hook.DragEnd(s).state, agendaId, shown)
  {
    var ended := Hook.DragEnd(s);
    Hook.Step(Hook.HandleReorder(ended.state, agendaId, shown), ended.calls, ended.errors)
  }

  /** Re-applying the list on screen records it as both the recorded and the
      pending order, so a further drag end without a move commits nothing. */
  lemma DragEndSettlesOrder(s: Hook.State, agendaId: int)
    ensures var shown := ListOf(s.items, agendaId);
            var r := DragEndSequence(s, agendaId, shown);
            r.state.drag.None? && Hook.ApplyUpdatedOrder(r.state, agendaId).calls == []
            && Hook.DragEnd(r.state).calls == []
  {
    var shown := ListOf(s.items, agendaId);
    var ended := Hook.DragEnd(s).state;
    assert ended.items == s.items;
  }

  /** The draft row at the end of every agenda. */
  function DraftItem(agendaId: int): (r: AgendaItem)
    ensures r.id == DraftId && r.text == "" && r.state == Todo && r.index == -1 && r.agendaId == agendaId
  {
    AgendaItem(DraftId, "", Todo, -1, agendaId)
  }

  /** Editing the draft row: an add for the agenda when the text trims to
      something, otherwise nothing. */
  function DraftUpdate(agendaId: int, changes: ItemChanges): (r: Option<Hook.Call>)
    ensures r.Some? <==> changes.text.Some? && !IsBlank(changes.text.value)
    ensures r.Some? ==> r.value == Hook.CreateItem(agendaId, changes.text.value)
  {
    if changes.text.Some? && !IsBlank(changes.text.value) then
      Some(Hook.CreateItem(agendaId, changes.text.value))
    else None
  }

  /** The draft row's guard agrees with the hook's own: whatever the row lets
      through is exactly what the hook sends. */
  lemma DraftGuardMatchesHook(agendaId: int, text: string)
    ensures DraftUpdate(agendaId, ItemChanges(Some(text), None)).Some?
            <==> Hook.AddCalls(agendaId, text) != []
    ensures DraftUpdate(agendaId, ItemChanges(Some(text), None)).Some? ==>
              Hook.AddCalls(agendaId, text) == [DraftUpdate(agendaId, ItemChanges(Some(text), None)).value]
  {
  }

  /** `collapsedAgendas[id]`, where a missing entry reads as not collapsed. */
  function Collapsed(flags: map<int, bool>, agendaId: int): bool {
    agendaId in flags && flags[agendaId]
  }

  /** `toggleAgendaCollapse`: flips that agenda's flag only. */
  function ToggleCollapse(flags: map<int, bool>, agendaId: int): (r: map<int, bool>)
    ensures Collapsed(r, agendaId) == !Collapsed(flags, agendaId)
    ensures forall k :: k != agendaId ==> (k in r <==> k in flags) && (k in flags ==> r[k] == flags[k])
  {
    flags[agendaId := !Collapsed(flags, agendaId)]
  }

  /** Toggling twice shows every agenda as before. */
  lemma ToggleTwice(flags: map<int, bool>, agendaId: int, k: int)
    ensures Collapsed(ToggleCollapse(ToggleCollapse(flags, agendaId), agendaId), k) == Collapsed(flags, k)
  {
  }

  /** An agenda's rows, draft included, are shown exactly when it is not
      collapsed; the draft is never one of the listed rows. */
  function ShownRows(flags: map<int, bool>, agendaId: int, items: seq<AgendaItem>): (r: seq<AgendaItem>)
    ensures Collapsed(flags, agendaId) ==> r == []
    ensures !Collapsed(flags, agendaId) ==> r == items + [DraftItem(agendaId)]
  {
    if Collapsed(flags, agendaId) then [] else items + [DraftItem(agendaId)]
  }
}

=== FILE: auth_api.dfy ===
/** The user records, token storage and the axios interceptors of the API
    client (`auth.ts`). `localStorage` is a map from keys to strings; the
    page's path and the refresh call's result are parameters. */
module AuthApi {
  import opened Outcomes
  import Text
  import CalendarView

  type WeekStartDay = CalendarView.WeekStart

  datatype User = User(username: string, email: string, weekStartDay: WeekStartDay)

  /** `UserUpdate`: every field is optional. */
  datatype UserUpdate = UserUpdate(username: Option<string>, email: Option<string>, weekStartDay: Option<WeekStartDay>)

  predicate IsEmptyUpdate(u: UserUpdate) {
    u.username.None? && u.email.None? && u.weekStartDay.None?
  }

  /** What the server makes of an update: given fields replace the user's,
      absent ones keep them. */
  function ApplyUpdate(user: User, u: UserUpdate): User {
    User(u.username.GetOr(user.username), u.email.GetOr(user.email), u.weekStartDay.GetOr(user.weekStartDay))
  }

  datatype Credentials = Credentials(username: string, password: string)

  datatype Signup = Signup(username: string, email: string, password: string)

  const AuthTokenKey := "auth_token"
  const TokenTypeKey := "token_type"
  const RefreshTokenKey := "refresh_token"
  const RefreshEndpoint := "/auth/refresh_token/"
  const SigninPath := "/signin/"
  const Unauthorized := 401

  type LocalStorage = map<string, string>

  /** The server's token; the refresh token is optional. */
  datatype Token = Token(accessToken: string, tokenType: string, refreshToken: Option<string>)

  /** JavaScript truthiness of an optional string. */
  predicate Truthy(s: Option<string>) {
    s.Some? && s.value != ""
  }

  function Lookup(ls: LocalStorage, key: string): Option<string> {
    if key in ls then Some(ls[key]) else None
  }

  /** `storeToken`: the access token and its type are always written, the
      refresh token only when it is present and non-empty. */
  function StoreToken(ls: LocalStorage, t: Token): (r: LocalStorage)
    ensures Lookup(r, AuthTokenKey) == Some(t.accessToken) && Lookup(r, TokenTypeKey) == Some(t.tokenType)
    ensures Truthy(t.refreshToken) ==> Lookup(r, RefreshTokenKey) == t.refreshToken
    ensures !Truthy(t.refreshToken) ==> Lookup(r, RefreshTokenKey) == Lookup(ls, RefreshTokenKey)
    ensures forall k :: k in ls && k !in {AuthTokenKey, TokenTypeKey, RefreshTokenKey} ==>
              k in r && r[k] == ls[k]
  {
    var written := ls[AuthTokenKey := t.accessToken][TokenTypeKey := t.tokenType];
    if Truthy(t.refreshToken) then written[RefreshTokenKey := t.refreshToken.value] else written
  }

  /** `getToken`: a token exists only when both the access token and its type
      are stored non-empty; an empty refresh token reads as absent. */
  function GetToken(ls: LocalStorage): (r: Option<Token>)
    ensures r.Some? <==> Truthy(Lookup(ls, AuthTokenKey)) && Truthy(Lookup(ls, TokenTypeKey))
    ensures r.Some? ==> (r.value.accessToken == ls[AuthTokenKey]
                         && r.value.tokenType == ls[TokenTypeKey]
                         && (r.value.refreshToken.Some? <==> Truthy(Lookup(ls, RefreshTokenKey)))
                         && (r.value.refreshToken.Some? ==> r.value.refreshToken.value == ls[RefreshTokenKey]))
  {
    var access := Lookup(ls, AuthTokenKey);
    var kind := Lookup(ls, TokenTypeKey);
    var refresh := Lookup(ls, RefreshTokenKey);
    if Truthy(access) && Truthy(kind) then
      Some(Token(access.value, kind.value, if Truthy(refresh) then refresh else None))
    else None
  }

  /** `removeToken`: all three keys go, nothing else does. */
  function RemoveToken(ls: LocalStorage): (r: LocalStorage)
    ensures AuthTokenKey !in r && TokenTypeKey !in r && RefreshTokenKey !in r
    ensures forall k :: k in ls && k !in {AuthTokenKey, TokenTypeKey, RefreshTokenKey} ==>
              k in r && r[k] == ls[k]
  {
    ls - {AuthTokenKey, TokenTypeKey, RefreshTokenKey}
  }

  /** `isAuthenticated`: `Boolean(getToken())`, so signed in exactly when both
      the access token and its type are stored non-empty. */
  function IsAuthenticated(ls: LocalStorage): (r: bool)
    ensures r <==> Truthy(Lookup(ls, AuthTokenKey)) && Truthy(Lookup(ls, TokenTypeKey))
  {
    GetToken(ls).Some?
  }

  /** Storing a token with a non-empty access token and type reads it back;
      a refresh token is kept from before when the new token carries none. */
  lemma StoreThenGet(ls: LocalStorage, t: Token)
    requires t.accessToken != "" && t.tokenType != ""
    ensures GetToken(StoreToken(ls, t)).Some?
    ensures GetToken(StoreToken(ls, t)).value.accessToken == t.accessToken
    ensures GetToken(StoreToken(ls, t)).value.tokenType == t.tokenType
    ensures GetToken(StoreToken(ls, t)).value.refreshToken ==
              if Truthy(t.refreshToken) then t.refreshToken
              else GetRefresh(ls)
  {
  }

  /** The refresh token that `getToken` would report, read on its own. */
  function GetRefresh(ls: LocalStorage): (r: Option<string>)
    ensures r.Some? ==> r.value != ""
  {
    if Truthy(Lookup(ls, RefreshTokenKey)) then Lookup(ls, RefreshTokenKey) else None
  }

  /** Storing a token whose access token or type is empty leaves the user
      signed out. */
  lemma StoreEmptySignsOut(ls: LocalStorage, t: Token)
    requires t.accessToken == "" || t.tokenType == ""
    ensures !IsAuthenticated(StoreToken(ls, t))
  {
  }

  lemma RemoveSignsOut(ls: LocalStorage)
    ensures !IsAuthenticated(RemoveToken(ls)) && GetRefresh(RemoveToken(ls)).None?
  {
  }

  /** A request as the interceptors see it. */
  datatype Request = Request(url: string, retried: bool, authorization: Option<string>)

  function Bearer(accessToken: string): string {
    "Bearer " + accessToken
  }

  /** The request interceptor: a stored token sets the `Authorization`
      header, otherwise the request goes out as it is. */
  function Authorize(ls: LocalStorage, req: Request): (r: Request)
    ensures r.url == req.url && r.retried == req.retried
    ensures IsAuthenticated(ls) ==> r.authorization == Some(Bearer(ls[AuthTokenKey]))
    ensures !IsAuthenticated(ls) ==> r == req
  {
    match GetToken(ls)
    case Some(t) => req.(authorization := Some(Bearer(t.accessToken)))
    case None => req
  }

  /** What the response interceptor does next with a failed request. */
  datatype Next =
    | Rejected                         // the error reaches the caller
    | Refresh(refreshToken: string)    // a refresh call is made first
    | Retry                            // the request is sent again

  datatype Reaction = Reaction(storage: LocalStorage, request: Request, redirectToSignin: bool, next: Next)

  /** The guard in front of a refresh: a 401, on a request not retried
      before, that is not itself the refresh call. */
  predicate MayRefresh(status: Option<int>, req: Request) {
    status == Some(Unauthorized) && !req.retried && !Text.Contains(req.url, RefreshEndpoint)
  }

  /** The sign-out path shared by both failures: drop the token and go to
      the sign-in page unless already there. */
  function SignOut(ls: LocalStorage, req: Request, pathname: string): (r: Reaction)
    ensures !IsAuthenticated(r.storage) && r.next == Rejected
    ensures r.redirectToSignin <==> !Text.Contains(pathname, SigninPath)
  {
    Reaction(RemoveToken(ls), req, !Text.Contains(pathname, SigninPath), Rejected)
  }

  /** The response interceptor on an error, up to the refresh call. */
  function OnResponseError(ls: LocalStorage, status: Option<int>, req: Request, pathname: string): (r: Reaction)
    ensures !MayRefresh(status, req) ==> r == Reaction(ls, req, false, Rejected)
    ensures MayRefresh(status, req) ==> r.request == req.(retried := true)
    ensures r.next.Refresh? <==> MayRefresh(status, req) && GetRefresh(ls).Some? && IsAuthenticated(ls)
    ensures r.next.Refresh? ==> Some(r.next.refreshToken) == GetRefresh(ls) && r.storage == ls && !r.redirectToSignin
    ensures MayRefresh(status, req) && !r.next.Refresh? ==>
              r.next == Rejected && !IsAuthenticated(r.storage)
              && (r.redirectToSignin <==> !Text.Contains(pathname, SigninPath))
    ensures r.next != Retry
  {
    if !MayRefresh(status, req) then Reaction(ls, req, false, Rejected)
    else
      var marked := req.(retried := true);
      match GetToken(ls)
      case Some(Token(_, _, Some(refresh))) => Reaction(ls, marked, false, Refresh(refresh))
      case _ => SignOut(ls, marked, pathname)
  }

  /** The response interceptor once the refresh call settles: a new token is
      stored and the request is retried with it; a failure signs out. */
  function RefreshSettled(ls: LocalStorage, req: Request, refreshed: Outcome<Token>, pathname: string): (r: Reaction)
    ensures refreshed.Ok? ==> r.next == Retry && !r.redirectToSignin
                              && r.storage == StoreToken(ls, refreshed.value)
                              && r.request == req.(authorization := Some(Bearer(refreshed.value.accessToken)))
    ensures refreshed.Err? ==> r.next == Rejected && !IsAuthenticated(r.storage) && r.request == req
                               && (r.redirectToSignin <==> !Text.Contains(pathname, SigninPath))
  {
    match refreshed
    case Ok(t) => Reaction(StoreToken(ls, t), req.(authorization := Some(Bearer(t.accessToken))), false, Retry)
    case Err => SignOut(ls, req, pathname)
  }

  /** At most one refresh per request: the retried request, failing again,
      is rejected without another refresh. */
  lemma AtMostOneRefresh(ls: LocalStorage, status: Option<int>, req: Request, pathname: string,
                         refreshed: Outcome<Token>, status2: Option<int>, pathname2: string)
    requires OnResponseError(ls, status, req, pathname).next.Refresh?
    ensures var first := OnResponseError(ls, status, req, pathname);
            var settled := RefreshSettled(first.storage, first.request, refreshed, pathname);
            OnResponseError(settled.storage, status2, settled.request, pathname2).next == Rejected
  {
  }

  /** A 401 from the refresh endpoint itself never starts a refresh. */
  lemma RefreshCallNeverRefreshes(ls: LocalStorage, status: Option<int>, req: Request, pathname: string)
    requires Text.Contains(req.url, RefreshEndpoint)
    ensures OnResponseError(ls, status, req, pathname) == Reaction(ls, req, false, Rejected)
  {
  }

  /** The header set on the retried request is the one the request
      interceptor derives from the stored token, whenever the new token is
      complete enough to be read back. */
  lemma RetryHeaderMatchesInterceptor(ls: LocalStorage, req: Request, t: Token, pathname: string)
    requires t.accessToken != "" && t.tokenType != ""
    ensures var settled := RefreshSettled(ls, req, Ok(t), pathname);
            Authorize(settled.storage, settled.request) == settled.request
  {
    StoreThenGet(ls, t);
  }
}

=== FILE: auth_session.dfy ===
/** The signed-in session (`AuthContext.tsx`): the current user, the loading
    flag and the stored token, moved by the sign-in, sign-up, update and
    sign-out handlers. Each handler is split at its awaits; the server's
    answers are parameters, and `failed` says the handler's promise rejects
    to its caller. */
module AuthSession {
  import opened Outcomes
  import opened AuthApi

  datatype Session = Session(user: Option<User>, loading: bool, storage: LocalStorage)

  datatype Call = FetchUser | SigninCall(credentials: Credentials) | SignupCall(data: Signup) | UpdateUserCall(update: UserUpdate)

  datatype Step = Step(session: Session, calls: seq<Call>, failed: bool)

  /** The context's `isAuthenticated`: a user has been loaded. */
  predicate IsAuthenticated(s: Session) {
    s.user.Some?
  }

  /** The provider starts with no user, loading, on the storage as found. */
  function Initial(storage: LocalStorage): (r: Session)
    ensures !IsAuthenticated(r) && r.loading && r.storage == storage
  {
    Session(None, true, storage)
  }

  /** `checkAuth` up to its await: the user is fetched only when a token is
      stored; otherwise loading ends at once. */
  function CheckAuth(s: Session): (r: Step)
    ensures r.session.user == s.user && r.session.storage == s.storage && !r.failed
    ensures AuthApi.IsAuthenticated(s.storage) <==> r.calls == [FetchUser]
    ensures !AuthApi.IsAuthenticated(s.storage) <==> r.calls == [] && !r.session.loading
  {
    if AuthApi.IsAuthenticated(s.storage) then Step(s.(loading := true), [FetchUser], false)
    else Step(s.(loading := false), [], false)
  }

  /** `checkAuth` after the fetch: a failure is caught and drops the token;
      loading ends either way. */
  function CheckAuthFetched(s: Session, fetched: Outcome<User>): (r: Step)
    ensures !r.session.loading && r.calls == [] && !r.failed
    ensures fetched.Ok? ==> r.session.user == Some(fetched.value) && r.session.storage == s.storage
    ensures fetched.Err? ==> r.session.user == s.user && !AuthApi.IsAuthenticated(r.session.storage)
  {
    match fetched
    case Ok(u) => Step(s.(user := Some(u), loading := false), [], false)
    case Err => Step(s.(storage := RemoveToken(s.storage), loading := false), [], false)
  }

  /** `fetchUser`: the fetched user replaces the current one; a failure
      rejects and changes nothing. */
  function UserFetched(s: Session, fetched: Outcome<User>): (r: Step)
    ensures r.calls == [] && r.session.loading == s.loading && r.session.storage == s.storage
    ensures r.failed <==> fetched.Err?
    ensures r.session.user == if fetched.Ok? then Some(fetched.value) else s.user
  {
    match fetched
    case Ok(u) => Step(s.(user := Some(u)), [], false)
    case Err => Step(s, [], true)
  }

  /** The `finally` of a handler: loading ends and nothing else changes. */
  function Settle(st: Step): (r: Step)
    ensures r.session == st.session.(loading := false) && r.calls == st.calls && r.failed == st.failed
  {
    st.(session := st.session.(loading := false))
  }

  /** `signin` up to its first await: loading starts and the credentials are
      sent; user and token are untouched until the answers arrive. */
  function Signin(s: Session, credentials: Credentials): (r: Step)
    ensures r.session.loading && r.session.user == s.user && r.session.storage == s.storage
    ensures r.calls == [SigninCall(credentials)] && !r.failed
  {
    Step(s.(loading := true), [SigninCall(credentials)], false)
  }

  /** `signin` after the token arrives: it is stored and the user fetched;
      a failure ends loading and rejects. */
  function SigninResponded(s: Session, token: Outcome<Token>): (r: Step)
    ensures token.Ok? ==> r == Step(s.(storage := StoreToken(s.storage, token.value)), [FetchUser], false)
    ensures token.Err? ==> r == Step(s.(loading := false), [], true)
  {
    match token
    case Ok(t) => Step(s.(storage := StoreToken(s.storage, t)), [FetchUser], false)
    case Err => Settle(Step(s, [], true))
  }

  /** `signin` (and `updateUser`) after the user arrives: loading ends
      either way; the fetched user replaces the current one, and a failed
      fetch rejects and keeps the user and the token. */
  function SigninFetched(s: Session, fetched: Outcome<User>): (r: Step)
    ensures !r.session.loading && r.calls == [] && r.session.storage == s.storage
    ensures r.failed <==> fetched.Err?
    ensures r.session.user == if fetched.Ok? then Some(fetched.value) else s.user
  {
    Settle(UserFetched(s, fetched))
  }

  /** `signup` up to its first await: loading starts and the sign-up data is
      sent; user and token are untouched. */
  function SignupStart(s: Session, data: Signup): (r: Step)
    ensures r.session.loading && r.session.user == s.user && r.session.storage == s.storage
    ensures r.calls == [SignupCall(data)] && !r.failed
  {
    Step(s.(loading := true), [SignupCall(data)], false)
  }

  /** `signup` after the account is created: the returned user is set and
      the new user is signed in with the same name and password. */
  function SignupResponded(s: Session, data: Signup, created: Outcome<User>): (r: Step)
    ensures created.Ok? ==> r.session.user == Some(created.value)
                            && r.calls == [SigninCall(Credentials(data.username, data.password))]
                            && r.session.loading && !r.failed
    ensures created.Err? ==> r == Step(s.(loading := false), [], true)
  {
    match created
    case Ok(u) => Signin(s.(user := Some(u)), Credentials(data.username, data.password))
    case Err => Settle(Step(s, [], true))
  }

  /** `logout`: the token and the user go, so neither the context nor the
      token store says signed in; the loading flag is left alone. */
  function Logout(s: Session): (r: Session)
    ensures !IsAuthenticated(r) && !AuthApi.IsAuthenticated(r.storage)
    ensures r.loading == s.loading
  {
    RemoveSignsOut(s.storage);
    Session(None, s.loading, RemoveToken(s.storage))
  }

  /** `updateUser` up to its first await: loading starts and the update is
      sent; the shown user stays until the refetch. */
  function UpdateUser(s: Session, update: UserUpdate): (r: Step)
    ensures r.session.loading && r.session.user == s.user && r.session.storage == s.storage
    ensures r.calls == [UpdateUserCall(update)] && !r.failed
  {
    Step(s.(loading := true), [UpdateUserCall(update)], false)
  }

  /** `updateUser` after the server answered: the user is fetched again; a
      failure ends loading and rejects. */
  function UpdateResponded(s: Session, answer: Ack): (r: Step)
    ensures answer.Ok? ==> r == Step(s, [FetchUser], false)
    ensures answer.Err? ==> r == Step(s.(loading := false), [], true)
  {
    match answer
    case Ok(_) => Step(s, [FetchUser], false)
    case Err => Settle(Step(s, [], true))
  }

  /** Start-up settles: loading is over whatever the server answers, the
      user is loaded exactly when a token was stored and the fetch
      succeeded, and a failed fetch leaves no token behind. */
  lemma StartupSettles(storage: LocalStorage, fetched: Outcome<User>)
    ensures var first := CheckAuth(Initial(storage));
            var last := if first.calls == [] then first else CheckAuthFetched(first.session, fetched);
            !last.session.loading && !last.failed
            && (IsAuthenticated(last.session) <==> AuthApi.IsAuthenticated(storage) && fetched.Ok?)
            && (AuthApi.IsAuthenticated(storage) && fetched.Err? ==> !AuthApi.IsAuthenticated(last.session.storage))
  {
  }

  /** A sign-in the server accepts, with a complete token, ends signed in on
      both counts: the user is loaded and the token can be read back. */
  lemma SigninSignsIn(s: Session, credentials: Credentials, t: Token, u: User)
    requires t.accessToken != "" && t.tokenType != ""
    ensures var answered := SigninResponded(Signin(s, credentials).session, Ok(t));
            var done := SigninFetched(answered.session, Ok(u));
            done.session.user == Some(u) && !done.session.loading && !done.failed
            && GetToken(done.session.storage).Some?
            && GetToken(done.session.storage).value.accessToken == t.accessToken
  {
    StoreThenGet(s.storage, t);
  }

  /** Every rejected handler ends loading, as its `finally` promises. */
  lemma FailuresEndLoading(s: Session, data: Signup)
    ensures !SigninResponded(s, Err).session.loading && SigninResponded(s, Err).failed
    ensures !SigninFetched(s, Err).session.loading && SigninFetched(s, Err).failed
    ensures !SignupResponded(s, data, Err).session.loading && SignupResponded(s, data, Err).failed
    ensures !UpdateResponded(s, Err).session.loading && UpdateResponded(s, Err).failed
  {
  }

  /** After signing out neither the context nor the token store says the
      user is signed in, and signing out again changes nothing. */
  lemma LogoutSignsOut(s: Session)
    ensures !IsAuthenticated(Logout(s)) && !AuthApi.IsAuthenticated(Logout(s).storage)
    ensures Logout(Logout(s)) == Logout(s)
  {
    assert RemoveToken(RemoveToken(s.storage)) == RemoveToken(s.storage);
  }

  /** An accepted update loads the user again: once the fetch returns what
      the server made of the update, the session holds exactly that. */
  lemma UpdateRefreshesUser(s: Session, update: UserUpdate, before: User)
    requires s.user == Some(before)
    ensures var started := UpdateUser(s, update);
            var answered := UpdateResponded(started.session, Ok(()));
            var done := SigninFetched(answered.session, Ok(ApplyUpdate(before, update)));
            answered.calls == [FetchUser] && answered.session.user == s.user
            && done.session.user == Some(ApplyUpdate(before, update)) && !done.session.loading
  {
  }
}

=== FILE: calendar_view.dfy ===
/** The month grid of the date picker
    (`src/sections/planner/components/Calendar/Calendar.tsx`). */
module CalendarView {
  import opened Outcomes
  import opened Dates
  import DateUtils

  datatype WeekStart = Monday | Sunday

  /** `DAY_NAMES`, Sunday first. */
  const DayNames: seq<string> := ["Su", "Mo", "Tu", "We", "Th", "Fr", "Sa"]

  /** The column headers: with a Monday week start the names rotate by one, so
      Sunday moves to the end. */
  function OrderedDayNames(weekStart: Option<WeekStart>): (r: seq<string>)
    ensures |r| == 7
    ensures forall i :: 0 <= i < 7 ==> r[i] == DayNames[(i + HeaderShift(weekStart)) % 7]
  {
    if weekStart == Some(Monday) then DayNames[1..] + [DayNames[0]] else DayNames
  }

  /** How far the headers are rotated from `DAY_NAMES`. */
  function HeaderShift(weekStart: Option<WeekStart>): int {
    if weekStart == Some(Monday) then 1 else 0
  }

  /** The number of blank cells before day 1: the weekday of the first of the
      shown month, counted from the first column. */
  function FirstDayOffset(shown: CalendarDate, weekStart: Option<WeekStart>): (n: int)
    ensures 0 <= n < 7
    ensures var w := Weekday(FirstOfMonth(shown.year, shown.month));
            n == if weekStart == Some(Monday) then (w + 6) % 7 else w
  {
    var dayOfWeek := Weekday(MakeDate(shown.year, shown.month, 1));
    if weekStart == Some(Monday) then (if dayOfWeek == 0 then 6 else dayOfWeek - 1)
    else dayOfWeek
  }

  /** The first of the month lands under the header of its own weekday. */
  lemma FirstDayUnderItsHeader(shown: CalendarDate, weekStart: Option<WeekStart>)
    ensures OrderedDayNames(weekStart)[FirstDayOffset(shown, weekStart)]
            == DayNames[Weekday(FirstOfMonth(shown.year, shown.month))]
  {
    var w := Weekday(FirstOfMonth(shown.year, shown.month));
    var n := FirstDayOffset(shown, weekStart);
    assert (n + HeaderShift(weekStart)) % 7 == w;
  }

  /** `getDaysInMonth`: the day-of-month of `new Date(year, month + 1, 0)`. */
  function DaysInShownMonth(shown: CalendarDate): (n: int)
    ensures n == DaysInMonth(shown.year, shown.month)
  {
    DayZeroIsLastOfPreviousMonth(shown.year, shown.month);
    MakeDate(shown.year, shown.month + 1, 0).day
  }

  /** The day buttons, numbered from 1. */
  function DayButtons(shown: CalendarDate): (r: seq<int>)
    ensures |r| == DaysInMonth(shown.year, shown.month)
    ensures forall i :: 0 <= i < |r| ==> r[i] == i + 1
  {
    seq(DaysInShownMonth(shown), i => i + 1)
  }

  /** The highlight test of one day button: the button's date of the shown
      month is the selected date. */
  function IsSelected(selected: CalendarDate, shown: CalendarDate, day: int): (r: bool)
    ensures r <==> Date(shown.year, shown.month, day) == selected
  {
    selected.day == day && selected.month == shown.month && selected.year == shown.year
  }

  /** The highlighted buttons: exactly the selected date's button when its
      month is shown, and none otherwise. */
  function SelectedDays(selected: CalendarDate, shown: CalendarDate): (r: set<int>)
    ensures r == if selected.year == shown.year && selected.month == shown.month
                 then {selected.day} else {}
  {
    var buttons := DayButtons(shown);
    assert selected.year == shown.year && selected.month == shown.month ==> buttons[selected.day - 1] == selected.day;
    set i | 0 <= i < |buttons| && IsSelected(selected, shown, buttons[i]) :: buttons[i]
  }

  /** `handleDateClick`: the shown month's date with that day. */
  function DateClick(shown: CalendarDate, day: int): (r: CalendarDate)
    requires 1 <= day <= DaysInMonth(shown.year, shown.month)
    ensures r == Date(shown.year, shown.month, day)
  {
    SetDateInRange(shown, day);
    SetDate(shown, day)
  }

  // ---- month navigation ----

  /** Months since year 0: a month index with no day part. */
  function MonthIndex(d: CalendarDate): int {
    12 * d.year + d.month
  }

  /** `handlePreviousMonth` as written: `setMonth(getMonth() - 1)` on a copy that
      keeps the day-of-month. While that day exists in the previous month the
      move is exactly one month back. */
  function PreviousMonth(shown: CalendarDate): (r: CalendarDate)
    ensures shown.day <= 28 ==> MonthIndex(r) == MonthIndex(shown) - 1 && r.day == shown.day
  {
    SetMonth(shown, shown.month - 1)
  }

  /** `handleNextMonth` as written: `setMonth(getMonth() + 1)`; exactly one
      month forward while the day exists in the next month. */
  function NextMonth(shown: CalendarDate): (r: CalendarDate)
    ensures shown.day <= 28 ==> MonthIndex(r) == MonthIndex(shown) + 1 && r.day == shown.day
  {
    SetMonth(shown, shown.month + 1)
  }

  const January31: CalendarDate := Date(2024, 0, 31)
  const March31: CalendarDate := Date(2024, 2, 31)
  const March2: CalendarDate := Date(2024, 2, 2)

  /** From a 31st the written handlers overshoot: on 2024-01-31 "next" skips
      February, and on 2024-03-31 "previous" stays in March. */
  lemma NavigationOvershoots()
    ensures NextMonth(January31) == March2
    ensures MonthIndex(NextMonth(January31)) == MonthIndex(January31) + 2
    ensures PreviousMonth(March31) == March2
    ensures MonthIndex(PreviousMonth(March31)) == MonthIndex(March31)
  {
    NextFromJanuary31();
    PreviousFromMarch31();
  }

  lemma NextFromJanuary31()
    ensures NextMonth(January31) == March2
  {
    NextMonthOverflows(January31);
    LeapFebruaryPlusThirty();
  }

  lemma PreviousFromMarch31()
    ensures PreviousMonth(March31) == March2
  {
    PreviousMonthOverflows(March31);
    LeapFebruaryPlusThirty();
  }

  /** A January day missing from February rolls past February's 1st. */
  lemma NextMonthOverflows(d: CalendarDate)
    requires d.month == 0 && d.day > DaysInMonth(d.year, 1)
    ensures NextMonth(d) == AddDays(Date(d.year, 1, 1), d.day - 1)
  {
    assert FirstOfMonth(d.year, 1) == Date(d.year, 1, 1);
  }

  /** A March day missing from February rolls past February's 1st. */
  lemma PreviousMonthOverflows(d: CalendarDate)
    requires d.month == 2 && d.day > DaysInMonth(d.year, 1)
    ensures PreviousMonth(d) == AddDays(Date(d.year, 1, 1), d.day - 1)
  {
    assert FirstOfMonth(d.year, 1) == Date(d.year, 1, 1);
  }

  /** February 2024 has 29 days, so thirty days after its 1st is 2 March. */
  lemma LeapFebruaryPlusThirty()
    ensures AddDays(Date(2024, 1, 1), 30) == Date(2024, 2, 2)
  {
    AddDaysWithinMonth(2024, 1, 28);
    AddDaysAdd(Date(2024, 1, 1), 28, 2);
    assert AddDays(Date(2024, 1, 29), 2) == Date(2024, 2, 2) by {
      AddDaysAdd(Date(2024, 1, 29), 1, 1);
    }
  }

  /** The corrected previous-month step: the first of the previous month. */
  function PreviousMonthFixed(shown: CalendarDate): (r: CalendarDate)
    ensures MonthIndex(r) == MonthIndex(shown) - 1 && r.day == 1
  {
    MakeDate(shown.year, shown.month - 1, 1)
  }

  /** The corrected next-month step: the first of the next month. */
  function NextMonthFixed(shown: CalendarDate): (r: CalendarDate)
    ensures MonthIndex(r) == MonthIndex(shown) + 1 && r.day == 1
  {
    MakeDate(shown.year, shown.month + 1, 1)
  }
}

=== FILE: config_template.dfy ===
/** The build script that fills `config.json.template` from the environment
    (`scripts/generate-config.js`): every `${NAME}` whose name is one or more
    word characters is replaced by that variable's value in a single
    left-to-right pass, and an undefined variable stops the script. */
module ConfigTemplate {
  type Env = map<string, string>

  datatype Generated = Written(text: string) | Undefined(key: string)

  function ErrorMessage(key: string): string {
    "Environment variable " + key + " is not defined"
  }

  /** The regular expression's `\w`. */
  predicate IsWordChar(c: char) {
    ('a' <= c <= 'z') || ('A' <= c <= 'Z') || ('0' <= c <= '9') || c == '_'
  }

  predicate IsWord(s: string) {
    |s| > 0 && forall i :: 0 <= i < |s| ==> IsWordChar(s[i])
  }

  /** The length of the run of word characters that starts the text. */
  function WordRun(s: string): (n: nat)
    ensures n <= |s|
    ensures forall i :: 0 <= i < n ==> IsWordChar(s[i])
    ensures n == |s| || !IsWordChar(s[n])
  {
    if |s| > 0 && IsWordChar(s[0]) then 1 + WordRun(s[1..]) else 0
  }

  /** The placeholder the text starts with, as its name and its length. The
      run of word characters is taken whole: a shorter run would be followed
      by a word character, never by the closing brace. */
  function LeadingPlaceholder(t: string): (r: Found)
    ensures r.Found? ==> 3 <= r.len <= |t| && IsWord(r.key) && t[..r.len] == Placeholder(r.key)
  {
    if |t| >= 2 && t[0] == '$' && t[1] == '{' then
      var n := WordRun(t[2..]);
      if n > 0 && 2 + n < |t| && t[2 + n] == '}' then
        assert t[..3 + n] == Placeholder(t[2..2 + n]);
        Found(t[2..2 + n], 3 + n)
      else NotFound
    else NotFound
  }

  /** A placeholder at the start of a text: its name and its length. */
  datatype Found = NotFound | Found(key: string, len: nat)

  function Placeholder(key: string): string {
    "${" + key + "}"
  }

  function Prepend(p: string, g: Generated): (r: Generated)
    ensures g.Undefined? ==> r == g
    ensures g.Written? ==> r == Written(p + g.text)
  {
    match g
    case Written(text) => Written(p + text)
    case Undefined(_) => g
  }

  /** `template.replace(/\$\{(\w+)}/g, ...)`: text outside placeholders is
      copied, each placeholder is replaced by its value, and the first
      undefined name is reported. */
  function Generate(t: string, env: Env): (r: Generated)
    ensures r.Undefined? ==> IsWord(r.key) && r.key !in env
    decreases |t|
  {
    if |t| == 0 then Written("")
    else
      match LeadingPlaceholder(t)
      case Found(key, len) =>
        if key in env then Prepend(env[key], Generate(t[len..], env)) else Undefined(key)
      case NotFound => Prepend(t[..1], Generate(t[1..], env))
  }

  /** A template without a dollar sign comes out unchanged. */
  lemma {:induction false} WithoutDollarUnchanged(t: string, env: Env)
    requires forall i :: 0 <= i < |t| ==> t[i] != '$'
    ensures Generate(t, env) == Written(t)
  {
    if |t| > 0 {
      WithoutDollarUnchanged(t[1..], env);
      assert t[..1] + t[1..] == t;
    }
  }

  /** Text without a dollar sign in front of the rest is copied in front of
      the rest's result. */
  lemma {:induction false} LiteralPrefix(a: string, b: string, env: Env)
    requires forall i :: 0 <= i < |a| ==> a[i] != '$'
    ensures Generate(a + b, env) == Prepend(a, Generate(b, env))
  {
    if |a| == 0 {
      assert a + b == b;
      match Generate(b, env)
      case Written(text) => assert a + text == text;
      case Undefined(_) =>
    } else {
      var t := a + b;
      assert t[0] == a[0] && t[..1] == a[..1];
      assert t[1..] == a[1..] + b;
      LiteralPrefix(a[1..], b, env);
      match Generate(b, env)
      case Written(text) => assert a[..1] + (a[1..] + text) == a + text;
      case Undefined(_) =>
    }
  }

  /** A placeholder in front of the rest is replaced by its value, or
      stops the pass when its name is undefined. */
  lemma PlaceholderPrefix(key: string, b: string, env: Env)
    requires IsWord(key)
    ensures Generate(Placeholder(key) + b, env) ==
              if key in env then Prepend(env[key], Generate(b, env)) else Undefined(key)
  {
    var t := Placeholder(key) + b;
    assert t[2..] == key + ("}" + b);
    assert (key + ("}" + b))[..|key|] == key;
    WordRunOfWord(key, "}" + b);
    assert t[2 + |key|] == '}';
    assert t[2..2 + |key|] == key;
    assert t[3 + |key|..] == b;
  }

  lemma {:induction false} WordRunOfWord(key: string, rest: string)
    requires forall i :: 0 <= i < |key| ==> IsWordChar(key[i])
    requires |rest| > 0 && !IsWordChar(rest[0])
    ensures WordRun(key + rest) == |key|
  {
    if |key| > 0 {
      assert (key + rest)[1..] == key[1..] + rest;
      WordRunOfWord(key[1..], rest);
    } else {
      assert key + rest == rest;
    }
  }

  /** A template as a sequence of literal texts and placeholders. */
  datatype Piece = Literal(text: string) | Variable(name: string)

  predicate WellFormed(pieces: seq<Piece>) {
    forall i :: 0 <= i < |pieces| ==>
      match pieces[i]
      case Literal(text) => forall j :: 0 <= j < |text| ==> text[j] != '$'
      case Variable(name) => IsWord(name)
  }

  function Render(pieces: seq<Piece>): string {
    if |pieces| == 0 then ""
    else
      (match pieces[0]
       case Literal(text) => text
       case Variable(name) => Placeholder(name)) + Render(pieces[1..])
  }

  /** The reference meaning of a template: the literal texts and the values
      in order, or the first undefined name. */
  function Fill(pieces: seq<Piece>, env: Env): Generated {
    if |pieces| == 0 then Written("")
    else
      match pieces[0]
      case Literal(text) => Prepend(text, Fill(pieces[1..], env))
      case Variable(name) =>
        if name in env then Prepend(env[name], Fill(pieces[1..], env)) else Undefined(name)
  }

  /** The script computes the reference meaning of every well-formed
      template; in particular values are inserted as they are and never
      scanned for placeholders again. */
  lemma {:induction false} GenerateFillsTemplate(pieces: seq<Piece>, env: Env)
    requires WellFormed(pieces)
    ensures Generate(Render(pieces), env) == Fill(pieces, env)
  {
    if |pieces| > 0 {
      assert WellFormed(pieces[1..]) by {
        forall i | 0 <= i < |pieces[1..]|
          ensures match pieces[1..][i]
                  case Literal(text) => forall j :: 0 <= j < |text| ==> text[j] != '$'
                  case Variable(name) => IsWord(name)
        {
          assert pieces[1..][i] == pieces[i + 1];
        }
      }
      GenerateFillsTemplate(pieces[1..], env);
      assert match pieces[0]
             case Literal(text) => forall j :: 0 <= j < |text| ==> text[j] != '$'
             case Variable(name) => IsWord(name);
      match pieces[0]
      case Literal(text) => LiteralPrefix(text, Render(pieces[1..]), env);
      case Variable(name) => PlaceholderPrefix(name, Render(pieces[1..]), env);
    }
  }

  /** `${}` and a lone `$` are not placeholders and stay in the output. */
  lemma EmptyBracesStay(env: Env)
    ensures Generate("${}", env) == Written("${}")
  {
    var t := "${}";
    assert LeadingPlaceholder(t).NotFound? by {
      assert t[2..] == "}";
      assert WordRun(t[2..]) == 0;
    }
    assert t[1..] == "{}";
    WithoutDollarUnchanged(t[1..], env);
  }

  /** A value that itself looks like a placeholder is written verbatim. */
  lemma ValueNotRescanned(env: Env)
    requires "A" in env && env["A"] == "${B}" && "B" !in env
    ensures Generate("${A}", env) == Written("${B}")
  {
    assert IsWord("A");
    PlaceholderPrefix("A", "", env);
    assert Placeholder("A") + "" == "${A}";
    assert "${B}" + "" == "${B}";
  }
}

=== FILE: date_selector.dfy ===
/** The strip of dates around the selected day
    (`src/sections/planner/components/DateSelector/DateSelector.tsx`). */
module DateSelector {
  import opened Outcomes
  import opened Dates
  import opened DateUtils

  /** `DATE_SELECTOR_DAYS_COUNT`. */
  const DateSelectorDaysCount: int := 5

  function Max(a: int, b: int): int {
    if a >= b then a else b
  }

  /** `datesList` for a configured count: `max(1, count)` consecutive days
      starting `floor(count / 2)` days before the selected one. */
  function DatesListOf(selected: LocalInstant, daysCount: int): (r: seq<LocalInstant>)
    ensures |r| == Max(1, daysCount)
    ensures forall i :: 0 <= i < |r| ==> r[i].date == AddDays(selected.date, i - |r| / 2)
    ensures forall i :: 0 <= i < |r| ==> r[i].ms == selected.ms
  {
    var count := Max(1, daysCount);
    seq(count, i => DateAt(selected, count / 2, i))
  }

  /** One entry of the list: `start` is the selected date moved back by
      `half`, and the entry is `d.setDate(start.getDate() + i)` on a copy of it. */
  function DateAt(selected: LocalInstant, half: int, i: int): (r: LocalInstant)
    ensures r.date == AddDays(selected.date, i - half) && r.ms == selected.ms
  {
    var start := Instant(SetDate(selected.date, selected.date.day - half), selected.ms);
    SetDateShift(selected.date, -half);
    SetDateShift(start.date, i);
    AddDaysAdd(selected.date, -half, i);
    Instant(SetDate(start.date, start.date.day + i), selected.ms)
  }

  /** The strip as configured: five days, two before and two after the
      selected one, at the selected time of day. */
  function DatesList(selected: LocalInstant): (r: seq<LocalInstant>)
    ensures |r| == 5 && r[2] == selected
    ensures forall i :: 0 <= i < 5 ==> r[i].date == AddDays(selected.date, i - 2) && r[i].ms == selected.ms
  {
    DatesListOf(selected, DateSelectorDaysCount)
  }

  /** The dates are consecutive calendar days. */
  lemma DatesConsecutive(selected: LocalInstant, daysCount: int, i: int)
    requires 0 <= i < |DatesListOf(selected, daysCount)| - 1
    ensures var r := DatesListOf(selected, daysCount); r[i + 1].date == NextDay(r[i].date)
  {
    var r := DatesListOf(selected, daysCount);
    var k := i - |r| / 2;
    AddDaysAdd(selected.date, k, 1);
    AddOneDay(AddDays(selected.date, k));
  }

  /** Exactly the date at index `floor(count / 2)` is the selected day. */
  lemma SelectedAtMiddle(selected: LocalInstant, daysCount: int, i: int)
    requires 0 <= i < |DatesListOf(selected, daysCount)|
    ensures var r := DatesListOf(selected, daysCount);
            IsSameDay(r[i], selected) <==> i == |r| / 2
  {
    var r := DatesListOf(selected, daysCount);
    var k := i - |r| / 2;
    assert r[i].date == AddDays(selected.date, k);
    AddDaysMoves(selected.date, k);
  }

  /** What the strip asks the planner to select, if anything. */
  datatype SelectorEvent = PrevArrow | NextArrow | DateClick(date: LocalInstant) | CalendarPick(date: LocalInstant)

  function OnEvent(selected: LocalInstant, e: SelectorEvent): (r: Option<LocalInstant>)
    ensures e.PrevArrow? ==> r.Some? && DayNumber(r.value.date) == DayNumber(selected.date) - 1
                             && r.value.ms == selected.ms
    ensures e.NextArrow? ==> r.Some? && DayNumber(r.value.date) == DayNumber(selected.date) + 1
                             && r.value.ms == selected.ms
    ensures e.DateClick? ==> r == if e.date.date == selected.date then None else Some(e.date)
    ensures e.CalendarPick? ==> r == Some(e.date)
  {
    HelpersShiftDayNumber(selected);
    match e
    case PrevArrow => Some(GetPrevDay(selected))
    case NextArrow => Some(GetNextDay(selected))
    case DateClick(d) =>
      if IsSameDay(d, selected) then None else Some(d)
    case CalendarPick(d) => Some(d)
  }
}

=== FILE: date_utils.dfy ===
/** The shared date helpers of the client (`src/common/utils/date_utils.ts`)
    and the two `Date` built-ins that cross between local time and UTC.

    A JavaScript `Date` is modelled as a local wall-clock instant: a calendar
    date and the milliseconds elapsed since local midnight. Daylight-saving
    shifts are not modelled; the local zone is a fixed offset in minutes
    (local time = UTC + offset).
 */
module DateUtils {
  import opened Outcomes
  import opened Text
  import opened Dates

  const MsPerDay: int := 86400000

  datatype Instant = Instant(date: CalendarDate, ms: int)

  type LocalInstant = t: Instant | 0 <= t.ms < MsPerDay witness Instant(Date(1970, 0, 1), 0)

  /** A zone offset of a real time zone, in minutes east of UTC. */
  type ZoneOffset = o: int | -840 <= o <= 840

  // ---- formatDateForAPI ----

  /** `String(n).padStart(2, '0')`. */
  function TwoDigits(n: int): string {
    PadStart(IntToString(n), 2, '0')
  }

  /** `formatDateForAPI`: year, then the 1-based month and the day padded to
      two digits. For four-digit years the text is an RFC 3339 section 5.6
      `full-date` that reads back to the same date. */
  function FormatDateForApi(d: CalendarDate): (r: string)
    ensures 1000 <= d.year <= 9999 ==> IsFullDateShape(r) && ParseFullDate(r) == Some(d)
  {
    if 1000 <= d.year <= 9999 then JoinedReadsBack(d); Joined(d) else Joined(d)
  }

  /** The year, the padded month and the padded day, joined by hyphens. */
  function Joined(d: CalendarDate): string {
    IntToString(d.year) + "-" + TwoDigits(d.month + 1) + "-" + TwoDigits(d.day)
  }

  /** For a four-digit year the joined text has the `full-date` shape and
      reads back to the date. */
  lemma JoinedReadsBack(d: CalendarDate)
    requires 1000 <= d.year <= 9999
    ensures IsFullDateShape(Joined(d)) && ParseFullDate(Joined(d)) == Some(d)
  {
    var y, mm, dd := IntToString(d.year), TwoDigits(d.month + 1), TwoDigits(d.day);
    NatToStringLength(d.year);
    assert |y| == 4 && AllDigits(y) && DigitsValue(y) == d.year;
    TwoDigitsOf(d.month + 1);
    TwoDigitsOf(d.day);
    ParseJoined(y, mm, dd);
    assert Date(DigitsValue(y), DigitsValue(mm) - 1, DigitsValue(dd)) == d;
  }

  /** Four digits, a hyphen, two digits, a hyphen, two digits. */
  predicate IsFullDateShape(s: string) {
    && |s| == 10 && s[4] == '-' && s[7] == '-'
    && AllDigits(s[..4]) && AllDigits(s[5..7]) && AllDigits(s[8..])
  }

  /** Where the three parts of a joined `a-b-c` text sit. */
  lemma JoinedParts(a: string, b: string, c: string)
    requires |a| == 4 && |b| == 2 && |c| == 2
    ensures var s := a + "-" + b + "-" + c;
            |s| == 10 && s[..4] == a && s[4] == '-' && s[5..7] == b && s[7] == '-' && s[8..] == c
  {
  }

  /** Reads an RFC 3339 section 5.6 `full-date` (`YYYY-MM-DD`) back into a
      calendar date; the partner of `FormatDateForApi`. */
  function ParseFullDate(s: string): (r: Option<CalendarDate>)
    ensures r.Some? ==> IsFullDateShape(s)
  {
    if !IsFullDateShape(s) then None
    else
      var d := Date(DigitsValue(s[..4]), DigitsValue(s[5..7]) - 1, DigitsValue(s[8..]));
      if Valid(d) then Some(d) else None
  }

  lemma TwoDigitsOf(n: int)
    requires 1 <= n <= 99
    ensures |TwoDigits(n)| == 2 && AllDigits(TwoDigits(n))
    ensures DigitsValue(TwoDigits(n)) == n
  {
    NatToStringLength(n);
    NatToStringRoundTrip(n);
    var t := TwoDigits(n);
    if n < 10 {
      assert t == ['0'] + NatToString(n);
      assert t[..1] == ['0'];
    } else {
      assert t == NatToString(n);
    }
  }

  /** Parsing a joined `a-b-c` text reads the three numerals. */
  lemma ParseJoined(a: string, b: string, c: string)
    requires |a| == 4 && |b| == 2 && |c| == 2 && AllDigits(a) && AllDigits(b) && AllDigits(c)
    ensures var d := Date(DigitsValue(a), DigitsValue(b) - 1, DigitsValue(c));
            ParseFullDate(a + "-" + b + "-" + c) == if Valid(d) then Some(d) else None
  {
    JoinedParts(a, b, c);
  }

  /** Parsing a formatted four-digit-year date gives the date back. */
  lemma FullDateRoundTrip(d: CalendarDate)
    requires 1000 <= d.year <= 9999
    ensures ParseFullDate(FormatDateForApi(d)) == Some(d)
  {
  }

  /** The other direction: a `full-date` text whose year does not start with
      a zero is exactly the API text of the date it parses to. */
  lemma FormatParsed(s: string)
    requires ParseFullDate(s).Some? && s[0] != '0'
    ensures FormatDateForApi(ParseFullDate(s).value) == s
  {
    ParsedParts(s);
    assert s[..4][0] == s[0];
    FourDigitsValue(s[..4]);
    FormatMatchesParts(ParseFullDate(s).value, s);
  }

  /** A four-digit-year date whose numerals are those of a `full-date` text
      formats to that text. */
  lemma FormatMatchesParts(d: CalendarDate, s: string)
    requires 1000 <= d.year <= 9999 && IsFullDateShape(s)
    requires d == Date(DigitsValue(s[..4]), DigitsValue(s[5..7]) - 1, DigitsValue(s[8..]))
    ensures FormatDateForApi(d) == s
  {
    var r := FormatDateForApi(d);
    ParsedParts(r);
    SameNumerals(r, s);
  }

  /** Two `full-date` texts with the same three numeral values are equal. */
  lemma SameNumerals(r: string, s: string)
    requires IsFullDateShape(r) && IsFullDateShape(s)
    requires DigitsValue(r[..4]) == DigitsValue(s[..4])
    requires DigitsValue(r[5..7]) == DigitsValue(s[5..7]) && DigitsValue(r[8..]) == DigitsValue(s[8..])
    ensures r == s
  {
    DigitsValueInjective(r[..4], s[..4]);
    DigitsValueInjective(r[5..7], s[5..7]);
    DigitsValueInjective(r[8..], s[8..]);
    SameParts(r, s);
  }

  lemma ParsedParts(s: string)
    requires ParseFullDate(s).Some?
    ensures IsFullDateShape(s)
    ensures ParseFullDate(s).value == Date(DigitsValue(s[..4]), DigitsValue(s[5..7]) - 1, DigitsValue(s[8..]))
  {
  }

  lemma SameParts(r: string, s: string)
    requires IsFullDateShape(r) && IsFullDateShape(s)
    requires r[..4] == s[..4] && r[5..7] == s[5..7] && r[8..] == s[8..]
    ensures r == s
  {
    forall i | 0 <= i < 10
      ensures r[i] == s[i]
    {
      if i < 4 {
        assert r[i] == r[..4][i];
      } else if 5 <= i < 7 {
        assert r[i] == r[5..7][i - 5] && s[i] == s[5..7][i - 5];
      } else if 8 <= i {
        assert r[i] == r[8..][i - 8] && s[i] == s[8..][i - 8];
      }
    }
  }

  /** Two four-digit-year dates format alike only if they are the same date. */
  lemma FormatDateForApiInjective(a: CalendarDate, b: CalendarDate)
    requires 1000 <= a.year <= 9999 && 1000 <= b.year <= 9999
    ensures FormatDateForApi(a) == FormatDateForApi(b) <==> a == b
  {
    FullDateRoundTrip(a);
    FullDateRoundTrip(b);
  }

  // ---- getPrevDay, getNextDay, getNextWeek, getNextMonth ----

  /** `getPrevDay`: a copy set to `getDate() - 1`; the time of day is kept. */
  function GetPrevDay(t: LocalInstant): (r: LocalInstant)
    ensures r.date == PrevDay(t.date) && r.ms == t.ms
  {
    SetDateShift(t.date, -1);
    AddOneDay(t.date);
    Instant(SetDate(t.date, t.date.day - 1), t.ms)
  }

  /** `getNextDay`: a copy set to `getDate() + 1`. */
  function GetNextDay(t: LocalInstant): (r: LocalInstant)
    ensures r.date == NextDay(t.date) && r.ms == t.ms
  {
    SetDateShift(t.date, 1);
    AddOneDay(t.date);
    Instant(SetDate(t.date, t.date.day + 1), t.ms)
  }

  /** `getNextWeek`: a copy set to `getDate() + 7`. */
  function GetNextWeek(t: LocalInstant): (r: LocalInstant)
    ensures r.date == AddDays(t.date, 7) && r.ms == t.ms
    ensures DayNumber(r.date) == DayNumber(t.date) + 7
  {
    SetDateShift(t.date, 7);
    AddDaysNumber(t.date, 7);
    Instant(SetDate(t.date, t.date.day + 7), t.ms)
  }

  /** `getNextMonth`: a copy set to `getMonth() + 1`. The day-of-month is kept
      when the next month has it; otherwise it rolls over into the month after. */
  function GetNextMonth(t: LocalInstant): (r: LocalInstant)
    ensures r.ms == t.ms
    ensures var n := FirstOfMonth(t.date.year, t.date.month + 1);
            t.date.day <= DaysInMonth(n.year, n.month) ==> r.date == Date(n.year, n.month, t.date.day)
    ensures var n := FirstOfMonth(t.date.year, t.date.month + 1);
            r.date == AddDays(n, t.date.day - 1)
  {
    Instant(SetMonth(t.date, t.date.month + 1), t.ms)
  }

  /** The helpers step by -1, +1 and +7 days in the day count, so they cross
      month and year boundaries. */
  lemma HelpersShiftDayNumber(t: LocalInstant)
    ensures DayNumber(GetPrevDay(t).date) == DayNumber(t.date) - 1
    ensures DayNumber(GetNextDay(t).date) == DayNumber(t.date) + 1
    ensures DayNumber(GetNextWeek(t).date) == DayNumber(t.date) + 7
  {
    PrevDayNumber(t.date);
    NextDayNumber(t.date);
  }

  /** January 31 plus one month is March 2 in a leap year: `setMonth` overflow. */
  lemma NextMonthOverflows()
    ensures GetNextMonth(Instant(Date(2024, 0, 31), 0)).date == Date(2024, 2, 2)
  {
    var t := Instant(Date(2024, 0, 31), 0);
    var n := FirstOfMonth(2024, 1);
    assert n == Date(2024, 1, 1);
    AddDaysWithinMonth(2024, 1, 28);
    AddDaysAdd(n, 28, 2);
    assert AddDays(Date(2024, 1, 29), 2) == Date(2024, 2, 2) by {
      AddDaysAdd(Date(2024, 1, 29), 1, 1);
    }
  }

  // ---- isSameDay ----

  function WeekdayName(w: int): string
    requires 0 <= w < 7
  {
    ["Sun", "Mon", "Tue", "Wed", "Thu", "Fri", "Sat"][w]
  }

  function MonthName(m: int): string
    requires 0 <= m < 12
  {
    ["Jan", "Feb", "Mar", "Apr", "May", "Jun", "Jul", "Aug", "Sep", "Oct", "Nov", "Dec"][m]
  }

  /** `toDateString()`: weekday, month, day and year; no time of day. */
  function DateString(t: LocalInstant): string {
    WeekdayName(Weekday(t.date)) + " " + MonthName(t.date.month) + " " + TwoDigits(t.date.day)
    + " " + IntToString(t.date.year)
  }

  /** `isSameDay`: the two `toDateString()` texts are equal, which happens
      exactly when the calendar dates are equal; the time of day is ignored. */
  function IsSameDay(a: LocalInstant, b: LocalInstant): (r: bool)
    ensures r <==> a.date == b.date
  {
    DateStringInjective(a, b);
    DateString(a) == DateString(b)
  }

  lemma IntToStringInjective(a: int, b: int)
    ensures IntToString(a) == IntToString(b) ==> a == b
  {
    NatToStringRoundTrip(if a < 0 then -a else a);
    NatToStringRoundTrip(if b < 0 then -b else b);
    if IntToString(a) == IntToString(b) && (a < 0 || b < 0) {
      var s := IntToString(a);
      assert (a < 0 <==> s[0] == '-') && (b < 0 <==> s[0] == '-');
      assert NatToString(-a) == s[1..];
    }
  }

  /** Reading a month back from its name. */
  function MonthOfName(name: string): int {
    if name == "Jan" then 0 else if name == "Feb" then 1 else if name == "Mar" then 2
    else if name == "Apr" then 3 else if name == "May" then 4 else if name == "Jun" then 5
    else if name == "Jul" then 6 else if name == "Aug" then 7 else if name == "Sep" then 8
    else if name == "Oct" then 9 else if name == "Nov" then 10 else 11
  }

  lemma MonthNameRoundTrip(m: int)
    requires 0 <= m < 12
    ensures MonthOfName(MonthName(m)) == m
  {
  }

  /** The API texts of 10 and 11 June 2024, piece by piece. */
  lemma JuneExampleDays()
    ensures FormatDateForApi(Date(2024, 5, 10)) == "2024-06-10"
    ensures FormatDateForApi(Date(2024, 5, 11)) == "2024-06-11"
  {
    var y, m := IntToString(2024), TwoDigits(6);
    var d10, d11 := TwoDigits(10), TwoDigits(11);
    assert y == "2024" by {
      YearText();
    }
    assert m == "06" by {
      assert IntToString(6) == "6";
    }
    assert d10 == "10" && d11 == "11" by {
      DayTexts();
    }
    assert FormatDateForApi(Date(2024, 5, 10)) == y + "-" + m + "-" + d10;
    assert FormatDateForApi(Date(2024, 5, 11)) == y + "-" + m + "-" + d11;
  }

  lemma YearText()
    ensures IntToString(2024) == "2024"
  {
    assert NatToString(2) == "2";
    assert NatToString(20) == "20";
    assert NatToString(202) == "202";
  }

  lemma DayTexts()
    ensures TwoDigits(10) == "10" && TwoDigits(11) == "11"
  {
    assert NatToString(1) == "1";
    assert IntToString(10) == "10";
    assert IntToString(11) == "11";
  }

  /** Where the parts of a `toDateString()` text sit. */
  lemma DateStringParts(w: string, mo: string, dd: string, y: string)
    requires |w| == 3 && |mo| == 3 && |dd| == 2
    ensures var s := w + " " + mo + " " + dd + " " + y;
            s[4..7] == mo && s[8..10] == dd && s[11..] == y
  {
  }

  /** Where the month, day and year sit in a `toDateString()` text. */
  lemma DateStringReads(t: LocalInstant)
    ensures var s := DateString(t);
            |s| >= 11 && s[4..7] == MonthName(t.date.month) && s[8..10] == TwoDigits(t.date.day)
            && s[11..] == IntToString(t.date.year)
  {
    var w, mo, dd, y := WeekdayName(Weekday(t.date)), MonthName(t.date.month), TwoDigits(t.date.day),
                        IntToString(t.date.year);
    assert |w| == 3 by {
      WeekdayNameLength(Weekday(t.date));
    }
    assert |mo| == 3 by {
      MonthNameLength(t.date.month);
    }
    assert |dd| == 2 by {
      TwoDigitsOf(t.date.day);
    }
    assert DateString(t) == w + " " + mo + " " + dd + " " + y;
    DateStringParts(w, mo, dd, y);
  }

  lemma WeekdayNameLength(w: int)
    requires 0 <= w < 7
    ensures |WeekdayName(w)| == 3
  {
    if w < 4 {
      assert w == 0 || w == 1 || w == 2 || w == 3;
    } else {
      assert w == 4 || w == 5 || w == 6;
    }
  }

  lemma MonthNameLength(m: int)
    requires 0 <= m < 12
    ensures |MonthName(m)| == 3
  {
    if m < 6 {
      assert m == 0 || m == 1 || m == 2 || m == 3 || m == 4 || m == 5;
    } else {
      assert m == 6 || m == 7 || m == 8 || m == 9 || m == 10 || m == 11;
    }
  }

  /** The `toDateString()` text names the calendar date and nothing else. */
  lemma DateStringInjective(a: LocalInstant, b: LocalInstant)
    ensures DateString(a) == DateString(b) <==> a.date == b.date
  {
    if DateString(a) == DateString(b) {
      DateStringReads(a);
      DateStringReads(b);
      var da, db := a.date, b.date;
      assert MonthName(da.month) == MonthName(db.month);
      MonthNameRoundTrip(da.month);
      MonthNameRoundTrip(db.month);
      assert TwoDigits(da.day) == TwoDigits(db.day);
      TwoDigitsOf(da.day);
      TwoDigitsOf(db.day);
      IntToStringInjective(da.year, db.year);
    }
  }

  // ---- new Date('YYYY-MM-DD') and toISOString() ----

  /** `new Date(s)` for a date-only string: ECMAScript reads it as UTC midnight,
      which in a zone `offset` minutes east of UTC is the local instant below.
      A string that is not a date gives an invalid `Date` (`None`). */
  function ParseDayAsUtc(s: string, offset: ZoneOffset): (r: Option<LocalInstant>)
    ensures r.Some? <==> ParseFullDate(s).Some?
    ensures r.Some? && offset >= 0 ==> r.value.date == ParseFullDate(s).value
    ensures r.Some? && offset < 0 ==> r.value.date == PrevDay(ParseFullDate(s).value)
  {
    match ParseFullDate(s)
    case None => None
    case Some(d) =>
      if offset >= 0 then Some(Instant(d, offset * 60000))
      else Some(Instant(PrevDay(d), MsPerDay + offset * 60000))
  }

  /** The UTC calendar date of a local instant. */
  function UtcDate(t: LocalInstant, offset: ZoneOffset): (d: CalendarDate)
    ensures DayNumber(t.date) - 1 <= DayNumber(d) <= DayNumber(t.date) + 1
    ensures offset == 0 ==> d == t.date
  {
    PrevDayNumber(t.date);
    NextDayNumber(t.date);
    var utcMs := t.ms - offset * 60000;
    if utcMs < 0 then PrevDay(t.date)
    else if utcMs >= MsPerDay then NextDay(t.date)
    else t.date
  }

  /** `t.toISOString().split('T')[0]`: the UTC day, as `YYYY-MM-DD`. */
  function IsoDay(t: LocalInstant, offset: ZoneOffset): string {
    FormatDateForApi(UtcDate(t, offset))
  }
}

=== FILE: dates.dfy ===
/** Local calendar dates with the arithmetic of JavaScript's `Date`.

    A date is a proleptic Gregorian (year, month, day) triple, with the month
    counted from 0 as `getMonth()` does. `MakeDate` is the normalisation the
    `Date` constructor, `setDate` and `setMonth` perform: a day or month out of
    range rolls over into the neighbouring months and years.
 */
module Dates {

  datatype Date = Date(year: int, month: int, day: int)

  predicate IsLeapYear(y: int) {
    y % 4 == 0 && (y % 100 != 0 || y % 400 == 0)
  }

  function DaysInMonth(y: int, m: int): (n: int)
    requires 0 <= m < 12
    ensures 28 <= n <= 31
    ensures n == 29 <==> m == 1 && IsLeapYear(y)
  {
    if m == 1 then (if IsLeapYear(y) then 29 else 28)
    else if m == 3 || m == 5 || m == 8 || m == 10 then 30
    else 31
  }

  predicate Valid(d: Date) {
    0 <= d.month < 12 && 1 <= d.day <= DaysInMonth(d.year, d.month)
  }

  type CalendarDate = d: Date | Valid(d) witness Date(1970, 0, 1)

  /** `a` is an earlier calendar day than `b`: year, then month, then day. */
  predicate Before(a: Date, b: Date) {
    a.year < b.year || (a.year == b.year && (a.month < b.month || (a.month == b.month && a.day < b.day)))
  }

  /** The day after `d`, rolling over the month and the year. */
  function NextDay(d: CalendarDate): (r: CalendarDate)
    ensures PrevDay(r) == d
  {
    if d.day < DaysInMonth(d.year, d.month) then Date(d.year, d.month, d.day + 1)
    else if d.month < 11 then Date(d.year, d.month + 1, 1)
    else Date(d.year + 1, 0, 1)
  }

  /** The day before `d`, rolling back the month and the year. */
  function PrevDay(d: CalendarDate): (r: CalendarDate)
    ensures Before(r, d) && d.year - 1 <= r.year
  {
    if d.day > 1 then Date(d.year, d.month, d.day - 1)
    else if d.month > 0 then Date(d.year, d.month - 1, DaysInMonth(d.year, d.month - 1))
    else Date(d.year - 1, 11, 31)
  }

  /** `d` moved by `n` days, forward when `n` is positive and back when negative. */
  function AddDays(d: CalendarDate, n: int): (r: CalendarDate)
    ensures n == 0 ==> r == d
    ensures n > 0 ==> Before(d, r)
    ensures n < 0 ==> Before(r, d)
    decreases if n < 0 then -n else n
  {
    if n == 0 then d
    else if n > 0 then AddDays(NextDay(d), n - 1)
    else AddDays(PrevDay(d), n + 1)
  }

  /** The first day of month `m` of year `y`, with `m` normalised into 0..11 as
      `new Date(y, m, 1)` does (month 12 is January of the next year, -1 is
      December of the previous one). */
  function FirstOfMonth(y: int, m: int): (r: CalendarDate)
    ensures r.day == 1
    ensures r.year == y + m / 12 && r.month == m % 12
  {
    Date(y + m / 12, m % 12, 1)
  }

  /** `new Date(y, m, day)`: out-of-range months and days roll over. */
  function MakeDate(y: int, m: int, day: int): (r: CalendarDate)
    ensures 0 <= m < 12 && 1 <= day <= DaysInMonth(y, m) ==> r == Date(y, m, day)
  {
    if 0 <= m < 12 && 1 <= day <= DaysInMonth(y, m) then
      AddDaysWithinMonth(y, m, day - 1);
      AddDays(FirstOfMonth(y, m), day - 1)
    else
      AddDays(FirstOfMonth(y, m), day - 1)
  }

  /** `d.setDate(day)`: the day-of-month is replaced and normalised. */
  function SetDate(d: CalendarDate, day: int): (r: CalendarDate)
    ensures r == AddDays(d, day - d.day)
    ensures 1 <= day <= DaysInMonth(d.year, d.month) ==> r == Date(d.year, d.month, day)
  {
    assert FirstOfMonth(d.year, d.month) == Date(d.year, d.month, 1);
    AddDaysWithinMonth(d.year, d.month, d.day - 1);
    AddDaysAdd(Date(d.year, d.month, 1), d.day - 1, day - d.day);
    MakeDate(d.year, d.month, day)
  }

  /** `d.setMonth(m)`: the month is replaced, the day-of-month kept and the
      result normalised (so January 31 plus one month is in March). */
  function SetMonth(d: CalendarDate, m: int): (r: CalendarDate)
    ensures d.day <= DaysInMonth(d.year + m / 12, m % 12) ==> r == Date(d.year + m / 12, m % 12, d.day)
  {
    var first := FirstOfMonth(d.year, m);
    assert d.day <= DaysInMonth(d.year + m / 12, m % 12) ==> MakeDate(first.year, first.month, d.day) == Date(first.year, first.month, d.day);
    assert MakeDate(d.year, m, d.day) == MakeDate(first.year, first.month, d.day) by {
      assert FirstOfMonth(first.year, first.month) == first;
    }
    MakeDate(d.year, m, d.day)
  }

  // ---- Day numbers: an independent count of days, the partner of NextDay ----

  /** Days in the years before `y`, counted from 0001-01-01. */
  function DaysBeforeYear(y: int): int {
    365 * (y - 1) + (y - 1) / 4 - (y - 1) / 100 + (y - 1) / 400
  }

  /** Days in the months of year `y` before month `m`. */
  function DaysBeforeMonth(y: int, m: int): int
    requires 0 <= m < 12
  {
    (if m == 0 then 0 else if m == 1 then 31 else if m == 2 then 59
     else if m == 3 then 90 else if m == 4 then 120 else if m == 5 then 151
     else if m == 6 then 181 else if m == 7 then 212 else if m == 8 then 243
     else if m == 9 then 273 else if m == 10 then 304 else 334)
    + (if m >= 2 && IsLeapYear(y) then 1 else 0)
  }

  /** The number of days from 0001-01-01 (day 0) to `d`. */
  function DayNumber(d: CalendarDate): int {
    DaysBeforeYear(d.year) + DaysBeforeMonth(d.year, d.month) + d.day - 1
  }

  /** `getDay()`: 0 is Sunday. 0001-01-01 of the proleptic calendar is a Monday. */
  function Weekday(d: CalendarDate): (w: int)
    ensures 0 <= w < 7
  {
    (DayNumber(d) + 1) % 7
  }

  lemma YearLength(y: int)
    ensures DaysBeforeYear(y + 1) == DaysBeforeYear(y) + (if IsLeapYear(y) then 366 else 365)
  {
    assert (y / 4 - (y - 1) / 4 == 1) <==> y % 4 == 0;
    assert (y / 100 - (y - 1) / 100 == 1) <==> y % 100 == 0;
    assert (y / 400 - (y - 1) / 400 == 1) <==> y % 400 == 0;
    assert 0 <= y / 4 - (y - 1) / 4 <= 1;
    assert 0 <= y / 100 - (y - 1) / 100 <= 1;
    assert 0 <= y / 400 - (y - 1) / 400 <= 1;
    if y % 100 == 0 { assert y % 4 == 0; }
    if y % 400 == 0 { assert y % 100 == 0; }
  }

  /** The day after `d` has the next day number. */
  lemma NextDayNumber(d: CalendarDate)
    ensures DayNumber(NextDay(d)) == DayNumber(d) + 1
  {
    if d.day == DaysInMonth(d.year, d.month) && d.month == 11 {
      YearLength(d.year);
    }
  }

  lemma NextPrevInverse(d: CalendarDate)
    ensures PrevDay(NextDay(d)) == d
    ensures NextDay(PrevDay(d)) == d
  {
  }

  /** The day before `d` has the previous day number. */
  lemma PrevDayNumber(d: CalendarDate)
    ensures DayNumber(PrevDay(d)) == DayNumber(d) - 1
  {
    NextPrevInverse(d);
    NextDayNumber(PrevDay(d));
  }

  /** Moving by `n` days moves the day number by exactly `n`. */
  lemma {:induction false} AddDaysNumber(d: CalendarDate, n: int)
    ensures DayNumber(AddDays(d, n)) == DayNumber(d) + n
    decreases if n < 0 then -n else n
  {
    if n > 0 {
      NextDayNumber(d);
      AddDaysNumber(NextDay(d), n - 1);
    } else if n < 0 {
      PrevDayNumber(d);
      AddDaysNumber(PrevDay(d), n + 1);
    }
  }

  /** Moving a date changes it unless the distance is zero. */
  lemma AddDaysMoves(d: CalendarDate, n: int)
    ensures AddDays(d, n) == d <==> n == 0
  {
    AddDaysNumber(d, n);
  }

  /** One step forward is the next day, one step back the previous day. */
  lemma AddOneDay(d: CalendarDate)
    ensures AddDays(d, 1) == NextDay(d)
    ensures AddDays(d, -1) == PrevDay(d)
  {
  }

  lemma {:induction false} AddDaysStepBack(d: CalendarDate, n: int)
    ensures AddDays(d, n) == AddDays(NextDay(d), n - 1)
    decreases if n < 0 then -n else n
  {
    if n < 0 {
      NextPrevInverse(d);
      if n + 1 < 0 {
        AddDaysStepBack(PrevDay(d), n + 1);
      }
    } else if n == 0 {
      NextPrevInverse(d);
    }
  }

  /** Moving by `a` then by `b` days is moving by `a + b` days. */
  lemma {:induction false} AddDaysAdd(d: CalendarDate, a: int, b: int)
    ensures AddDays(AddDays(d, a), b) == AddDays(d, a + b)
    decreases if a < 0 then -a else a
  {
    if a > 0 {
      AddDaysAdd(NextDay(d), a - 1, b);
    } else if a < 0 {
      AddDaysAdd(PrevDay(d), a + 1, b);
      NextPrevInverse(d);
      AddDaysStepBack(PrevDay(d), a + b + 1);
    }
  }

  /** Within a month, moving from the first day counts day-of-month. */
  lemma {:induction false} AddDaysWithinMonth(y: int, m: int, j: nat)
    requires 0 <= m < 12 && j < DaysInMonth(y, m)
    ensures AddDays(Date(y, m, 1), j) == Date(y, m, 1 + j)
  {
    if j > 0 {
      AddDaysWithinMonth(y, m, j - 1);
      AddDaysAdd(Date(y, m, 1), j - 1, 1);
    }
  }

  /** Setting the day-of-month to a day that exists keeps year and month. */
  lemma SetDateInRange(d: CalendarDate, day: int)
    requires 1 <= day <= DaysInMonth(d.year, d.month)
    ensures SetDate(d, day) == Date(d.year, d.month, day)
  {
    AddDaysWithinMonth(d.year, d.month, day - 1);
  }

  /** `d.setDate(d.getDate() + n)` moves `d` by `n` days, across months and years. */
  lemma SetDateShift(d: CalendarDate, n: int)
    ensures SetDate(d, d.day + n) == AddDays(d, n)
  {
    AddDaysWithinMonth(d.year, d.month, d.day - 1);
    AddDaysAdd(Date(d.year, d.month, 1), d.day - 1, n);
  }

  /** `new Date(y, m + 1, 0)` is the last day of month `m`. */
  lemma DayZeroIsLastOfPreviousMonth(y: int, m: int)
    requires 0 <= m < 12
    ensures MakeDate(y, m + 1, 0) == Date(y, m, DaysInMonth(y, m))
  {
    AddOneDay(FirstOfMonth(y, m + 1));
    if m == 11 {
      assert FirstOfMonth(y, m + 1) == Date(y + 1, 0, 1);
    } else {
      assert FirstOfMonth(y, m + 1) == Date(y, m + 1, 1);
    }
  }

  /** Two reference points of the weekday count: 1970-01-01 was a Thursday and
      2024-06-01 a Saturday. */
  lemma WeekdayReferencePoints()
    ensures Weekday(Date(1970, 0, 1)) == 4
    ensures Weekday(Date(2024, 5, 1)) == 6
  {
  }
}

=== FILE: day_item_row.dfy ===
/** One row of a day pane (`DayItem.tsx`): the checkbox, the Drop action, the
    inline text editor, and the copy and snooze pickers with their three
    predefined target dates. */
module DayItemRow {
  import opened Outcomes
  import opened Dates
  import opened PlannerItems
  import opened InlineEdit
  import DateUtils
  import Days = DayItemsHook
  import AgendaItemRow

  predicate IsDraft(item: DayItem) {
    item.id == DraftId
  }

  datatype Controls = Controls(draggable: bool, checkbox: bool, actions: bool)

  /** The draft cannot be dragged and has neither checkbox nor actions. */
  function ControlsOf(item: DayItem): (r: Controls)
    ensures r.draggable == r.checkbox == r.actions == !IsDraft(item)
  {
    var shown := !IsDraft(item);
    Controls(shown, shown, shown)
  }

  /** An update the row hands to `onUpdateItem`. */
  datatype Update = Update(itemId: int, changes: Days.DayItemChanges)

  /** The checkbox follows the same rule as on agenda rows. */
  function CheckboxUpdate(item: DayItem): (r: Update)
    ensures r.itemId == item.id && r.changes.text.None? && r.changes.day.None?
    ensures r.changes.state == Some(if item.state == Todo then Completed else Todo)
  {
    Update(item.id, Days.DayItemChanges(None, None, Some(AgendaItemRow.NextCheckboxState(item.state))))
  }

  function DropUpdate(item: DayItem): (r: Update)
    ensures r.itemId == item.id && r.changes == Days.DayItemChanges(None, None, Some(Dropped))
  {
    Update(item.id, Days.DayItemChanges(None, None, Some(Dropped)))
  }

  /** The editor: the key handler treats every negative id as the draft
      (`id >= 0` is an existing item), while the blur handler and the click
      on the text test for the id -1 only. */
  function Edit(item: DayItem, e: Editor, ev: Event): (r: (Editor, Option<Update>))
    ensures var rx := React(e, item.id < 0, IsDraft(item), item.text, ItemTextMaxLength, ev);
            r.0 == rx.editor
            && (r.1.Some? <==> rx.sent.Some?)
            && (r.1.Some? ==> r.1.value == Update(item.id, Days.DayItemChanges(Some(rx.sent.value), None, None)))
  {
    var rx := React(e, item.id < 0, IsDraft(item), item.text, ItemTextMaxLength, ev);
    (rx.editor, if rx.sent.Some? then Some(Update(item.id, Days.DayItemChanges(Some(rx.sent.value), None, None))) else None)
  }

  /** For the draft and for every server item (id 0 or more) the two tests
      agree, so the day row edits exactly like an agenda row; an id below -1
      would be committed on blur but cleared and kept open on Enter. */
  lemma EditLikeAgendaRows(item: DayItem, e: Editor, ev: Event)
    ensures item.id >= DraftId ==>
              Edit(item, e, ev).0 == React(e, IsDraft(item), IsDraft(item), item.text, ItemTextMaxLength, ev).editor
    ensures item.id < DraftId && e.editing ==>
              Edit(item, e, KeyDown(Enter)).0 == Editor(true, "") && !Edit(item, e, Blur).0.editing
  {
  }

  // ---- predefined dates ----

  /** The predefined targets, in order: the next day, the next week and the
      next month of `new Date(item.day)`. That constructor reads a bare
      `YYYY-MM-DD` as UTC midnight, so the local date it stands for depends on
      the zone; an unreadable day gives an invalid date, modelled as `None`. */
  function PredefinedDates(item: DayItem, offset: DateUtils.ZoneOffset): (r: Option<seq<DateUtils.LocalInstant>>)
    ensures r.Some? <==> DateUtils.ParseFullDate(item.day).Some?
    ensures r.Some? ==> var t := DateUtils.ParseDayAsUtc(item.day, offset).value;
              r.value == [DateUtils.GetNextDay(t), DateUtils.GetNextWeek(t), DateUtils.GetNextMonth(t)]
  {
    match DateUtils.ParseDayAsUtc(item.day, offset)
    case None => None
    case Some(t) => Some([DateUtils.GetNextDay(t), DateUtils.GetNextWeek(t), DateUtils.GetNextMonth(t)])
  }

  /** The copy and snooze requests for a picked date (`formatDate` of the
      local date). */
  function CopyCall(item: DayItem, target: DateUtils.LocalInstant): (c: Days.Call)
    ensures c.CopyDayItem? && c.itemId == item.id
    ensures 1000 <= target.date.year <= 9999 ==> DateUtils.ParseFullDate(c.day) == Some(target.date)
  {
    if 1000 <= target.date.year <= 9999 then
      DateUtils.FullDateRoundTrip(target.date);
      Days.CopyDayItem(item.id, Days.Day(target.date))
    else
      Days.CopyDayItem(item.id, Days.Day(target.date))
  }

  function SnoozeCall(item: DayItem, target: DateUtils.LocalInstant): (c: Days.Call)
    ensures c.SnoozeDayItem? && c.itemId == item.id
    ensures 1000 <= target.date.year <= 9999 ==> DateUtils.ParseFullDate(c.day) == Some(target.date)
  {
    if 1000 <= target.date.year <= 9999 then
      DateUtils.FullDateRoundTrip(target.date);
      Days.SnoozeDayItem(item.id, Days.Day(target.date))
    else
      Days.SnoozeDayItem(item.id, Days.Day(target.date))
  }

  /** Copy and snooze to the same picked date name the same item and the same
      day text; distinct dates give distinct texts. */
  lemma CopyAndSnoozeAgree(item: DayItem, t: DateUtils.LocalInstant, u: DateUtils.LocalInstant)
    requires 1000 <= t.date.year <= 9999 && 1000 <= u.date.year <= 9999
    ensures CopyCall(item, t).day == SnoozeCall(item, t).day
    ensures CopyCall(item, t).itemId == SnoozeCall(item, t).itemId
    ensures t.date != u.date ==> CopyCall(item, t).day != CopyCall(item, u).day
  {
    var a, b := CopyCall(item, t), CopyCall(item, u);
    assert DateUtils.ParseFullDate(a.day) == Some(t.date);
    assert DateUtils.ParseFullDate(b.day) == Some(u.date);
  }

  /** As written, "Next day" is the day after the item's day only at or east
      of UTC; west of UTC it is the item's own day, and "Next week" is six days
      after it. */
  lemma NextDayDependsOnZone(item: DayItem, offset: DateUtils.ZoneOffset)
    requires DateUtils.ParseFullDate(item.day).Some?
    ensures var d := DateUtils.ParseFullDate(item.day).value;
            var targets := PredefinedDates(item, offset).value;
            (offset >= 0 ==> targets[0].date == NextDay(d) && DayNumber(targets[1].date) == DayNumber(d) + 7)
            && (offset < 0 ==> targets[0].date == d && DayNumber(targets[1].date) == DayNumber(d) + 6)
  {
    var d := DateUtils.ParseFullDate(item.day).value;
    var t := DateUtils.ParseDayAsUtc(item.day, offset).value;
    DateUtils.HelpersShiftDayNumber(t);
    if offset < 0 {
      NextPrevInverse(d);
      PrevDayNumber(d);
    }
  }

  /** West of UTC the "Next day" copy of an item is requested for the item's
      own day, which is not the next day's text. */
  lemma NextDayWestOfUtcIsSameDay(d: CalendarDate, item: DayItem, offset: DateUtils.ZoneOffset)
    requires 1000 <= d.year <= 9998 && offset < 0
    requires item.day == DateUtils.FormatDateForApi(d)
    ensures PredefinedDates(item, offset).Some?
    ensures CopyCall(item, PredefinedDates(item, offset).value[0]) == Days.CopyDayItem(item.id, item.day)
    ensures item.day != Days.Day(NextDay(d))
  {
    assert DateUtils.ParseFullDate(item.day) == Some(d);
    NextDayDependsOnZone(item, offset);
    CopyCallSendsDay(item, PredefinedDates(item, offset).value[0]);
    NextDayTextDiffers(d);
  }

  lemma NextDayTextDiffers(d: CalendarDate)
    requires 1000 <= d.year <= 9998
    ensures Days.Day(NextDay(d)) != DateUtils.FormatDateForApi(d)
  {
    NextDayNumber(d);
    DateUtils.FormatDateForApiInjective(d, NextDay(d));
  }

  lemma CopyCallSendsDay(item: DayItem, t: DateUtils.LocalInstant)
    ensures CopyCall(item, t) == Days.CopyDayItem(item.id, Days.Day(t.date))
  {
  }

  /** In New York (UTC-5) the "Next day" copy of an item of 10 June 2024 is
      requested for 10 June 2024. */
  lemma NextDayWestOfUtcExample(item: DayItem)
    requires item.day == "2024-06-10"
    ensures PredefinedDates(item, -300).Some?
    ensures CopyCall(item, PredefinedDates(item, -300).value[0]) == Days.CopyDayItem(item.id, "2024-06-10")
  {
    JuneTenthText(item);
    NextDayWestOfUtcIsSameDay(Date(2024, 5, 10), item, -300);
  }

  lemma JuneTenthText(item: DayItem)
    requires item.day == "2024-06-10"
    ensures item.day == DateUtils.FormatDateForApi(Date(2024, 5, 10))
  {
    DateUtils.JuneExampleDays();
  }

  /** The corrected targets: the item's day read as a local date. */
  function PredefinedDatesFixed(item: DayItem): (r: Option<seq<DateUtils.LocalInstant>>)
    ensures r.Some? <==> DateUtils.ParseFullDate(item.day).Some?
  {
    match DateUtils.ParseFullDate(item.day)
    case None => None
    case Some(d) =>
      var t := DateUtils.Instant(d, 0);
      Some([DateUtils.GetNextDay(t), DateUtils.GetNextWeek(t), DateUtils.GetNextMonth(t)])
  }

  /** With the corrected targets, "Next day" and "Next week" are one and seven
      days after the item's day in every zone, and "Next month" keeps the
      day of the month whenever the next month has it. */
  lemma FixedDatesFollowItemDay(item: DayItem)
    requires DateUtils.ParseFullDate(item.day).Some?
    ensures var d := DateUtils.ParseFullDate(item.day).value;
            var targets := PredefinedDatesFixed(item).value;
            targets[0].date == NextDay(d) && DayNumber(targets[1].date) == DayNumber(d) + 7
            && (var n := FirstOfMonth(d.year, d.month + 1);
                d.day <= DaysInMonth(n.year, n.month) ==> targets[2].date == Date(n.year, n.month, d.day))
  {
    var d := DateUtils.ParseFullDate(item.day).value;
    var t := DateUtils.Instant(d, 0);
    assert PredefinedDatesFixed(item).value
        == [DateUtils.GetNextDay(t), DateUtils.GetNextWeek(t), DateUtils.GetNextMonth(t)];
  }
}

=== FILE: day_items_hook.dfy ===
/** The day-item state of the planner (`usePlannerDays`): the items of the
    selected day and the next one in one list, with non-optimistic add,
    update, delete, copy, snooze and reorder. A completion receives the state
    at completion time (`now`) and the list captured when the handler started
    (`callTime`), which is what the source writes from. */
module DayItemsHook {
  import opened Outcomes
  import opened Text
  import opened Dates
  import opened Lists
  import opened PlannerItems
  import DateUtils
  import PlannerDateUtils

  datatype Call =
    | GetItemsByDays(days: seq<string>)
    | CreateDayItem(text: string, day: string)
    | UpdateDayItem(itemId: int, changes: DayItemChanges)
    | DeleteDayItem(itemId: int)
    | CopyDayItem(itemId: int, day: string)
    | SnoozeDayItem(itemId: int, day: string)
    | ReorderDayItems(orderedIds: seq<int>)

  /** `{ text?, day?, state? }`. */
  datatype DayItemChanges = DayItemChanges(text: Option<string>, day: Option<string>, state: Option<ItemState>)

  datatype State = State(items: seq<DayItem>, drag: Option<DayItem>)

  /** The planner opens with no day items and nothing dragged. */
  function Init(): (r: State)
    ensures |r.items| == 0 && r.drag.None?
  {
    State([], None)
  }

  function Day(d: CalendarDate): string {
    PlannerDateUtils.FormatDate(d)
  }

  // ---- fetch ----

  /** `fetchDaysItems` asks for the selected day and the next one. */
  function FetchCall(selected: CalendarDate): (c: Call)
    ensures c == GetItemsByDays([Day(selected), Day(NextDay(selected))])
  {
    var next := PlannerDateUtils.GetNextDate(DateUtils.Instant(selected, 0)).date;
    GetItemsByDays([Day(selected), Day(next)])
  }

  function ListFor(m: map<string, seq<DayItem>>, day: string): seq<DayItem> {
    if day in m then m[day] else []
  }

  /** The selected day's list followed by the next day's; a missing day adds
      nothing. A failure is only logged. */
  function Fetched(s: State, selected: CalendarDate, outcome: Outcome<map<string, seq<DayItem>>>): (r: State)
    ensures outcome.Err? ==> r == s
    ensures outcome.Ok? ==> r == s.(items := ListFor(outcome.value, Day(selected))
                                             + ListFor(outcome.value, Day(NextDay(selected))))
  {
    match outcome
    case Err => s
    case Ok(byDay) =>
      var next := PlannerDateUtils.GetNextDate(DateUtils.Instant(selected, 0)).date;
      s.(items := ListFor(byDay, Day(selected)) + ListFor(byDay, Day(next)))
  }

  /** Whether an item is filed under that date. */
  function OnDay(date: CalendarDate): DayItem -> bool {
    (x: DayItem) => x.day == Day(date)
  }

  /** `getItemsForDate`: the items of that day, in list order. */
  function ItemsForDate(items: seq<DayItem>, date: CalendarDate): (r: seq<DayItem>)
    ensures forall i :: 0 <= i < |r| ==> r[i].day == Day(date)
  {
    Filter(items, OnDay(date))
  }

  /** A day's items come out in list order: two of them at positions
      `i < j` of the list are at ranks `a < b` of the result. */
  lemma ItemsForDateInOrder(items: seq<DayItem>, date: CalendarDate, i: int, j: int)
    requires 0 <= i < j < |items| && items[i].day == Day(date) && items[j].day == Day(date)
    ensures var r, a, b := ItemsForDate(items, date), CountBefore(items, OnDay(date), i),
                          CountBefore(items, OnDay(date), j);
            a < b < |r| && r[a] == items[i] && r[b] == items[j]
  {
    FilterAt(items, OnDay(date), i);
    FilterAt(items, OnDay(date), j);
    CountBeforeStep(items, OnDay(date), i);
    CountBeforeMonotone(items, OnDay(date), i + 1, j);
  }

  lemma ItemsForDateMembers(items: seq<DayItem>, date: CalendarDate, x: DayItem)
    ensures x in ItemsForDate(items, date) <==> x in items && x.day == Day(date)
  {
    FilterMembers(items, OnDay(date), x);
  }

  /** When the server files every item under its own day, the two panes show
      exactly the two fetched lists. */
  lemma FetchedSplitsByDay(s: State, selected: CalendarDate, byDay: map<string, seq<DayItem>>)
    requires 1000 <= selected.year <= 9998
    requires forall d :: d in byDay ==> forall i :: 0 <= i < |byDay[d]| ==> byDay[d][i].day == d
    ensures var r := Fetched(s, selected, Ok(byDay)).items;
            ItemsForDate(r, selected) == ListFor(byDay, Day(selected))
            && ItemsForDate(r, NextDay(selected)) == ListFor(byDay, Day(NextDay(selected)))
  {
    var next := NextDay(selected);
    var a, b := ListFor(byDay, Day(selected)), ListFor(byDay, Day(next));
    NextDayNumber(selected);
    DateUtils.FormatDateForApiInjective(selected, next);
    var p := OnDay(selected);
    var q := OnDay(next);
    FilterConcat(a, b, p);
    FilterConcat(a, b, q);
    FilterAll(a, p);
    FilterNone(b, p);
    FilterNone(a, q);
    FilterAll(b, q);
  }

  // ---- add ----

  /** `handleAddDayItem` before the request: blank text asks for nothing. */
  function AddCalls(date: CalendarDate, text: string): (r: seq<Call>)
    ensures r == [] <==> IsBlank(text)
    ensures r != [] ==> r == [CreateDayItem(text, Day(date))]
  {
    if IsBlank(text) then [] else [CreateDayItem(text, Day(date))]
  }

  /** What a finished add leaves: the state, whether the caller's input was
      cleared, and whether "Error adding day item" was logged. */
  datatype AddResult = AddResult(state: State, inputCleared: bool, errorLogged: bool)

  /** `handleAddDayItem` after the create, as written. `setter` says whether
      the third argument `setItemText` was passed. Without it the call
      `setItemText('')` throws after the list is already set, and the catch
      logs the same error a failed create logs. */
  function AddCompleted(now: State, callTime: seq<DayItem>, outcome: Outcome<DayItem>, setter: bool)
    : (r: AddResult)
    ensures outcome.Err? ==> r == AddResult(now, false, true)
    ensures outcome.Ok? ==> r.state == now.(items := callTime + [outcome.value])
    ensures outcome.Ok? ==> (r.inputCleared <==> setter) && (r.errorLogged <==> !setter)
  {
    match outcome
    case Err => AddResult(now, false, true)
    case Ok(item) => AddResult(now.(items := callTime + [item]), setter, !setter)
  }

  /** Every caller in the planner passes two arguments (the draft row of a
      day pane, and "copy to today" and "copy to tomorrow" of an agenda item),
      so a successful add appends the item, clears nothing and is logged
      exactly like a failed one. */
  lemma PlannerAddLogsError(now: State, callTime: seq<DayItem>, item: DayItem)
    ensures var r := AddCompleted(now, callTime, Ok(item), false);
            r.state.items == callTime + [item] && !r.inputCleared
            && r.errorLogged == AddCompleted(now, callTime, Err, false).errorLogged
  {
  }

  /** The corrected completion: the setter is called only when it is given
      (`setItemText?.('')`), so only a failed create is logged. */
  function AddCompletedFixed(now: State, callTime: seq<DayItem>, outcome: Outcome<DayItem>, setter: bool)
    : (r: AddResult)
    ensures r.errorLogged <==> outcome.Err?
    ensures r.inputCleared <==> outcome.Ok? && setter
    ensures outcome.Err? ==> r.state == now
    ensures outcome.Ok? ==> r.state == now.(items := callTime + [outcome.value])
  {
    match outcome
    case Err => AddResult(now, false, true)
    case Ok(item) => AddResult(now.(items := callTime + [item]), setter, false)
  }

  /** The corrected and the written completion leave the same list; they
      differ only in the log and the input. */
  lemma FixedAddKeepsList(now: State, callTime: seq<DayItem>, outcome: Outcome<DayItem>, setter: bool)
    ensures AddCompletedFixed(now, callTime, outcome, setter).state == AddCompleted(now, callTime, outcome, setter).state
    ensures AddCompletedFixed(now, callTime, outcome, setter).inputCleared
            == AddCompleted(now, callTime, outcome, setter).inputCleared
  {
  }

  /** Deleting the item an add just appended gives back the list from before
      the add, when its id was new to that list. */
  lemma {:induction false} AddThenDelete(s: State, item: DayItem, setter: bool)
    requires item.id !in DayItemIds(s.items)
    ensures var added := AddCompletedFixed(s, s.items, Ok(item), setter).state;
            DeleteCompleted(added, added.items, item.id, Ok(())) == s
  {
    var p := (x: DayItem) => x.id != item.id;
    FilterConcat(s.items, [item], p);
    FilterOne(item, p);
    WithoutAbsentDayItem(s.items, item.id);
  }

  // ---- update and delete ----

  /** `handleUpdateDayItem` sends the changes as given, with no guard and no
      lock; `handleDeleteDayItem` sends the id. Neither touches the list
      before the answer. */
  function UpdateCalls(itemId: int, changes: DayItemChanges): (r: seq<Call>)
    ensures |r| == 1 && r[0].UpdateDayItem? && r[0].itemId == itemId && r[0].changes == changes
  {
    [UpdateDayItem(itemId, changes)]
  }

  function DeleteCalls(itemId: int): (r: seq<Call>)
    ensures |r| == 1 && r[0].DeleteDayItem? && r[0].itemId == itemId
  {
    [DeleteDayItem(itemId)]
  }

  /** A delete answered with success removes exactly the items carrying the
      id the request named. */
  lemma DeleteRemovesRequested(s: State, itemId: int, x: DayItem)
    ensures var c := DeleteCalls(itemId)[0];
            x in DeleteCompleted(s, s.items, c.itemId, Ok(())).items <==> x in s.items && x.id != itemId
  {
  }

  /** After an update: the items with that id become the server's item. No
      guard, no optimistic step: a failure leaves everything as it is. */
  function UpdateCompleted(now: State, callTime: seq<DayItem>, itemId: int, outcome: Outcome<DayItem>)
    : (r: State)
    ensures outcome.Err? ==> r == now
    ensures outcome.Ok? ==> r.drag == now.drag && |r.items| == |callTime|
    ensures outcome.Ok? ==> forall i :: 0 <= i < |callTime| ==>
              r.items[i] == if callTime[i].id == itemId then outcome.value else callTime[i]
  {
    match outcome
    case Err => now
    case Ok(item) => now.(items := ReplaceDayItem(callTime, itemId, item))
  }

  /** After a delete: exactly the items with that id are gone. */
  function DeleteCompleted(now: State, callTime: seq<DayItem>, itemId: int, outcome: Ack): (r: State)
    ensures outcome.Err? ==> r == now
    ensures outcome.Ok? ==> r.drag == now.drag
                            && forall x :: x in r.items <==> x in callTime && x.id != itemId
  {
    match outcome
    case Err => now
    case Ok(_) =>
      assert forall x :: x in WithoutDayItem(callTime, itemId) <==> x in callTime && x.id != itemId by {
        forall x { WithoutDayItemMembers(callTime, itemId, x); }
      }
      now.(items := WithoutDayItem(callTime, itemId))
  }

  // ---- copy and snooze ----

  /** After a copy: the copy is shown only when it landed on the next day. */
  function CopyCompleted(now: State, callTime: seq<DayItem>, selected: CalendarDate, outcome: Outcome<DayItem>)
    : (r: State)
    ensures outcome.Ok? && outcome.value.day == Day(NextDay(selected)) ==>
              r == now.(items := callTime + [outcome.value])
    ensures outcome.Err? || outcome.value.day != Day(NextDay(selected)) ==> r == now
  {
    match outcome
    case Err => now
    case Ok(item) =>
      var tomorrow := Day(PlannerDateUtils.GetNextDate(DateUtils.Instant(selected, 0)).date);
      if item.day == tomorrow then now.(items := callTime + [item]) else now
  }

  /** `{ ...item, state: 'snoozed' }` for the items with that id. */
  function MarkSnoozed(xs: seq<DayItem>, itemId: int): (r: seq<DayItem>)
    ensures |r| == |xs|
    ensures forall i :: 0 <= i < |xs| ==>
              r[i] == if xs[i].id == itemId then xs[i].(state := Snoozed) else xs[i]
  {
    seq(|xs|, i requires 0 <= i < |xs| => if xs[i].id == itemId then xs[i].(state := Snoozed) else xs[i])
  }

  /** After a snooze: the original is marked snoozed, and the new item is
      appended exactly when its day is one of the two shown days. */
  function SnoozeCompleted(now: State, callTime: seq<DayItem>, selected: CalendarDate, itemId: int,
                           outcome: Outcome<DayItem>): (r: State)
    ensures outcome.Err? ==> r == now
    ensures outcome.Ok? ==> r.drag == now.drag
    ensures outcome.Ok? && (outcome.value.day == Day(selected) || outcome.value.day == Day(NextDay(selected))) ==>
              r.items == MarkSnoozed(callTime, itemId) + [outcome.value]
    ensures outcome.Ok? && outcome.value.day != Day(selected) && outcome.value.day != Day(NextDay(selected)) ==>
              r.items == MarkSnoozed(callTime, itemId)
  {
    match outcome
    case Err => now
    case Ok(item) =>
      var updated := MarkSnoozed(callTime, itemId);
      var today := Day(selected);
      var tomorrow := Day(PlannerDateUtils.GetNextDate(DateUtils.Instant(selected, 0)).date);
      if item.day == today || item.day == tomorrow then now.(items := updated + [item])
      else now.(items := updated)
  }

  /** Snoozing changes only the state of the snoozed item: texts, days and ids
      stay as they were. */
  lemma SnoozeKeepsEverythingElse(now: State, callTime: seq<DayItem>, selected: CalendarDate, itemId: int,
                                  item: DayItem)
    ensures var r := SnoozeCompleted(now, callTime, selected, itemId, Ok(item)).items;
            |r| >= |callTime|
            && forall i :: 0 <= i < |callTime| ==>
                 r[i].id == callTime[i].id && r[i].text == callTime[i].text && r[i].day == callTime[i].day
                 && (r[i].state != callTime[i].state ==> callTime[i].id == itemId && r[i].state == Snoozed)
  {
  }

  // ---- drag and reorder ----

  /** `handleDayItemDragStart` remembers the dragged item and leaves the list alone. */
  function DragStart(s: State, item: DayItem): (r: State)
    ensures r.drag == Some(item) && r.items == s.items
  {
    s.(drag := Some(item))
  }

  /** `handleDayItemDragEnd`: refetch, then clear the dragged item. */
  function DragEnd(s: State, selected: CalendarDate): (r: (State, seq<Call>))
    ensures r.0.drag.None? && r.0.items == s.items
    ensures |r.1| == 1 && r.1[0] == FetchCall(selected)
    ensures r.1[0].days == [Day(selected), Day(NextDay(selected))]
  {
    (s.(drag := None), [FetchCall(selected)])
  }

  /** A whole gesture, start then end, changes nothing but asks for a refetch. */
  lemma DragStartThenEnd(s: State, item: DayItem, selected: CalendarDate)
    requires s.drag.None?
    ensures DragEnd(DragStart(s, item), selected).0 == s
  {
  }

  /** The refetch a drag end asks for replaces whatever order the drag-over
      steps left on screen: once it lands, the state depends only on the
      server's lists. */
  lemma DragEndThenFetched(s1: State, s2: State, selected: CalendarDate, byDay: map<string, seq<DayItem>>)
    ensures Fetched(DragEnd(s1, selected).0, selected, Ok(byDay))
         == Fetched(DragEnd(s2, selected).0, selected, Ok(byDay))
    ensures Fetched(DragEnd(s1, selected).0, selected, Ok(byDay)).drag.None?
  {
  }

  /** `handleReorderDayItems` sends the ids in list order; it runs on every
      drag-over step, not once per gesture. */
  function ReorderCalls(items: seq<DayItem>): (r: seq<Call>)
    ensures |r| == 1 && r[0].ReorderDayItems?
    ensures |r[0].orderedIds| == |items|
    ensures forall i :: 0 <= i < |items| ==> r[0].orderedIds[i] == items[i].id
  {
    [ReorderDayItems(DayItemIds(items))]
  }

  /** The new list is adopted only once the server accepted it. */
  function ReorderCompleted(now: State, items: seq<DayItem>, outcome: Ack): (r: State)
    ensures outcome.Ok? ==> r.items == items && r.drag == now.drag
    ensures outcome.Err? ==> r == now
  {
    match outcome
    case Ok(_) => now.(items := items)
    case Err => now
  }

  /** A reorder round trip: after success the list on screen carries exactly
      the id order the server was sent; after a failure the screen still shows
      the ids it showed before. */
  lemma ReorderRoundTrip(now: State, items: seq<DayItem>, outcome: Ack)
    ensures outcome.Ok? ==> DayItemIds(ReorderCompleted(now, items, outcome).items) == ReorderCalls(items)[0].orderedIds
    ensures outcome.Err? ==> DayItemIds(ReorderCompleted(now, items, outcome).items) == DayItemIds(now.items)
  {
    if outcome.Ok? {
      var sent := ReorderCalls(items)[0].orderedIds;
      assert DayItemIds(items) == sent;
    }
  }
}

=== FILE: day_view.dfy ===
/** One day pane of the planner (`PlannerDay.tsx`): the draft item, the draft
    edit guard, the drag-over reorder and the drag-end sequence. The pane shows
    the items of its date, but reorders the list of both days. */
module DayView {
  import opened Outcomes
  import opened Text
  import opened Dates
  import opened Lists
  import opened PlannerItems
  import DateUtils
  import Days = DayItemsHook

  /** The draft item's day is the UTC date of the pane's date
      (`toISOString().split('T')[0]`). */
  function DraftItem(date: DateUtils.LocalInstant, offset: DateUtils.ZoneOffset): (r: DayItem)
    ensures r.id == DraftId && r.text == "" && r.state == Todo && r.index == -1
    ensures r.day == DateUtils.FormatDateForApi(DateUtils.UtcDate(date, offset))
  {
    DayItem(DraftId, "", Todo, -1, DateUtils.IsoDay(date, offset))
  }

  /** The draft's day is the pane's own date in UTC, but the day before in a
      zone east of UTC before that zone's offset has passed midnight (the
      draft's day is never sent anywhere). */
  lemma DraftDayAndZone(t: DateUtils.LocalInstant, offset: DateUtils.ZoneOffset)
    ensures offset == 0 ==> DraftItem(t, offset).day == Days.Day(t.date)
    ensures t.ms < offset * 60000 ==> DraftItem(t, offset).day == Days.Day(PrevDay(t.date))
  {
  }

  /** `handleEmptyItemEdit`: an add for the pane's date when the text trims to
      something. */
  function EmptyItemEdit(date: CalendarDate, text: Option<string>): (r: seq<Days.Call>)
    ensures r != [] <==> text.Some? && !IsBlank(text.value)
    ensures r != [] ==> r == Days.AddCalls(date, text.value)
  {
    if text.Some? && text.value != "" && !IsBlank(text.value) then Days.AddCalls(date, text.value)
    else []
  }

  /** The id `findIndex` looks for: with no dragged item it compares against
      `undefined` and finds nothing. */
  function DraggedIndex(drag: Option<DayItem>, dayItems: seq<DayItem>): (r: int)
    ensures drag.None? ==> r == -1
    ensures drag.Some? ==> r == IndexOf(DayItemIds(dayItems), drag.value.id)
  {
    if drag.None? then -1 else IndexOf(DayItemIds(dayItems), drag.value.id)
  }

  /** The drag-over handler of the row at `index` of the pane for `date`, as
      written: `index` counts rows of this pane, yet it is used as a position
      in the list of both days. */
  function DragOver(drag: Option<DayItem>, dayItems: seq<DayItem>, date: CalendarDate, index: int)
    : (r: Option<seq<DayItem>>)
    requires 0 <= index < |Days.ItemsForDate(dayItems, date)|
    ensures r.Some? ==> |r.value| == |dayItems| && multiset(r.value) == multiset(dayItems)
    ensures var from := DraggedIndex(drag, dayItems);
            (r.None? <==> from == index)
            && (r.Some? && from >= 0 ==> r.value[index] == dayItems[from])
  {
    var from := DraggedIndex(drag, dayItems);
    if from == index then None
    else Some(MoveTo(dayItems, SpliceStart(|dayItems|, from), index))
  }

  /** With nothing dragged (an agenda item or a file dragged over the pane),
      the last item of both days is moved to the hovered position and a
      reorder is sent. */
  lemma DragOverWithoutDragMovesLast(dayItems: seq<DayItem>, date: CalendarDate, index: int)
    requires 0 <= index < |Days.ItemsForDate(dayItems, date)|
    ensures DragOver(None, dayItems, date, index) == Some(MoveTo(dayItems, |dayItems| - 1, index))
  {
  }

  /** With nothing dragged, hovering the first row of a two-item day swaps
      the two items. */
  lemma DragOverWithoutDragSwaps(a: DayItem, b: DayItem, date: CalendarDate)
    requires a.day == Days.Day(date) && b.day == Days.Day(date)
    ensures |Days.ItemsForDate([a, b], date)| == 2
    ensures DragOver(None, [a, b], date, 0) == Some([b, a])
  {
    var xs := [a, b];
    assert Days.ItemsForDate(xs, date) == xs by { FilterPair(a, b, Days.OnDay(date)); }
    assert DragOver(None, xs, date, 0) == Some(MoveTo(xs, 1, 0)) by {
      DragOverWithoutDragMovesLast(xs, date, 0);
    }
    SwapPair(a, b);
  }

  /** Today `[a, b]` and tomorrow `[c, d]`: dragging `c` over `d` in
      tomorrow's pane moves `c` only past `b` in the list of both days, so
      tomorrow's pane still shows `[c, d]`. */
  lemma DragOverFilteredIndexMisses(a: DayItem, b: DayItem, c: DayItem, d: DayItem,
                                    today: CalendarDate, tomorrow: CalendarDate)
    requires a.day == Days.Day(today) && b.day == Days.Day(today)
    requires c.day == Days.Day(tomorrow) && d.day == Days.Day(tomorrow)
    requires Days.Day(today) != Days.Day(tomorrow)
    requires c.id != a.id && c.id != b.id
    ensures Days.ItemsForDate([a, b, c, d], tomorrow) == [c, d]
    ensures DragOver(Some(c), [a, b, c, d], tomorrow, 1) == Some([a, c, b, d])
    ensures Days.ItemsForDate([a, c, b, d], tomorrow) == [c, d]
  {
    FilterOfFour(a, b, c, d, Days.OnDay(tomorrow));
    DraggedThird(a, b, c, d);
    MoveThirdToSecond(a, b, c, d);
  }

  lemma DraggedThird(a: DayItem, b: DayItem, c: DayItem, d: DayItem)
    requires c.id != a.id && c.id != b.id
    ensures DraggedIndex(Some(c), [a, b, c, d]) == 2
  {
    var xs := [a, b, c, d];
    var ids := DayItemIds(xs);
    assert ids[0] == xs[0].id == a.id;
    assert ids[1] == xs[1].id == b.id;
    assert ids[2] == xs[2].id == c.id;
    FirstAtThird(ids, c.id);
  }

  lemma FilterPair<T>(a: T, b: T, p: T -> bool)
    requires p(a) && p(b)
    ensures Filter([a, b], p) == [a, b]
  {
    FilterOne(a, p); FilterOne(b, p); FilterConcat([a], [b], p);
    assert [a, b] == [a] + [b];
  }

  lemma SwapPair<T>(a: T, b: T)
    ensures MoveTo([a, b], 1, 0) == [b, a]
  {
    var xs := [a, b];
    RemoveIsConcat(xs, 1);
    assert xs[..1] == [a];
    var rest := Remove(xs, 1);
    InsertIsConcat(rest, 0, b);
    assert rest[..0] == [] && rest[0..] == [a];
  }

  /** Filtering four elements of which the middle-crossing pair fails. */
  lemma FilterOfFour<T>(a: T, b: T, c: T, d: T, p: T -> bool)
    requires !p(a) && p(c) && p(d)
    ensures Filter([a, b, c, d], p) == if p(b) then [b, c, d] else [c, d]
    ensures Filter([a, c, b, d], p) == if p(b) then [c, b, d] else [c, d]
  {
    FilterOne(a, p); FilterOne(b, p); FilterOne(c, p); FilterOne(d, p);
    assert [a, b, c, d] == [a] + ([b] + ([c] + [d]));
    assert [a, c, b, d] == [a] + ([c] + ([b] + [d]));
    FilterConcat([c], [d], p); FilterConcat([b], [c] + [d], p); FilterConcat([a], [b] + ([c] + [d]), p);
    FilterConcat([b], [d], p); FilterConcat([c], [b] + [d], p); FilterConcat([a], [c] + ([b] + [d]), p);
  }

  lemma FirstAtThird(ids: seq<int>, id: int)
    requires |ids| >= 3 && ids[0] != id && ids[1] != id && ids[2] == id
    ensures IndexOf(ids, id) == 2
  {
    assert IndexOf(ids, id) != -1;
  }

  lemma MoveThirdToSecond<T>(a: T, b: T, c: T, d: T)
    ensures MoveTo([a, b, c, d], 2, 1) == [a, c, b, d]
  {
    RemoveThird(a, b, c, d);
    InsertSecond(a, b, d, c);
  }

  lemma RemoveThird<T>(a: T, b: T, c: T, d: T)
    ensures Remove([a, b, c, d], 2) == [a, b, d]
  {
    var xs := [a, b, c, d];
    RemoveIsConcat(xs, 2);
    var r := xs[..2] + xs[3..];
    assert |r| == 3 && r[0] == a && r[1] == b && r[2] == d;
    assert r == [a, b, d];
  }

  lemma InsertSecond<T>(a: T, b: T, d: T, c: T)
    ensures Insert([a, b, d], 1, c) == [a, c, b, d]
  {
    var xs := [a, b, d];
    InsertIsConcat(xs, 1, c);
    var r := xs[..1] + ([c] + xs[1..]);
    assert |r| == 4 && r[0] == a && r[1] == c && r[2] == b && r[3] == d;
    assert r == [a, c, b, d];
  }

  /** The corrected handler: nothing without a dragged item; otherwise the
      hovered row is located in the list of both days before moving. */
  function DragOverFixed(drag: Option<DayItem>, dayItems: seq<DayItem>, date: CalendarDate, index: int)
    : (r: Option<seq<DayItem>>)
    requires 0 <= index < |Days.ItemsForDate(dayItems, date)|
    ensures drag.None? || drag.value.id !in DayItemIds(dayItems) ==> r.None?
    ensures r.Some? ==> |r.value| == |dayItems| && multiset(r.value) == multiset(dayItems)
  {
    if drag.None? || drag.value.id !in DayItemIds(dayItems) then None
    else
      var from := IndexOf(DayItemIds(dayItems), drag.value.id);
      var target := PositionOfNth(dayItems, Days.OnDay(date), index);
      if from == target then None else Some(MoveTo(dayItems, from, target))
  }

  /** Whether an item is filed under some other day than `date`. */
  function OffDay(date: CalendarDate): DayItem -> bool {
    (x: DayItem) => x.day != Days.Day(date)
  }

  /** Dragging an item of the pane over row `index` of the same pane: the pane
      then shows its rows with the dragged one moved to `index` (nothing
      happens over its own row), and the items of every other day keep their
      order. */
  lemma DragOverFixedMovesWithinPane(drag: DayItem, dayItems: seq<DayItem>, date: CalendarDate, index: int)
    requires 0 <= index < |Days.ItemsForDate(dayItems, date)|
    requires drag.id in DayItemIds(dayItems)
    requires dayItems[IndexOf(DayItemIds(dayItems), drag.id)].day == Days.Day(date)
    ensures var from := CountBefore(dayItems, Days.OnDay(date), IndexOf(DayItemIds(dayItems), drag.id));
            var shown := Days.ItemsForDate(dayItems, date);
            var r := DragOverFixed(Some(drag), dayItems, date, index);
            from < |shown|
            && (r.None? <==> from == index)
            && (r.Some? ==> Days.ItemsForDate(r.value, date) == MoveTo(shown, from, index)
                            && Filter(r.value, OffDay(date)) == Filter(dayItems, OffDay(date)))
  {
    var xs := dayItems;
    var p, q := Days.OnDay(date), OffDay(date);
    var from := IndexOf(DayItemIds(xs), drag.id);
    assert p(xs[from]) && !q(xs[from]);
    assert Days.ItemsForDate(xs, date) == Filter(xs, p);
    var target := PositionOfNth(xs, p, index);
    assert DragOverFixed(Some(drag), xs, date, index) == if from == target then None else Some(MoveTo(xs, from, target));
    FixedMoveWithinPane(xs, p, q, from, index);
  }

  /** The corrected move on any list: the element at `from`, passing `p`,
      goes to the position of the `index`-th passing element. */
  lemma FixedMoveWithinPane<T>(xs: seq<T>, p: T -> bool, q: T -> bool, from: int, index: int)
    requires 0 <= from < |xs| && p(xs[from]) && !q(xs[from])
    requires 0 <= index < |Filter(xs, p)|
    ensures var target := PositionOfNth(xs, p, index);
            var k := CountBefore(xs, p, from);
            k < |Filter(xs, p)|
            && (from == target <==> k == index)
            && (from != target ==> Filter(MoveTo(xs, from, target), p) == MoveTo(Filter(xs, p), k, index)
                                   && Filter(MoveTo(xs, from, target), q) == Filter(xs, q))
  {
    var target := PositionOfNth(xs, p, index);
    FilterAt(xs, p, from);
    SamePositionIffSameCount(xs, p, from, target);
    if from != target {
      PaneAfterMove(xs, p, from, target, index);
      OtherPaneAfterMove(xs, q, from, target);
    }
  }

  /** Two passing positions are equal exactly when as many passing elements
      precede them. */
  lemma SamePositionIffSameCount<T>(xs: seq<T>, p: T -> bool, i: int, j: int)
    requires 0 <= i < |xs| && 0 <= j < |xs| && p(xs[i]) && p(xs[j])
    ensures i == j <==> CountBefore(xs, p, i) == CountBefore(xs, p, j)
  {
    if i < j {
      CountBeforeStep(xs, p, i);
      CountBeforeMonotone(xs, p, i + 1, j);
    } else if j < i {
      CountBeforeStep(xs, p, j);
      CountBeforeMonotone(xs, p, j + 1, i);
    }
  }

  /** Moving an element that fails `q` leaves the elements passing `q` as
      they were. */
  lemma OtherPaneAfterMove<T>(xs: seq<T>, q: T -> bool, from: int, target: int)
    requires 0 <= from < |xs| && 0 <= target < |xs| && !q(xs[from])
    ensures Filter(MoveTo(xs, from, target), q) == Filter(xs, q)
  {
    var rest := Remove(xs, from);
    FilterRemoveFailing(xs, q, from);
    FilterInsertFailing(rest, q, target, xs[from]);
    assert MoveTo(xs, from, target) == Insert(rest, target, xs[from]);
  }

  /** The filtered view of a move between two passing positions is the move
      between their ranks. */
  lemma PaneAfterMove<T>(xs: seq<T>, p: T -> bool, from: int, target: int, index: int)
    requires 0 <= from < |xs| && 0 <= target < |xs| && from != target
    requires p(xs[from]) && p(xs[target]) && CountBefore(xs, p, target) == index
    ensures CountBefore(xs, p, from) < |Filter(xs, p)| && index < |Filter(xs, p)|
    ensures Filter(MoveTo(xs, from, target), p) == MoveTo(Filter(xs, p), CountBefore(xs, p, from), index)
  {
    var rest := Remove(xs, from);
    FilterAt(xs, p, from);
    FilterAt(xs, p, target);
    FilterRemove(xs, p, from);
    CountBeforeRemove(xs, p, from, target);
    if from < target {
      CountBeforeStep(xs, p, target);
    }
    FilterInsert(rest, p, target, xs[from]);
  }

  /** Drag end: the hook's end handler (refetch, clear), then a reorder of the
      whole list of both days. */
  function DragEndCalls(s: Days.State, selected: CalendarDate, dayItems: seq<DayItem>): (r: seq<Days.Call>)
    ensures |r| == 2 && r[0] == Days.FetchCall(selected)
    ensures r[1] == Days.ReorderDayItems(DayItemIds(dayItems))
  {
    var fetch, reorder := Days.DragEnd(s, selected).1[0], Days.ReorderCalls(dayItems)[0];
    ReorderSendsIds(dayItems);
    [fetch, reorder]
  }

  /** The hook's reorder request is one request carrying the items' ids. */
  lemma ReorderSendsIds(items: seq<DayItem>)
    ensures Days.ReorderCalls(items)[0] == Days.ReorderDayItems(DayItemIds(items))
  {
    assert Days.ReorderCalls(items)[0].orderedIds == DayItemIds(items);
  }
}

=== FILE: inline_edit.dfy ===
/** The inline text editor every planner row carries (agenda items, day items
    and agenda lines in settings): a display text that turns into an input on
    click, and an input that commits on Enter or blur and discards on Escape.

    Every row has one distinguished "draft" variant at the end of its list,
    used to add new entries: it is always in edit mode, Enter sends the text
    and clears the input, Escape only clears it, and blur does nothing. */
module InlineEdit {
  import opened Outcomes

  /** `isEditing` and the input's `value`. */
  datatype Editor = Editor(editing: bool, value: string)

  datatype Key = Enter | Escape | OtherKey

  /** What the user does to a row: a key in the input, leaving the input,
      typing a new input text, or clicking the displayed text. */
  datatype Event = KeyDown(key: Key) | Blur | Typed(text: string) | ClickText

  /** The editor after an event and the text handed to the row's update
      callback, if any. */
  datatype Reaction = Reaction(editor: Editor, sent: Option<string>)

  /** A freshly mounted row: the draft starts in edit mode, every row starts
      with its stored text in the input. */
  function Mount(draft: bool, stored: string): (e: Editor)
    ensures e.editing == draft && e.value == stored
  {
    Editor(draft, stored)
  }

  /** The input accepts at most `maxLength` characters. */
  function Clip(text: string, maxLength: nat): (r: string)
    ensures |r| <= maxLength && r <= text
    ensures |text| <= maxLength ==> r == text
  {
    if |text| <= maxLength then text else text[..maxLength]
  }

  /** The reaction to one event. `keyDraft` is the row's test for the draft in
      its key handler and `blurDraft` the test in its blur handler (the rows
      agree on them except the day item, see `DayItemRow`). Key, blur and
      typing need the input, which exists only in edit mode; the text is
      clickable only outside it, and not on the draft. */
  function React(e: Editor, keyDraft: bool, blurDraft: bool, stored: string, maxLength: nat, ev: Event)
    : (r: Reaction)
    ensures !e.editing && !ev.ClickText? ==> r == Reaction(e, None)
    ensures r.sent.Some? ==> e.editing && r.sent.value == e.value
    ensures r.sent.Some? <==> e.editing && (ev == KeyDown(Enter) || (ev.Blur? && !blurDraft))
    ensures e.editing && ev == KeyDown(Escape) && !keyDraft ==> r.editor == Editor(false, stored)
    ensures e.editing && ev.KeyDown? && ev.key != OtherKey && keyDraft ==> r.editor == Editor(true, "")
    ensures e.editing && ev.Typed? ==> r.editor == Editor(true, Clip(ev.text, maxLength))
  {
    match ev
    case KeyDown(key) =>
      if !e.editing then Reaction(e, None)
      else (
        match key
        case Enter =>
          if !keyDraft then Reaction(Editor(false, e.value), Some(e.value))
          else Reaction(Editor(true, ""), Some(e.value))
        case Escape =>
          if !keyDraft then Reaction(Editor(false, stored), None)
          else Reaction(Editor(true, ""), None)
        case OtherKey => Reaction(e, None))
    case Blur =>
      if !e.editing || blurDraft then Reaction(e, None)
      else Reaction(Editor(false, e.value), Some(e.value))
    case Typed(text) =>
      if !e.editing then Reaction(e, None) else Reaction(Editor(true, Clip(text, maxLength)), None)
    case ClickText =>
      if e.editing || blurDraft then Reaction(e, None) else Reaction(Editor(true, e.value), None)
  }

  /** A run of events: the final editor and every text sent, in order. */
  function Run(e: Editor, keyDraft: bool, blurDraft: bool, stored: string, maxLength: nat, evs: seq<Event>)
    : (Editor, seq<string>)
    decreases |evs|
  {
    if evs == [] then (e, [])
    else
      var r := React(e, keyDraft, blurDraft, stored, maxLength, evs[0]);
      var rest := Run(r.editor, keyDraft, blurDraft, stored, maxLength, evs[1..]);
      (rest.0, (if r.sent.Some? then [r.sent.value] else []) + rest.1)
  }

  /** The draft never leaves edit mode, whatever the user does. */
  lemma {:induction false} DraftStaysEditing(e: Editor, stored: string, maxLength: nat, evs: seq<Event>)
    requires e.editing
    ensures Run(e, true, true, stored, maxLength, evs).0.editing
    decreases |evs|
  {
    if evs != [] {
      DraftStaysEditing(React(e, true, true, stored, maxLength, evs[0]).editor, stored, maxLength, evs[1..]);
    }
  }

  /** Nothing longer than the input's limit is ever sent, provided the stored
      text fits it too. */
  lemma {:induction false} SentTextsFit(e: Editor, keyDraft: bool, blurDraft: bool, stored: string, maxLength: nat,
                                        evs: seq<Event>)
    requires |e.value| <= maxLength && |stored| <= maxLength
    ensures var (final, sent) := Run(e, keyDraft, blurDraft, stored, maxLength, evs);
            |final.value| <= maxLength && forall i :: 0 <= i < |sent| ==> |sent[i]| <= maxLength
    decreases |evs|
  {
    if evs != [] {
      var r := React(e, keyDraft, blurDraft, stored, maxLength, evs[0]);
      SentTextsFit(r.editor, keyDraft, blurDraft, stored, maxLength, evs[1..]);
    }
  }

  /** Typing each of `typed` in turn, then `last`. */
  function TypingThen(typed: seq<string>, last: Event): (evs: seq<Event>)
    ensures |evs| == |typed| + 1 && evs[|typed|] == last
    ensures forall i :: 0 <= i < |typed| ==> evs[i] == Typed(typed[i])
  {
    if typed == [] then [last] else [Typed(typed[0])] + TypingThen(typed[1..], last)
  }

  /** Escape discards whatever was typed on an existing row: after any typing,
      the row is back to the displayed stored text and nothing was sent. */
  lemma {:induction false} EscapeDiscardsTyping(e: Editor, blurDraft: bool, stored: string, maxLength: nat,
                                                typed: seq<string>)
    requires e.editing
    ensures Run(e, false, blurDraft, stored, maxLength, TypingThen(typed, KeyDown(Escape))) == (Editor(false, stored), [])
    decreases |typed|
  {
    var evs := TypingThen(typed, KeyDown(Escape));
    if typed == [] {
      assert evs[1..] == [];
      assert Run(e, false, blurDraft, stored, maxLength, evs).1 == [];
      assert Run(e, false, blurDraft, stored, maxLength, evs).0 == Editor(false, stored);
    } else {
      var next := React(e, false, blurDraft, stored, maxLength, Typed(typed[0])).editor;
      EscapeDiscardsTyping(next, blurDraft, stored, maxLength, typed[1..]);
      assert evs[1..] == TypingThen(typed[1..], KeyDown(Escape));
    }
  }

  /** Typing and then committing sends exactly the last typed text (clipped)
      and, on an existing row, leaves edit mode showing it. */
  lemma CommitSendsTyped(e: Editor, keyDraft: bool, blurDraft: bool, stored: string, maxLength: nat, text: string)
    requires e.editing
    ensures var (final, sent) := Run(e, keyDraft, blurDraft, stored, maxLength, [Typed(text), KeyDown(Enter)]);
            sent == [Clip(text, maxLength)]
            && (keyDraft <==> final.editing)
            && final.value == (if keyDraft then "" else Clip(text, maxLength))
  {
    var typed := React(e, keyDraft, blurDraft, stored, maxLength, Typed(text)).editor;
    assert [Typed(text), KeyDown(Enter)][1..] == [KeyDown(Enter)];
    assert [KeyDown(Enter)][1..] == [];
  }
}

=== FILE: legacy_profile_form.dfy ===
/** The earlier single-form profile page (`SettingsProfile.tsx` in the
    settings section): the password travels in the same update as the other
    fields, through the session's `updateUser`, and messages are shown in
    the form instead of toasts. */
module LegacyProfileForm {
  import opened Outcomes
  import opened AuthApi
  import ProfileForm

  const SuccessMessage := "Settings updated successfully!"
  const SuccessMessageMs := 3000

  /** The update sent: the profile fields that changed and a typed
      password. */
  datatype Update = Update(profile: UserUpdate, password: Option<string>)

  predicate IsEmpty(u: Update) {
    IsEmptyUpdate(u.profile) && u.password.None?
  }

  /** `hasChanges`: a profile field differs, or a password is typed. */
  predicate HasChanges(u: User, f: ProfileForm.Fields, password: string) {
    ProfileForm.HasChanges(u, f) || |password| > 0
  }

  function Patch(user: Option<User>, f: ProfileForm.Fields, password: string): (r: Update)
    ensures r.profile == ProfileForm.Patch(user, f)
    ensures r.password.Some? <==> password != ""
    ensures r.password.Some? ==> r.password.value == password
  {
    Update(ProfileForm.Patch(user, f), if password != "" then Some(password) else None)
  }

  /** The button's guard and the handler's guard agree here too, the
      password included. */
  lemma PatchEmptyIffUnchanged(u: User, f: ProfileForm.Fields, password: string)
    ensures IsEmpty(Patch(Some(u), f, password)) <==> !HasChanges(u, f, password)
  {
    ProfileForm.PatchEmptyIffUnchanged(u, f);
  }

  /** The form's state. */
  datatype Form = Form(fields: ProfileForm.Fields, password: string, updating: bool,
                       error: Option<string>, success: Option<string>)

  datatype Call = UpdateUserCall(update: Update)

  datatype Step = Step(form: Form, calls: seq<Call>)

  /** `handleSettingsUpdate` up to its await: the error is cleared first. */
  function Submit(form: Form, user: Option<User>): (r: Step)
    ensures r.form.fields == form.fields && r.form.password == form.password && r.form.success == form.success
    ensures IsEmpty(Patch(user, form.fields, form.password)) ==>
              r.calls == [] && !r.form.updating && r.form.error == Some(ProfileForm.NoChangesMessage)
    ensures !IsEmpty(Patch(user, form.fields, form.password)) ==>
              r.calls == [UpdateUserCall(Patch(user, form.fields, form.password))]
              && r.form.updating && r.form.error.None?
  {
    var update := Patch(user, form.fields, form.password);
    if IsEmpty(update) then Step(form.(updating := false, error := Some(ProfileForm.NoChangesMessage)), [])
    else Step(form.(updating := true, error := None), [UpdateUserCall(update)])
  }

  /** `handleSettingsUpdate` after the session's update settled: success
      shows the message and clears the password, failure shows the error;
      updating ends either way. */
  function Answered(form: Form, answer: Ack): (r: Form)
    ensures !r.updating && r.fields == form.fields
    ensures answer.Ok? ==> r.success == Some(SuccessMessage) && r.password == "" && r.error == form.error
    ensures answer.Err? ==> r.error == Some(ProfileForm.ProfileFailedMessage)
                            && r.password == form.password && r.success == form.success
  {
    match answer
    case Ok(_) => form.(updating := false, success := Some(SuccessMessage), password := "")
    case Err => form.(updating := false, error := Some(ProfileForm.ProfileFailedMessage))
  }

  /** The timer set on success clears the message. */
  function SuccessExpired(form: Form): (r: Form)
    ensures r.success.None? && r == form.(success := None)
  {
    form.(success := None)
  }

  /** A successful save with only a password typed leaves a form with no
      changes left, so the button is disabled again. */
  lemma PasswordOnlySaveSettles(u: User, form: Form)
    requires form.fields == ProfileForm.FieldsOf(u) && form.password != ""
    ensures Submit(form, Some(u)).calls == [UpdateUserCall(Update(UserUpdate(None, None, None), Some(form.password)))]
    ensures !HasChanges(u, Answered(Submit(form, Some(u)).form, Ok(())).fields,
                        Answered(Submit(form, Some(u)).form, Ok(())).password)
  {
  }
}

=== FILE: lists.dfy ===
/** The array operations the planner's list handling relies on: `findIndex`,
    `splice`, and `filter`, over immutable sequences. */
module Lists {

  /** `findIndex` on a list of ids: the first position holding `id`, or -1. */
  function IndexOf(ids: seq<int>, id: int): (r: int)
    ensures -1 <= r < |ids|
    ensures r >= 0 ==> ids[r] == id && forall j :: 0 <= j < r ==> ids[j] != id
    ensures r == -1 <==> id !in ids
  {
    if |ids| == 0 then -1
    else if ids[0] == id then 0
    else
      var k := IndexOf(ids[1..], id);
      if k == -1 then -1 else k + 1
  }

  /** The position `splice(start, ...)` actually starts at on a list of length
      `len`: a negative start counts back from the end, and both ends clamp. */
  function SpliceStart(len: nat, start: int): (r: nat)
    ensures r <= len
    ensures 0 <= start <= len ==> r == start
    ensures start < 0 && len + start >= 0 ==> r == len + start
    ensures len + start < 0 ==> r == 0
    ensures start > len ==> r == len
  {
    if start < 0 then (if len + start < 0 then 0 else len + start)
    else if start < len then start else len
  }

  /** `splice(i, 1)`: the list without the element at `i`. */
  function Remove<T>(xs: seq<T>, i: int): (r: seq<T>)
    requires 0 <= i < |xs|
    ensures |r| == |xs| - 1
    ensures forall j :: 0 <= j < i ==> r[j] == xs[j]
    ensures forall j :: i <= j < |r| ==> r[j] == xs[j + 1]
    ensures multiset(r) + multiset{xs[i]} == multiset(xs)
  {
    assert xs == xs[..i] + [xs[i]] + xs[i + 1..];
    xs[..i] + xs[i + 1..]
  }

  /** `splice(i, 0, x)`: the list with `x` placed at position `i`. */
  function Insert<T>(xs: seq<T>, i: int, x: T): (r: seq<T>)
    requires 0 <= i <= |xs|
    ensures |r| == |xs| + 1 && r[i] == x
    ensures forall j :: 0 <= j < i ==> r[j] == xs[j]
    ensures forall j :: i <= j < |xs| ==> r[j + 1] == xs[j]
    ensures multiset(r) == multiset(xs) + multiset{x}
  {
    assert xs == xs[..i] + xs[i..];
    xs[..i] + [x] + xs[i..]
  }

  lemma RemoveInsert<T>(xs: seq<T>, i: int, x: T)
    requires 0 <= i <= |xs|
    ensures Remove(Insert(xs, i, x), i) == xs
  {
  }

  lemma InsertRemove<T>(xs: seq<T>, i: int)
    requires 0 <= i < |xs|
    ensures Insert(Remove(xs, i), i, xs[i]) == xs
  {
  }

  /** Take the element at `from` out and put it back in at `to`: the two
      `splice` calls of a drag-over step. */
  function MoveTo<T>(xs: seq<T>, from: int, to: int): (r: seq<T>)
    requires 0 <= from < |xs| && 0 <= to < |xs|
    ensures |r| == |xs| && multiset(r) == multiset(xs)
    ensures r[to] == xs[from]
    ensures Remove(r, to) == Remove(xs, from)
  {
    RemoveInsert(Remove(xs, from), to, xs[from]);
    Insert(Remove(xs, from), to, xs[from])
  }

  /** Moving back undoes a move. */
  lemma MoveToInverse<T>(xs: seq<T>, from: int, to: int)
    requires 0 <= from < |xs| && 0 <= to < |xs|
    ensures MoveTo(MoveTo(xs, from, to), to, from) == xs
  {
    InsertRemove(xs, from);
  }

  lemma MoveToSame<T>(xs: seq<T>, i: int)
    requires 0 <= i < |xs|
    ensures MoveTo(xs, i, i) == xs
  {
    InsertRemove(xs, i);
  }

  /** `filter`: the elements satisfying `p`, in their order. */
  function Filter<T>(xs: seq<T>, p: T -> bool): (r: seq<T>)
    ensures |r| <= |xs|
    ensures forall i :: 0 <= i < |r| ==> p(r[i])
  {
    if |xs| == 0 then []
    else
      var rest := Filter(xs[1..], p);
      if p(xs[0]) then [xs[0]] + rest else rest
  }

  /** The filtered list holds exactly the passing elements of the list. */
  lemma {:induction false} FilterMembers<T>(xs: seq<T>, p: T -> bool, x: T)
    ensures x in Filter(xs, p) <==> x in xs && p(x)
  {
    if |xs| > 0 {
      FilterMembers(xs[1..], p, x);
      assert x in xs <==> x == xs[0] || x in xs[1..];
    }
  }

  lemma {:induction false} FilterConcat<T>(a: seq<T>, b: seq<T>, p: T -> bool)
    ensures Filter(a + b, p) == Filter(a, p) + Filter(b, p)
  {
    if |a| > 0 {
      assert (a + b)[1..] == a[1..] + b;
      FilterConcat(a[1..], b, p);
    } else {
      assert a + b == b;
    }
  }

  lemma FilterOne<T>(x: T, p: T -> bool)
    ensures Filter([x], p) == if p(x) then [x] else []
  {
    assert [x][1..] == [];
  }

  /** A list equals the filter of itself exactly when every element passes. */
  lemma {:induction false} FilterAll<T>(xs: seq<T>, p: T -> bool)
    ensures (forall i :: 0 <= i < |xs| ==> p(xs[i])) <==> Filter(xs, p) == xs
  {
    if |xs| > 0 {
      FilterAll(xs[1..], p);
      if Filter(xs, p) == xs {
        assert p(xs[0]);
      }
    }
  }

  /** A list none of whose elements pass filters to nothing. */
  lemma {:induction false} FilterNone<T>(xs: seq<T>, p: T -> bool)
    requires forall i :: 0 <= i < |xs| ==> !p(xs[i])
    ensures Filter(xs, p) == []
  {
    if |xs| > 0 {
      FilterNone(xs[1..], p);
    }
  }

  /** The number of elements before position `i` that pass `p`. */
  function CountBefore<T>(xs: seq<T>, p: T -> bool, i: int): (n: nat)
    requires 0 <= i <= |xs|
    ensures n <= i
  {
    |Filter(xs[..i], p)|
  }

  /** Splitting the list around position `i`. */
  lemma FilterAround<T>(xs: seq<T>, p: T -> bool, i: int)
    requires 0 <= i < |xs|
    ensures Filter(xs, p) == Filter(xs[..i], p) + Filter([xs[i]], p) + Filter(xs[i + 1..], p)
  {
    var a, b, c := xs[..i], [xs[i]], xs[i + 1..];
    SplitAt(xs, i);
    FilterConcat(a, b + c, p);
    FilterConcat(b, c, p);
    SeqAssoc(Filter(a, p), Filter(b, p), Filter(c, p));
  }

  lemma SplitAt<T>(xs: seq<T>, i: int)
    requires 0 <= i < |xs|
    ensures xs == xs[..i] + ([xs[i]] + xs[i + 1..])
  {
  }

  lemma SeqAssoc<T>(x: seq<T>, y: seq<T>, z: seq<T>)
    ensures x + (y + z) == x + y + z
  {
  }

  /** A passing element keeps its place among the passing ones. */
  lemma FilterAt<T>(xs: seq<T>, p: T -> bool, i: int)
    requires 0 <= i < |xs| && p(xs[i])
    ensures CountBefore(xs, p, i) < |Filter(xs, p)|
    ensures Filter(xs, p)[CountBefore(xs, p, i)] == xs[i]
  {
    FilterAround(xs, p, i);
    FilterOne(xs[i], p);
  }

  lemma RemoveIsConcat<T>(xs: seq<T>, i: int)
    requires 0 <= i < |xs|
    ensures Remove(xs, i) == xs[..i] + xs[i + 1..]
  {
  }

  lemma InsertIsConcat<T>(xs: seq<T>, i: int, x: T)
    requires 0 <= i <= |xs|
    ensures Insert(xs, i, x) == xs[..i] + ([x] + xs[i..])
  {
  }

  lemma RemoveMiddle<T>(a: seq<T>, y: T, b: seq<T>)
    ensures Remove(a + [y] + b, |a|) == a + b
  {
  }

  lemma InsertMiddle<T>(a: seq<T>, y: T, b: seq<T>)
    ensures Insert(a + b, |a|, y) == a + [y] + b
  {
  }

  lemma FilterOfRemove<T>(xs: seq<T>, p: T -> bool, i: int)
    requires 0 <= i < |xs|
    ensures Filter(Remove(xs, i), p) == Filter(xs[..i], p) + Filter(xs[i + 1..], p)
  {
    RemoveIsConcat(xs, i);
    FilterConcat(xs[..i], xs[i + 1..], p);
  }

  lemma FilterOfInsert<T>(xs: seq<T>, p: T -> bool, i: int, x: T)
    requires 0 <= i <= |xs| && p(x)
    ensures Filter(Insert(xs, i, x), p) == Filter(xs[..i], p) + [x] + Filter(xs[i..], p)
  {
    InsertIsConcat(xs, i, x);
    FilterConcat(xs[..i], [x] + xs[i..], p);
    FilterConcat([x], xs[i..], p);
    FilterOne(x, p);
  }

  lemma FilterSplit<T>(xs: seq<T>, p: T -> bool, i: int)
    requires 0 <= i <= |xs|
    ensures Filter(xs, p) == Filter(xs[..i], p) + Filter(xs[i..], p)
  {
    assert xs == xs[..i] + xs[i..];
    FilterConcat(xs[..i], xs[i..], p);
  }

  /** Removing a passing element removes it from the filtered list at its
      filtered place. */
  lemma FilterRemove<T>(xs: seq<T>, p: T -> bool, i: int)
    requires 0 <= i < |xs| && p(xs[i])
    ensures CountBefore(xs, p, i) < |Filter(xs, p)|
    ensures Filter(Remove(xs, i), p) == Remove(Filter(xs, p), CountBefore(xs, p, i))
  {
    var a, b := Filter(xs[..i], p), Filter(xs[i + 1..], p);
    FilterAround(xs, p, i);
    FilterOne(xs[i], p);
    assert Filter(xs, p) == a + [xs[i]] + b;
    FilterOfRemove(xs, p, i);
    RemoveMiddle(a, xs[i], b);
  }

  /** Removing a failing element leaves the filtered list as it was. */
  lemma FilterRemoveFailing<T>(xs: seq<T>, p: T -> bool, i: int)
    requires 0 <= i < |xs| && !p(xs[i])
    ensures Filter(Remove(xs, i), p) == Filter(xs, p)
  {
    FilterSplit(xs, p, i);
    assert xs[i..][1..] == xs[i + 1..];
    FilterOfRemove(xs, p, i);
  }

  /** Inserting a passing element inserts it into the filtered list at the
      number of passing elements before the insertion point. */
  lemma FilterInsert<T>(xs: seq<T>, p: T -> bool, i: int, x: T)
    requires 0 <= i <= |xs| && p(x)
    ensures CountBefore(xs, p, i) <= |Filter(xs, p)|
    ensures Filter(Insert(xs, i, x), p) == Insert(Filter(xs, p), CountBefore(xs, p, i), x)
  {
    var a, b := Filter(xs[..i], p), Filter(xs[i..], p);
    FilterSplit(xs, p, i);
    FilterOfInsert(xs, p, i, x);
    InsertMiddle(a, x, b);
  }

  /** Passing elements before `i` in a list with element `j` removed. */
  lemma CountBeforeRemove<T>(xs: seq<T>, p: T -> bool, j: int, i: int)
    requires 0 <= j < |xs| && 0 <= i <= |xs| - 1
    ensures j >= i ==> CountBefore(Remove(xs, j), p, i) == CountBefore(xs, p, i)
    ensures j < i && p(xs[j]) ==> CountBefore(Remove(xs, j), p, i) == CountBefore(xs, p, i + 1) - 1
    ensures j < i && !p(xs[j]) ==> CountBefore(Remove(xs, j), p, i) == CountBefore(xs, p, i + 1)
  {
    var r := Remove(xs, j);
    if j >= i {
      assert r[..i] == xs[..i];
    } else {
      assert r[..i] == Remove(xs[..i + 1], j);
      assert xs[..i + 1][j] == xs[j];
      if p(xs[j]) {
        FilterRemove(xs[..i + 1], p, j);
      } else {
        FilterRemoveFailing(xs[..i + 1], p, j);
      }
    }
  }

  /** Inserting a failing element leaves the filtered list as it was. */
  lemma FilterInsertFailing<T>(xs: seq<T>, p: T -> bool, i: int, x: T)
    requires 0 <= i <= |xs| && !p(x)
    ensures Filter(Insert(xs, i, x), p) == Filter(xs, p)
  {
    FilterSplit(xs, p, i);
    InsertIsConcat(xs, i, x);
    FilterConcat(xs[..i], [x] + xs[i..], p);
    FilterConcat([x], xs[i..], p);
    FilterOne(x, p);
  }

  /** One more passing element before the next position. */
  lemma CountBeforeStep<T>(xs: seq<T>, p: T -> bool, i: int)
    requires 0 <= i < |xs|
    ensures CountBefore(xs, p, i + 1) == CountBefore(xs, p, i) + (if p(xs[i]) then 1 else 0)
  {
    assert xs[..i + 1] == xs[..i] + [xs[i]];
    FilterConcat(xs[..i], [xs[i]], p);
    FilterOne(xs[i], p);
  }

  /** Counting passing elements is monotone in the position. */
  lemma CountBeforeMonotone<T>(xs: seq<T>, p: T -> bool, i: int, j: int)
    requires 0 <= i <= j <= |xs|
    ensures CountBefore(xs, p, i) <= CountBefore(xs, p, j)
  {
    assert xs[..j] == xs[..i] + xs[i..j];
    FilterConcat(xs[..i], xs[i..j], p);
  }

  /** The position in the whole list of the `n`-th passing element. */
  function PositionOfNth<T>(xs: seq<T>, p: T -> bool, n: nat): (t: int)
    requires n < |Filter(xs, p)|
    ensures 0 <= t < |xs| && p(xs[t]) && CountBefore(xs, p, t) == n
    decreases |xs|
  {
    assert xs == [xs[0]] + xs[1..];
    FilterConcat([xs[0]], xs[1..], p);
    FilterOne(xs[0], p);
    if p(xs[0]) && n == 0 then
      assert xs[..0] == [];
      0
    else
      var k := PositionOfNth(xs[1..], p, if p(xs[0]) then n - 1 else n);
      assert xs[..k + 1] == [xs[0]] + xs[1..][..k];
      FilterConcat([xs[0]], xs[1..][..k], p);
      k + 1
  }
}

=== FILE: mobile_header.dfy ===
/** The title of the mobile header (`MobileHeader.tsx`): the first section
    name whose route word occurs in the path, in a fixed order. */
module MobileHeader {
  import Text

  /** The route words and their titles, in the order the title tries them. */
  const Sections: seq<(string, string)> :=
    [("planner", "Planner"), ("projects", "Projects"), ("notes", "Notes"), ("settings", "Settings")]

  const DefaultTitle := "Perga"

  function SectionName(path: string): (r: string)
    ensures r in {"Planner", "Projects", "Notes", "Settings", "Perga"}
  {
    if Text.Contains(path, "planner") then "Planner"
    else if Text.Contains(path, "projects") then "Projects"
    else if Text.Contains(path, "notes") then "Notes"
    else if Text.Contains(path, "settings") then "Settings"
    else DefaultTitle
  }

  /** The first entry of the table whose word occurs in the path; the
      reference reading of the header's chain of tests. */
  function FirstMatch(table: seq<(string, string)>, path: string): (r: string)
    ensures r == DefaultTitle || exists i :: 0 <= i < |table| && r == table[i].1
  {
    if |table| == 0 then DefaultTitle
    else if Text.Contains(path, table[0].0) then table[0].1
    else
      var rest := FirstMatch(table[1..], path);
      assert rest != DefaultTitle ==> exists i :: 0 <= i < |table| && rest == table[i].1 by {
        if rest != DefaultTitle {
          var j :| 0 <= j < |table[1..]| && rest == table[1..][j].1;
          assert table[1..][j] == table[j + 1];
        }
      }
      rest
  }

  /** The header's title is the first matching section of the table, and
      "Perga" exactly when no section word occurs. */
  lemma SectionNameIsFirstMatch(path: string)
    ensures SectionName(path) == FirstMatch(Sections, path)
    ensures SectionName(path) == DefaultTitle <==>
              forall i :: 0 <= i < |Sections| ==> !Text.Contains(path, Sections[i].0)
  {
    var t1 := Sections[1..];
    var t2 := t1[1..];
    var t3 := t2[1..];
    assert t3[1..] == [];
    assert FirstMatch(t3[1..], path) == DefaultTitle;
    assert t3[0] == ("settings", "Settings");
    assert FirstMatch(t3, path) == if Text.Contains(path, "settings") then "Settings" else DefaultTitle;
    assert t2[0] == ("notes", "Notes");
    assert FirstMatch(t2, path) == if Text.Contains(path, "notes") then "Notes" else FirstMatch(t3, path);
    assert t1[0] == ("projects", "Projects");
    assert FirstMatch(t1, path) == if Text.Contains(path, "projects") then "Projects" else FirstMatch(t2, path);
    assert FirstMatch(Sections, path) == if Text.Contains(path, "planner") then "Planner" else FirstMatch(t1, path);
    assert Sections[0].0 == "planner" && Sections[1].0 == "projects";
    assert Sections[2].0 == "notes" && Sections[3].0 == "settings";
    if SectionName(path) == DefaultTitle {
      forall i | 0 <= i < |Sections|
        ensures !Text.Contains(path, Sections[i].0)
      {
        assert i == 0 || i == 1 || i == 2 || i == 3;
      }
    }
    if forall i :: 0 <= i < |Sections| ==> !Text.Contains(path, Sections[i].0) {
      assert !Text.Contains(path, Sections[0].0) && !Text.Contains(path, Sections[1].0);
      assert !Text.Contains(path, Sections[2].0) && !Text.Contains(path, Sections[3].0);
      assert !Text.Contains(path, "planner") && !Text.Contains(path, "projects");
      assert !Text.Contains(path, "notes") && !Text.Contains(path, "settings");
    }
  }
}

=== FILE: outcomes.dfy ===
/** Optional values and the abstract result of a call to the remote API.

    A call to the server either resolves with a response (`Ok`) or rejects
    (`Err`). The model never inspects why a call failed: every rejection,
    an authentication failure included, is handled the same way.
 */
module Outcomes {

  /** A value that may be absent: `undefined` or `null` in the source. */
  datatype Option<+T> = None | Some(value: T) {
    function GetOr(default: T): T {
      match this
      case Some(v) => v
      case None => default
    }
  }

  /** The outcome of one awaited API call. */
  datatype Outcome<+T> = Ok(value: T) | Err

  /** The outcome of a call whose response body is ignored (delete, reorder, action). */
  type Ack = Outcome<()>
}

=== FILE: planner_date_utils.dfy ===
/** The planner's own date helpers (`src/sections/planner/utils/dateUtils.ts`). */
module PlannerDateUtils {
  import opened Text
  import opened Dates
  import DateUtils

  /** `formatDate`: the planner's copy of the API date format. It is the same
      text as the shared `formatDateForAPI`, character for character. */
  function FormatDate(d: CalendarDate): (r: string)
    ensures r == DateUtils.FormatDateForApi(d)
  {
    IntToString(d.year) + "-" + PadStart(IntToString(d.month + 1), 2, '0') + "-"
    + PadStart(IntToString(d.day), 2, '0')
  }

  /** `getNextDate`: a copy of the argument one calendar day later, same time of day. */
  function GetNextDate(t: DateUtils.LocalInstant): (r: DateUtils.LocalInstant)
    ensures r.date == NextDay(t.date) && r.ms == t.ms
    ensures DayNumber(r.date) == DayNumber(t.date) + 1
  {
    SetDateShift(t.date, 1);
    AddOneDay(t.date);
    NextDayNumber(t.date);
    DateUtils.Instant(SetDate(t.date, t.date.day + 1), t.ms)
  }

  /** The next date as the planner formats it, from a calendar date alone. */
  function NextDateString(d: CalendarDate): (r: string)
    ensures r == FormatDate(NextDay(d))
  {
    FormatDate(GetNextDate(DateUtils.Instant(d, 0)).date)
  }
}

=== FILE: planner_items.dfy ===
/** The planner's records (`src/api/planner_base.ts`, `planner_agendas.ts`,
    `planner_days.ts`) and the list operations the hooks apply to them. */
module PlannerItems {
  import opened Outcomes
  import opened Lists

  datatype ItemState = Todo | Completed | Snoozed | Dropped

  /** The agenda kinds; `Archived` is used by the settings screen although the
      API type lists only the first three. */
  datatype AgendaType = Monthly | Backlog | Custom | Archived

  datatype Agenda = Agenda(id: int, name: string, agendaType: AgendaType, index: int,
                           completedCount: int, todoCount: int)

  datatype AgendaItem = AgendaItem(id: int, text: string, state: ItemState, index: int, agendaId: int)

  datatype DayItem = DayItem(id: int, text: string, state: ItemState, index: int, day: string)

  /** The id every draft row carries. */
  const DraftId: int := -1

  /** `ITEM_TEXT_MAX_LENGTH` and `AGENDA_NAME_MAX_LENGTH`: input limits of the
      edit fields. */
  const ItemTextMaxLength: int := 64
  const AgendaNameMaxLength: int := 64

  /** The optional fields of an item edit, `{ text?, state? }`. */
  datatype ItemChanges = ItemChanges(text: Option<string>, state: Option<ItemState>)

  /** `{ ...item, ...changes }`: the given fields win, everything else is kept. */
  function ApplyChanges(item: AgendaItem, c: ItemChanges): (r: AgendaItem)
    ensures r.id == item.id && r.agendaId == item.agendaId && r.index == item.index
    ensures c.text.Some? ==> r.text == c.text.value
    ensures c.text.None? ==> r.text == item.text
    ensures c.state.Some? ==> r.state == c.state.value
    ensures c.state.None? ==> r.state == item.state
  {
    item.(text := c.text.GetOr(item.text), state := c.state.GetOr(item.state))
  }

  function AgendaItemIds(xs: seq<AgendaItem>): (r: seq<int>)
    ensures |r| == |xs| && forall i :: 0 <= i < |xs| ==> r[i] == xs[i].id
  {
    seq(|xs|, i requires 0 <= i < |xs| => xs[i].id)
  }

  function DayItemIds(xs: seq<DayItem>): (r: seq<int>)
    ensures |r| == |xs| && forall i :: 0 <= i < |xs| ==> r[i] == xs[i].id
  {
    seq(|xs|, i requires 0 <= i < |xs| => xs[i].id)
  }

  function AgendaIds(xs: seq<Agenda>): (r: seq<int>)
    ensures |r| == |xs| && forall i :: 0 <= i < |xs| ==> r[i] == xs[i].id
  {
    seq(|xs|, i requires 0 <= i < |xs| => xs[i].id)
  }

  /** `m[k] || []`: the list stored under a key, empty when there is none. */
  function ListOf<T>(m: map<int, seq<T>>, k: int): seq<T> {
    if k in m then m[k] else []
  }

  /** `xs.map(item => item.id === id ? x : item)` for agenda items. */
  function ReplaceAgendaItem(xs: seq<AgendaItem>, id: int, x: AgendaItem): (r: seq<AgendaItem>)
    ensures |r| == |xs|
    ensures forall i :: 0 <= i < |xs| && xs[i].id != id ==> r[i] == xs[i]
    ensures forall i :: 0 <= i < |xs| && xs[i].id == id ==> r[i] == x
  {
    seq(|xs|, i requires 0 <= i < |xs| => if xs[i].id == id then x else xs[i])
  }

  /** `xs.map(item => item.id === id ? x : item)` for day items. */
  function ReplaceDayItem(xs: seq<DayItem>, id: int, x: DayItem): (r: seq<DayItem>)
    ensures |r| == |xs|
    ensures forall i :: 0 <= i < |xs| && xs[i].id != id ==> r[i] == xs[i]
    ensures forall i :: 0 <= i < |xs| && xs[i].id == id ==> r[i] == x
  {
    seq(|xs|, i requires 0 <= i < |xs| => if xs[i].id == id then x else xs[i])
  }

  /** Replacing an id that is not in the list changes nothing. */
  lemma ReplaceAbsent(xs: seq<AgendaItem>, id: int, x: AgendaItem)
    requires id !in AgendaItemIds(xs)
    ensures ReplaceAgendaItem(xs, id, x) == xs
  {
    forall i | 0 <= i < |xs|
      ensures ReplaceAgendaItem(xs, id, x)[i] == xs[i]
    {
      assert AgendaItemIds(xs)[i] == xs[i].id;
    }
  }

  /** `xs.filter(item => item.id !== id)` for agenda items. */
  function WithoutAgendaItem(xs: seq<AgendaItem>, id: int): seq<AgendaItem> {
    Filter(xs, (item: AgendaItem) => item.id != id)
  }

  /** `xs.filter(item => item.id !== id)` for day items. */
  function WithoutDayItem(xs: seq<DayItem>, id: int): seq<DayItem> {
    Filter(xs, (item: DayItem) => item.id != id)
  }

  /** Removing by id keeps exactly the items with another id. */
  lemma WithoutAgendaItemMembers(xs: seq<AgendaItem>, id: int, x: AgendaItem)
    ensures x in WithoutAgendaItem(xs, id) <==> x in xs && x.id != id
  {
    FilterMembers(xs, (item: AgendaItem) => item.id != id, x);
  }

  lemma WithoutDayItemMembers(xs: seq<DayItem>, id: int, x: DayItem)
    ensures x in WithoutDayItem(xs, id) <==> x in xs && x.id != id
  {
    FilterMembers(xs, (item: DayItem) => item.id != id, x);
  }

  /** Removing an id that is not in the list changes nothing. */
  lemma WithoutAbsentAgendaItem(xs: seq<AgendaItem>, id: int)
    requires id !in AgendaItemIds(xs)
    ensures WithoutAgendaItem(xs, id) == xs
  {
    forall i | 0 <= i < |xs|
      ensures xs[i].id != id
    {
      assert AgendaItemIds(xs)[i] == xs[i].id;
    }
    FilterAll(xs, (item: AgendaItem) => item.id != id);
  }

  lemma WithoutAbsentDayItem(xs: seq<DayItem>, id: int)
    requires id !in DayItemIds(xs)
    ensures WithoutDayItem(xs, id) == xs
  {
    forall i | 0 <= i < |xs|
      ensures xs[i].id != id
    {
      assert DayItemIds(xs)[i] == xs[i].id;
    }
    FilterAll(xs, (item: DayItem) => item.id != id);
  }
}

=== FILE: profile_form.dfy ===
/** The profile settings form (`components/SettingsProfile/SettingsProfile.tsx`):
    a profile part that sends only the fields that differ from the loaded
    user, and a password part that needs both passwords. Each submit is
    split at its await; messages go to the toast queue. */
module ProfileForm {
  import opened Outcomes
  import opened AuthApi
  import Toasts

  const ProfileUpdatedMessage := "Settings updated successfully"
  const NoChangesMessage := "No changes to update."
  const ProfileFailedMessage := "Failed to update settings. Please check your information and try again."
  const PasswordUpdatedMessage := "Password updated successfully"
  const BothPasswordsMessage := "Please provide both current and new password."
  const PasswordFailedMessage := "Failed to update password. Please check your information and try again."

  /** The editable profile fields. */
  datatype Fields = Fields(username: string, email: string, weekStartDay: WeekStartDay)

  /** The form as filled from a loaded user. */
  function FieldsOf(u: User): Fields {
    Fields(u.username, u.email, u.weekStartDay)
  }

  /** The user the form describes. */
  function UserOf(f: Fields): User {
    User(f.username, f.email, f.weekStartDay)
  }

  /** `hasChanges`: some field differs from the loaded user, that is, the
      form describes another user than the loaded one. */
  function HasChanges(u: User, f: Fields): (r: bool)
    ensures r <==> UserOf(f) != u
  {
    f.username != u.username || f.email != u.email || f.weekStartDay != u.weekStartDay
  }

  /** The update sent: a field is included exactly when it differs from the
      loaded user; with no user loaded every field differs. */
  function Patch(user: Option<User>, f: Fields): (r: UserUpdate)
    ensures r.username.Some? <==> user.None? || f.username != user.value.username
    ensures r.email.Some? <==> user.None? || f.email != user.value.email
    ensures r.weekStartDay.Some? <==> user.None? || f.weekStartDay != user.value.weekStartDay
    ensures r.username.Some? ==> r.username.value == f.username
    ensures r.email.Some? ==> r.email.value == f.email
    ensures r.weekStartDay.Some? ==> r.weekStartDay.value == f.weekStartDay
  {
    UserUpdate(
      if user.Some? && f.username == user.value.username then None else Some(f.username),
      if user.Some? && f.email == user.value.email then None else Some(f.email),
      if user.Some? && f.weekStartDay == user.value.weekStartDay then None else Some(f.weekStartDay))
  }

  /** The button's guard and the handler's guard agree: the update is empty
      exactly when the form has no changes. */
  lemma PatchEmptyIffUnchanged(u: User, f: Fields)
    ensures IsEmptyUpdate(Patch(Some(u), f)) <==> !HasChanges(u, f)
  {
  }

  /** The update carries the form to the server: applied to the loaded
      user it gives the user the form describes. */
  lemma PatchAppliedGivesForm(user: Option<User>, f: Fields, u: User)
    requires user.None? || user == Some(u)
    ensures ApplyUpdate(u, Patch(user, f)) == UserOf(f)
  {
  }

  /** A form just filled from the user has nothing to send. */
  lemma FreshFormUnchanged(u: User)
    ensures !HasChanges(u, FieldsOf(u)) && IsEmptyUpdate(Patch(Some(u), FieldsOf(u)))
  {
  }

  datatype Call = UpdateUserCall(update: UserUpdate) | UpdatePasswordCall(current: string, next: string) | FetchUser

  datatype Notice = Notice(kind: Toasts.ToastType, text: string)

  datatype Step<S> = Step(state: S, calls: seq<Call>, notices: seq<Notice>)

  /** The profile button: disabled while updating or without changes. */
  predicate ProfileEnabled(updating: bool, hasChanges: bool) {
    !updating && hasChanges
  }

  /** `handleProfileUpdate` up to its await; the state is the updating
      flag. */
  function SubmitProfile(user: Option<User>, f: Fields): (r: Step<bool>)
    ensures IsEmptyUpdate(Patch(user, f)) ==> r == Step(false, [], [Notice(Toasts.Error, NoChangesMessage)])
    ensures !IsEmptyUpdate(Patch(user, f)) ==> r == Step(true, [UpdateUserCall(Patch(user, f))], [])
  {
    var update := Patch(user, f);
    if IsEmptyUpdate(update) then Step(false, [], [Notice(Toasts.Error, NoChangesMessage)])
    else Step(true, [UpdateUserCall(update)], [])
  }

  /** `handleProfileUpdate` after the server answered: success toasts and
      reloads the user, failure toasts; updating ends either way. */
  function ProfileAnswered(answer: Ack): (r: Step<bool>)
    ensures !r.state && |r.notices| == 1
    ensures answer.Ok? <==> r.calls == [FetchUser]
    ensures answer.Ok? ==> r.notices[0] == Notice(Toasts.Success, ProfileUpdatedMessage)
    ensures answer.Err? ==> r.calls == [] && r.notices[0] == Notice(Toasts.Error, ProfileFailedMessage)
  {
    match answer
    case Ok(_) => Step(false, [FetchUser], [Notice(Toasts.Success, ProfileUpdatedMessage)])
    case Err => Step(false, [], [Notice(Toasts.Error, ProfileFailedMessage)])
  }

  /** An enabled profile button always reaches the server with the changed
      fields, never the "no changes" message. */
  lemma EnabledSubmitSends(u: User, f: Fields)
    requires ProfileEnabled(false, HasChanges(u, f))
    ensures SubmitProfile(Some(u), f).calls == [UpdateUserCall(Patch(Some(u), f))]
    ensures SubmitProfile(Some(u), f).notices == []
  {
    PatchEmptyIffUnchanged(u, f);
  }

  /** The password part. */
  datatype PasswordForm = PasswordForm(current: string, next: string, updating: bool)

  /** `hasPasswordChanges`: both fields are filled. */
  predicate PasswordEnabled(p: PasswordForm) {
    p.current != "" && p.next != ""
  }

  /** `handlePasswordUpdate` up to its await. */
  function SubmitPassword(p: PasswordForm): (r: Step<PasswordForm>)
    ensures !PasswordEnabled(p) ==> r == Step(p.(updating := false), [], [Notice(Toasts.Error, BothPasswordsMessage)])
    ensures PasswordEnabled(p) ==> r.state == p.(updating := true) && r.notices == []
                                   && r.calls == [UpdatePasswordCall(p.current, p.next)]
  {
    if p.current == "" || p.next == "" then
      Step(p.(updating := false), [], [Notice(Toasts.Error, BothPasswordsMessage)])
    else Step(p.(updating := true), [UpdatePasswordCall(p.current, p.next)], [])
  }

  /** `handlePasswordUpdate` after the server answered: success clears both
      fields, failure keeps them; updating ends either way. */
  function PasswordAnswered(p: PasswordForm, answer: Ack): (r: Step<PasswordForm>)
    ensures !r.state.updating && r.calls == [] && |r.notices| == 1
    ensures answer.Ok? ==> r.state.current == "" && r.state.next == ""
                           && r.notices[0] == Notice(Toasts.Success, PasswordUpdatedMessage)
    ensures answer.Err? ==> r.state.current == p.current && r.state.next == p.next
                            && r.notices[0] == Notice(Toasts.Error, PasswordFailedMessage)
  {
    match answer
    case Ok(_) => Step(PasswordForm("", "", false), [], [Notice(Toasts.Success, PasswordUpdatedMessage)])
    case Err => Step(p.(updating := false), [], [Notice(Toasts.Error, PasswordFailedMessage)])
  }

  /** The password call is made exactly when the button would be enabled,
      and a successful change leaves the button disabled. */
  lemma PasswordGuardAgrees(p: PasswordForm, answer: Ack)
    ensures SubmitPassword(p).calls != [] <==> PasswordEnabled(p)
    ensures answer.Ok? ==> !PasswordEnabled(PasswordAnswered(p, answer).state)
  {
  }
}

=== FILE: settings_agendas_hook.dfy ===
/** The agenda list of the settings screen (`useSettingsAgendas`): create,
    optimistic single-flight rename and archive, optimistic delete and reorder,
    each restoring the previous list when the request fails. */
module SettingsAgendasHook {
  import opened Outcomes
  import opened Text
  import opened Lists
  import opened PlannerItems

  /** The optional fields of an agenda edit, `{ name?, agenda_type? }`. */
  datatype AgendaChanges = AgendaChanges(name: Option<string>, agendaType: Option<AgendaType>)

  datatype Call =
    | GetAgendas(types: seq<AgendaType>, day: Option<string>, flag: bool)
    | CreateAgenda(name: string, agendaType: AgendaType)
    | UpdateAgenda(agendaId: int, changes: AgendaChanges)
    | DeleteAgenda(agendaId: int)
    | ReorderAgendas(orderedIds: seq<int>)

  /** The agenda list and the ids with an update in flight. */
  datatype State = State(agendas: seq<Agenda>, updating: set<int>)

  datatype Step = Step(state: State, calls: seq<Call>, errors: seq<string>)

  function Quiet(s: State): Step {
    Step(s, [], [])
  }

  const CreateFailedMessage: string := "Failed to create agenda"
  const UpdateFailedMessage: string := "Failed to update agenda"
  const DeleteFailedMessage: string := "Failed to delete agenda"
  const ReorderFailedMessage: string := "Failed to save new order, restoring\U{2026}"

  /** The settings screen loads custom and archived agendas for no particular
      day (`null`) with a third argument `true`. The API module defines no
      function of that name, so the flag is carried as given. */
  const FetchCall: Call := GetAgendas([Custom, Archived], None, true)

  /** The fetched agendas become the list; the locks are untouched. A failure
      is only logged. */
  function Fetched(s: State, outcome: Outcome<seq<Agenda>>): (r: State)
    ensures outcome.Ok? ==> r.agendas == outcome.value && r.updating == s.updating
    ensures outcome.Err? ==> r == s
  {
    match outcome
    case Ok(agendas) => s.(agendas := agendas)
    case Err => s
  }

  /** A successful fetch replaces the list whatever it held before: the result
      depends only on the answer and the locks, and receiving the same answer
      twice is receiving it once. */
  lemma FetchedReplaces(s1: State, s2: State, agendas: seq<Agenda>)
    requires s1.updating == s2.updating
    ensures Fetched(s1, Ok(agendas)) == Fetched(s2, Ok(agendas))
    ensures Fetched(Fetched(s1, Ok(agendas)), Ok(agendas)) == Fetched(s1, Ok(agendas))
  {
  }

  /** `{ ...agenda, ...changes }`. */
  function ApplyAgendaChanges(a: Agenda, c: AgendaChanges): (r: Agenda)
    ensures r.id == a.id && r.index == a.index
    ensures r.completedCount == a.completedCount && r.todoCount == a.todoCount
    ensures r.name == (if c.name.Some? then c.name.value else a.name)
    ensures r.agendaType == (if c.agendaType.Some? then c.agendaType.value else a.agendaType)
  {
    a.(name := c.name.GetOr(a.name), agendaType := c.agendaType.GetOr(a.agendaType))
  }

  /** `agendas.map(a => a.id === id ? x : a)`. */
  function ReplaceAgenda(xs: seq<Agenda>, id: int, x: Agenda): (r: seq<Agenda>)
    ensures |r| == |xs|
    ensures forall i :: 0 <= i < |xs| && xs[i].id != id ==> r[i] == xs[i]
    ensures forall i :: 0 <= i < |xs| && xs[i].id == id ==> r[i] == x
  {
    seq(|xs|, i requires 0 <= i < |xs| => if xs[i].id == id then x else xs[i])
  }

  function WithoutAgenda(xs: seq<Agenda>, id: int): seq<Agenda> {
    Filter(xs, (a: Agenda) => a.id != id)
  }

  // ---- create ----

  /** `handleCreateAgenda` before the request: only the empty name is refused;
      a name of spaces is sent. */
  function CreateCalls(name: string): (r: seq<Call>)
    ensures r == [] <==> name == ""
    ensures r != [] ==> r == [CreateAgenda(name, Custom)]
  {
    if name == "" then [] else [CreateAgenda(name, Custom)]
  }

  /** After the create: the new agenda goes to the end of the current list;
      a failure shows a toast and changes nothing. */
  function CreateCompleted(now: State, outcome: Outcome<Agenda>): (r: Step)
    ensures r.calls == [] && r.state.updating == now.updating
    ensures outcome.Ok? ==> r.state.agendas == now.agendas + [outcome.value] && r.errors == []
    ensures outcome.Err? ==> r.state == now && r.errors == [CreateFailedMessage]
  {
    match outcome
    case Ok(agenda) => Quiet(now.(agendas := now.agendas + [agenda]))
    case Err => Step(now, [], [CreateFailedMessage])
  }

  /** A create that lands after a fetch shows the fetched agendas followed by
      the new one. */
  lemma FetchedThenCreated(s: State, agendas: seq<Agenda>, created: Agenda)
    ensures CreateCompleted(Fetched(s, Ok(agendas)), Ok(created)).state.agendas == agendas + [created]
  {
  }

  // ---- update ----

  /** The guard: an update in flight for this agenda, or a name that is given
      and trims to nothing. A missing name is not checked. */
  predicate UpdateDropped(s: State, agendaId: int, changes: AgendaChanges) {
    agendaId in s.updating || (changes.name.Some? && IsBlank(changes.name.value))
  }

  /** The list with the edited agenda merged with the changes; the agenda is the
      first one with that id, as `find` picks it. */
  function Optimistic(xs: seq<Agenda>, agendaId: int, changes: AgendaChanges): (r: seq<Agenda>)
    ensures |r| == |xs|
    ensures forall i :: 0 <= i < |xs| && xs[i].id != agendaId ==> r[i] == xs[i]
    ensures forall i :: 0 <= i < |xs| && xs[i].id == agendaId ==>
              r[i] == ApplyAgendaChanges(xs[IndexOf(AgendaIds(xs), agendaId)], changes)
  {
    var k := IndexOf(AgendaIds(xs), agendaId);
    if k == -1 then xs
    else ReplaceAgenda(xs, agendaId, ApplyAgendaChanges(xs[k], changes))
  }

  /** `handleUpdateAgenda` up to its request. The caller keeps `s.agendas` as
      the snapshot. */
  function BeginUpdate(s: State, agendaId: int, changes: AgendaChanges): (r: Step)
    ensures UpdateDropped(s, agendaId, changes) ==> r == Quiet(s)
    ensures !UpdateDropped(s, agendaId, changes) ==>
              r.state == State(Optimistic(s.agendas, agendaId, changes), s.updating + {agendaId})
              && r.calls == [UpdateAgenda(agendaId, changes)] && r.errors == []
  {
    if UpdateDropped(s, agendaId, changes) then Quiet(s)
    else Step(State(Optimistic(s.agendas, agendaId, changes), s.updating + {agendaId}),
              [UpdateAgenda(agendaId, changes)], [])
  }

  /** After the update: success replaces that agenda in the CURRENT list with
      the server's; failure restores the snapshot and shows a toast. The id is
      unlocked on both paths. */
  function CompleteUpdate(now: State, snapshot: seq<Agenda>, agendaId: int, outcome: Outcome<Agenda>)
    : (r: Step)
    ensures r.calls == [] && r.state.updating == now.updating - {agendaId}
    ensures outcome.Ok? ==> r.state.agendas == ReplaceAgenda(now.agendas, agendaId, outcome.value)
                            && r.errors == []
    ensures outcome.Err? ==> r.state.agendas == snapshot && r.errors == [UpdateFailedMessage]
  {
    var unlocked := now.updating - {agendaId};
    match outcome
    case Ok(updated) => Quiet(State(ReplaceAgenda(now.agendas, agendaId, updated), unlocked))
    case Err => Step(State(snapshot, unlocked), [], [UpdateFailedMessage])
  }

  /** Single flight: while an update of an agenda is under way, another update
      of it sends nothing and changes nothing. */
  lemma SecondUpdateDropped(s: State, agendaId: int, c1: AgendaChanges, c2: AgendaChanges)
    requires BeginUpdate(s, agendaId, c1).calls != []
    ensures var mid := BeginUpdate(s, agendaId, c1).state;
            BeginUpdate(mid, agendaId, c2) == Quiet(mid)
  {
  }

  /** A failed update leaves the state exactly as before the edit. */
  lemma FailedUpdateRestores(s: State, agendaId: int, changes: AgendaChanges)
    requires BeginUpdate(s, agendaId, changes).calls != []
    ensures var mid := BeginUpdate(s, agendaId, changes).state;
            CompleteUpdate(mid, s.agendas, agendaId, Err).state == s
  {
  }

  /** A successful update ends with the server's agenda in place of the edited
      one and every other agenda as it was. */
  lemma SuccessfulUpdateReplaces(s: State, agendaId: int, changes: AgendaChanges, resp: Agenda)
    requires BeginUpdate(s, agendaId, changes).calls != [] && resp.id == agendaId
    ensures var mid := BeginUpdate(s, agendaId, changes).state;
            var r := CompleteUpdate(mid, s.agendas, agendaId, Ok(resp)).state;
            r.updating == s.updating && |r.agendas| == |s.agendas|
            && forall i :: 0 <= i < |s.agendas| ==>
                 r.agendas[i] == if s.agendas[i].id == agendaId then resp else s.agendas[i]
  {
  }

  /** The success path maps over the current list, so an agenda created while
      the update was in flight survives it. */
  lemma UpdateKeepsInterimCreate(s: State, agendaId: int, changes: AgendaChanges, created: Agenda,
                                 resp: Agenda)
    requires BeginUpdate(s, agendaId, changes).calls != [] && created.id != agendaId
    ensures var mid := CreateCompleted(BeginUpdate(s, agendaId, changes).state, Ok(created)).state;
            var r := CompleteUpdate(mid, s.agendas, agendaId, Ok(resp)).state;
            r.agendas[|r.agendas| - 1] == created
  {
  }

  // ---- delete ----

  /** `handleDeleteAgenda` up to its request: the agenda disappears at once. */
  function BeginDelete(s: State, agendaId: int): (r: Step)
    ensures r.state == s.(agendas := WithoutAgenda(s.agendas, agendaId))
    ensures r.calls == [DeleteAgenda(agendaId)] && r.errors == []
    ensures forall a :: a in r.state.agendas <==> a in s.agendas && a.id != agendaId
  {
    forall a
      ensures a in WithoutAgenda(s.agendas, agendaId) <==> a in s.agendas && a.id != agendaId
    {
      FilterMembers(s.agendas, (x: Agenda) => x.id != agendaId, a);
    }
    Step(s.(agendas := WithoutAgenda(s.agendas, agendaId)), [DeleteAgenda(agendaId)], [])
  }

  /** After the delete: failure restores the list from before the delete. */
  function DeleteCompleted(now: State, snapshot: seq<Agenda>, outcome: Ack): (r: Step)
    ensures r.calls == []
    ensures outcome.Ok? ==> r == Quiet(now)
    ensures outcome.Err? ==> r.state == now.(agendas := snapshot) && r.errors == [DeleteFailedMessage]
  {
    match outcome
    case Ok(_) => Quiet(now)
    case Err => Step(now.(agendas := snapshot), [], [DeleteFailedMessage])
  }

  lemma FailedDeleteRestores(s: State, agendaId: int)
    ensures DeleteCompleted(BeginDelete(s, agendaId).state, s.agendas, Err).state == s
  {
  }

  // ---- reorder ----

  /** `handleReorderAgendas` up to its request: the new list is shown at once
      and its ids are sent in list order. */
  function BeginReorder(s: State, agendas: seq<Agenda>): (r: Step)
    ensures r.state == s.(agendas := agendas) && r.errors == []
    ensures r.calls == [ReorderAgendas(AgendaIds(agendas))]
  {
    Step(s.(agendas := agendas), [ReorderAgendas(AgendaIds(agendas))], [])
  }

  function ReorderCompleted(now: State, snapshot: seq<Agenda>, outcome: Ack): (r: Step)
    ensures r.calls == []
    ensures outcome.Ok? ==> r == Quiet(now)
    ensures outcome.Err? ==> r.state == now.(agendas := snapshot) && r.errors == [ReorderFailedMessage]
  {
    match outcome
    case Ok(_) => Quiet(now)
    case Err => Step(now.(agendas := snapshot), [], [ReorderFailedMessage])
  }

  /** A failed reorder shows the previous order again; a successful one keeps
      the new list, whose ids are exactly the ones sent. */
  lemma ReorderRoundTrip(s: State, agendas: seq<Agenda>)
    ensures ReorderCompleted(BeginReorder(s, agendas).state, s.agendas, Err).state == s
    ensures var r := ReorderCompleted(BeginReorder(s, agendas).state, s.agendas, Ok(())).state;
            r.agendas == agendas && BeginReorder(s, agendas).calls == [ReorderAgendas(AgendaIds(r.agendas))]
  {
  }
}

=== FILE: settings_planner.dfy ===
/** The agenda section of the settings screen (`SettingsPlanner.tsx`): the
    fixed "Monthly" row, one line per agenda wired to the hook, and the draft
    line that creates agendas. */
module SettingsPlanner {
  import opened Outcomes
  import opened Text
  import opened PlannerItems
  import Settings = SettingsAgendasHook
  import AgendaLine

  /** The draft line: id -1, no name, type `custom`, index -1. The source
      leaves the counters unset; they are 0 here. */
  function DraftLine(): (a: Agenda)
    ensures AgendaLine.IsDraft(a) && a.name == "" && a.agendaType == Custom && a.index == -1
  {
    Agenda(DraftId, "", Custom, -1, 0, 0)
  }

  /** The draft line's update handler: an agenda is created only from a name
      that trims to something, and the name is passed untrimmed. */
  function DraftLineEdit(changes: Settings.AgendaChanges): (r: seq<Settings.Call>)
    ensures r != [] <==> changes.name.Some? && !IsBlank(changes.name.value)
    ensures r != [] ==> r == [Settings.CreateAgenda(changes.name.value, Custom)]
  {
    if changes.name.Some? && !IsBlank(changes.name.value) then Settings.CreateCalls(changes.name.value) else []
  }

  /** The page refuses more than the hook: whatever the draft line creates the
      hook would create too, but a name of spaces reaches the hook's create
      only from elsewhere. */
  lemma PageGuardStricterThanHook(name: string)
    ensures DraftLineEdit(Settings.AgendaChanges(Some(name), None)) != [] ==>
              DraftLineEdit(Settings.AgendaChanges(Some(name), None)) == Settings.CreateCalls(name)
    ensures name == " " ==> DraftLineEdit(Settings.AgendaChanges(Some(name), None)) == []
                            && Settings.CreateCalls(name) != []
  {
    if name == " " {
      assert IsBlank(name) by {
        assert IsJsWhitespace(name[0]);
      }
    }
  }

  /** Which callbacks a rendered line receives. */
  datatype Handlers = HookHandlers | DraftHandlers

  datatype Row = MonthlyRow | Line(agenda: Agenda, handlers: Handlers)

  /** The rows, top to bottom: "Monthly" without handlers, every agenda with
      the hook's update and delete, then the draft line. */
  function Rows(agendas: seq<Agenda>): (r: seq<Row>)
    ensures |r| == |agendas| + 2 && r[0] == MonthlyRow && r[|r| - 1] == Line(DraftLine(), DraftHandlers)
    ensures forall i :: 0 <= i < |agendas| ==> r[i + 1] == Line(agendas[i], HookHandlers)
  {
    [MonthlyRow] + seq(|agendas|, i requires 0 <= i < |agendas| => Line(agendas[i], HookHandlers))
    + [Line(DraftLine(), DraftHandlers)]
  }

  /** A line's update callback. */
  function LineUpdate(s: Settings.State, handlers: Handlers, agendaId: int, changes: Settings.AgendaChanges)
    : (r: Settings.Step)
    ensures handlers.HookHandlers? ==> r == Settings.BeginUpdate(s, agendaId, changes)
    ensures handlers.DraftHandlers? ==> r.state == s && r.calls == DraftLineEdit(changes) && r.errors == []
  {
    match handlers
    case HookHandlers => Settings.BeginUpdate(s, agendaId, changes)
    case DraftHandlers => Settings.Step(s, DraftLineEdit(changes), [])
  }

  /** A line's delete callback, absent on the draft. */
  function LineDelete(s: Settings.State, handlers: Handlers, agendaId: int): (r: Option<Settings.Step>)
    ensures handlers.HookHandlers? <==> r.Some?
    ensures r.Some? ==> r.value == Settings.BeginDelete(s, agendaId)
  {
    match handlers
    case HookHandlers => Some(Settings.BeginDelete(s, agendaId))
    case DraftHandlers => None
  }

  /** Whatever the user does on the draft line, the agenda list is untouched
      and the only request that can result is a create. */
  lemma DraftLineOnlyCreates(s: Settings.State, agendas: seq<Agenda>, changes: Settings.AgendaChanges)
    ensures var draft := Rows(agendas)[|agendas| + 1];
            draft.Line? && AgendaLine.IsDraft(draft.agenda)
            && LineUpdate(s, draft.handlers, draft.agenda.id, changes).state == s
            && (forall c :: c in LineUpdate(s, draft.handlers, draft.agenda.id, changes).calls ==> c.CreateAgenda?)
            && LineDelete(s, draft.handlers, draft.agenda.id).None?
  {
  }
}

=== FILE: storage.dfy ===
/** The guarded `localStorage` helpers (`storage.ts`). Storage is a map from
    keys to strings, or `None` when it is unavailable (no window, or access
    throws); every helper then falls back to its default or does nothing. */
module Storage {
  import opened Outcomes

  type Store = Option<map<string, string>>

  /** `get`: the stored string, or the default when the key is missing or
      storage is unavailable. */
  function Get(st: Store, key: string, default: Option<string>): (r: Option<string>)
    ensures st.Some? && key in st.value ==> r == Some(st.value[key])
    ensures st.None? || key !in st.value ==> r == default
  {
    if st.Some? && key in st.value then Some(st.value[key]) else default
  }

  /** `set`: nothing happens without storage. */
  function Set(st: Store, key: string, value: string): (r: Store)
    ensures st.None? <==> r.None?
    ensures r.Some? ==> r.value == st.value[key := value]
  {
    match st
    case None => None
    case Some(m) => Some(m[key := value])
  }

  function Remove(st: Store, key: string): (r: Store)
    ensures st.None? <==> r.None?
    ensures r.Some? ==> r.value == st.value - {key}
  {
    match st
    case None => None
    case Some(m) => Some(m - {key})
  }

  /** Reading back: a set value is read back, a removed key reads as the
      default, and other keys are untouched by either. */
  lemma GetAfterSetAndRemove(st: Store, key: string, other: string, value: string, default: Option<string>)
    requires st.Some? && other != key
    ensures Get(Set(st, key, value), key, default) == Some(value)
    ensures Get(Remove(st, key), key, default) == default
    ensures Get(Set(st, key, value), other, default) == Get(st, other, default)
    ensures Get(Remove(st, key), other, default) == Get(st, other, default)
  {
  }

  /** `getBoolean`: `"true"` and `"1"` read as true, `"false"` and `"0"` as
      false, anything else (a missing key included) as the default. */
  function GetBoolean(st: Store, key: string, default: bool): (r: bool)
    ensures var raw := Get(st, key, None);
            (raw == Some("true") || raw == Some("1") ==> r)
            && (raw == Some("false") || raw == Some("0") ==> !r)
            && (raw.None? ==> r == default)
  {
    match Get(st, key, None)
    case Some(raw) =>
      if raw == "true" || raw == "1" then true
      else if raw == "false" || raw == "0" then false
      else default
    case None => default
  }

  /** `setBoolean`: `String(value)` under the key; without storage nothing
      happens, and every other key keeps its text. */
  function SetBoolean(st: Store, key: string, value: bool): (r: Store)
    ensures st.None? <==> r.None?
    ensures r.Some? ==> r.value.Keys == st.value.Keys + {key}
    ensures r.Some? ==> r.value[key] == (if value then "true" else "false")
    ensures r.Some? ==> forall k :: k in st.value && k != key ==> r.value[k] == st.value[k]
  {
    Set(st, key, if value then "true" else "false")
  }

  /** The boolean codec round-trips whenever storage is there, and reads the
      default when it is not. */
  lemma BooleanRoundTrip(st: Store, key: string, value: bool, default: bool)
    ensures st.Some? ==> GetBoolean(SetBoolean(st, key, value), key, default) == value
    ensures st.None? ==> GetBoolean(SetBoolean(st, key, value), key, default) == default
  {
  }

  /** A stored text other than the four spellings reads as the default. */
  lemma OtherTextReadsDefault(st: Store, key: string, default: bool)
    requires st.Some? && key in st.value
    requires st.value[key] !in {"true", "1", "false", "0"}
    ensures GetBoolean(st, key, default) == default
  {
  }

  /** `getJSON`, with `JSON.parse` as a parameter that fails with `None`: a
      missing key or an unreadable text gives the default. */
  function GetJson<T>(st: Store, key: string, default: T, parse: string -> Option<T>): (r: T)
    ensures Get(st, key, None).None? ==> r == default
    ensures Get(st, key, None).Some? && parse(Get(st, key, None).value).None? ==> r == default
    ensures Get(st, key, None).Some? && parse(Get(st, key, None).value).Some? ==>
              r == parse(Get(st, key, None).value).value
  {
    match Get(st, key, None)
    case None => default
    case Some(raw) => parse(raw).GetOr(default)
  }

  /** `setJSON`, with `JSON.stringify` as a parameter that fails with `None`;
      a failure stores nothing. */
  function SetJson<T>(st: Store, key: string, value: T, stringify: T -> Option<string>): (r: Store)
    ensures stringify(value).None? ==> r == st
    ensures stringify(value).Some? ==> r == Set(st, key, stringify(value).value)
  {
    match stringify(value)
    case None => st
    case Some(raw) => Set(st, key, raw)
  }

  /** When parsing undoes stringifying, a stored value is read back. */
  lemma JsonRoundTrip<T>(st: Store, key: string, value: T, default: T,
                         parse: string -> Option<T>, stringify: T -> Option<string>)
    requires st.Some? && stringify(value).Some? && parse(stringify(value).value) == Some(value)
    ensures GetJson(SetJson(st, key, value, stringify), key, default, parse) == value
  {
  }
}

=== FILE: text.dfy ===
/** String helpers with the semantics of the JavaScript built-ins the client uses. */
module Text {

  /** The characters `String.prototype.trim` strips: the ECMAScript WhiteSpace
      and LineTerminator code points (Zs included). */
  predicate IsJsWhitespace(c: char) {
    var n := c as int;
    || n == 0x09 || n == 0x0B || n == 0x0C || n == 0x20 || n == 0xA0 || n == 0xFEFF
    || n == 0x0A || n == 0x0D || n == 0x2028 || n == 0x2029
    || n == 0x1680 || (0x2000 <= n <= 0x200A) || n == 0x202F || n == 0x205F || n == 0x3000
  }

  predicate AllWhitespace(s: string) {
    forall i :: 0 <= i < |s| ==> IsJsWhitespace(s[i])
  }

  function TrimStart(s: string): (r: string)
    ensures |r| <= |s| && r == s[|s| - |r|..]
    ensures r == [] || !IsJsWhitespace(r[0])
    ensures AllWhitespace(s[..|s| - |r|])
  {
    if |s| > 0 && IsJsWhitespace(s[0]) then TrimStart(s[1..]) else s
  }

  function TrimEnd(s: string): (r: string)
    ensures |r| <= |s| && r == s[..|r|]
    ensures r == [] || !IsJsWhitespace(r[|r| - 1])
    ensures AllWhitespace(s[|r|..])
  {
    if |s| > 0 && IsJsWhitespace(s[|s| - 1]) then TrimEnd(s[..|s| - 1]) else s
  }

  /** `s.trim()`: nothing is left exactly when `s` is all whitespace, what is
      left neither starts nor ends with whitespace, and a text that already
      neither starts nor ends with whitespace is kept whole. */
  function Trim(s: string): (r: string)
    ensures |r| <= |s|
    ensures r == [] <==> AllWhitespace(s)
    ensures r == [] || (!IsJsWhitespace(r[0]) && !IsJsWhitespace(r[|r| - 1]))
    ensures |s| > 0 && !IsJsWhitespace(s[0]) && !IsJsWhitespace(s[|s| - 1]) ==> r == s
  {
    var t := TrimStart(s);
    if AllWhitespace(s) then
      TrimStartOfWhitespace(s);
      TrimEnd(t)
    else
      TrimStartNotEmpty(s);
      TrimEndNotEmpty(t);
      var r := TrimEnd(t);
      assert r[0] == t[0];
      r
  }

  /** `!s.trim()`: the text is empty after trimming. */
  predicate IsBlank(s: string) {
    Trim(s) == ""
  }

  /** Stripping the leading whitespace of an all-whitespace string leaves nothing. */
  lemma {:induction false} TrimStartOfWhitespace(s: string)
    requires AllWhitespace(s)
    ensures TrimStart(s) == []
  {
    if |s| > 0 {
      TrimStartOfWhitespace(s[1..]);
    }
  }

  lemma {:induction false} TrimStartNotEmpty(s: string)
    requires !AllWhitespace(s)
    ensures TrimStart(s) != []
  {
    if |s| > 0 && IsJsWhitespace(s[0]) {
      var i :| 0 <= i < |s| && !IsJsWhitespace(s[i]);
      assert s[1..][i - 1] == s[i];
      TrimStartNotEmpty(s[1..]);
    }
  }

  lemma {:induction false} TrimEndNotEmpty(t: string)
    requires t != [] && !IsJsWhitespace(t[0])
    ensures TrimEnd(t) != []
  {
    if IsJsWhitespace(t[|t| - 1]) {
      assert |t| > 1;
      TrimEndNotEmpty(t[..|t| - 1]);
    }
  }

  predicate IsPrefix(p: string, s: string) {
    |p| <= |s| && s[..|p|] == p
  }

  /** `sub` occurs in `s` starting at position `i`. */
  predicate OccursAt(s: string, sub: string, i: int) {
    0 <= i <= |s| - |sub| && s[i..i + |sub|] == sub
  }

  /** `s.includes(sub)`: a prefix test at each position in turn, which holds
      exactly when `sub` occurs at some position of `s`. */
  function Contains(s: string, sub: string): (r: bool)
    ensures r <==> exists i :: OccursAt(s, sub, i)
    decreases |s|
  {
    if IsPrefix(sub, s) then
      assert OccursAt(s, sub, 0);
      true
    else if |s| == 0 then
      false
    else
      var rest := Contains(s[1..], sub);
      assert (exists i :: OccursAt(s, sub, i)) ==> rest by {
        if exists i :: OccursAt(s, sub, i) {
          var i :| OccursAt(s, sub, i);
          assert i != 0;
          assert OccursAt(s[1..], sub, i - 1);
        }
      }
      assert rest ==> exists i :: OccursAt(s, sub, i) by {
        if rest {
          var j :| OccursAt(s[1..], sub, j);
          assert s[1..][j..j + |sub|] == s[j + 1..j + 1 + |sub|];
          assert OccursAt(s, sub, j + 1);
        }
      }
      rest
  }

  /** `toLowerCase` on the ASCII letters; other characters are kept. */
  function LowerChar(c: char): char {
    if 'A' <= c <= 'Z' then (c as int + 32) as char else c
  }

  function ToLower(s: string): (r: string)
    ensures |r| == |s|
    ensures forall i :: 0 <= i < |s| ==> r[i] == LowerChar(s[i])
  {
    seq(|s|, i requires 0 <= i < |s| => LowerChar(s[i]))
  }

  predicate IsDigit(c: char) {
    '0' <= c <= '9'
  }

  predicate AllDigits(s: string) {
    forall i :: 0 <= i < |s| ==> IsDigit(s[i])
  }

  function DigitChar(d: nat): (c: char)
    requires d < 10
    ensures IsDigit(c)
  {
    ('0' as int + d) as char
  }

  function DigitValue(c: char): nat
    requires IsDigit(c)
  {
    c as int - '0' as int
  }

  /** The decimal numeral of a natural number, without leading zeros. */
  function NatToString(n: nat): (r: string)
    ensures |r| > 0 && AllDigits(r)
  {
    if n < 10 then [DigitChar(n)] else NatToString(n / 10) + [DigitChar(n % 10)]
  }

  /** `String(n)` for an integer: a minus sign exactly for negatives, then the
      digits of the magnitude, which read back to it. */
  function IntToString(n: int): (r: string)
    ensures n >= 0 ==> AllDigits(r) && DigitsValue(r) == n
    ensures n < 0 ==> |r| > 1 && r[0] == '-' && AllDigits(r[1..]) && DigitsValue(r[1..]) == -n
  {
    if n < 0 then
      NatToStringRoundTrip(-n);
      assert ("-" + NatToString(-n))[1..] == NatToString(-n);
      "-" + NatToString(-n)
    else
      NatToStringRoundTrip(n);
      NatToString(n)
  }

  /** The value of a string of decimal digits. */
  function DigitsValue(s: string): nat
    requires AllDigits(s)
  {
    if s == [] then 0 else 10 * DigitsValue(s[..|s| - 1]) + DigitValue(s[|s| - 1])
  }

  /** Reading back the numeral of `n` gives `n`. */
  lemma {:induction false} NatToStringRoundTrip(n: nat)
    ensures DigitsValue(NatToString(n)) == n
  {
    if n >= 10 {
      var r := NatToString(n);
      NatToStringRoundTrip(n / 10);
      assert r[..|r| - 1] == NatToString(n / 10);
    }
  }

  /** Digit strings of one length with one value are the same string. */
  lemma {:induction false} DigitsValueInjective(a: string, b: string)
    requires |a| == |b| && AllDigits(a) && AllDigits(b)
    requires DigitsValue(a) == DigitsValue(b)
    ensures a == b
  {
    if |a| > 0 {
      var n := |a|;
      var pa, pb := a[..n - 1], b[..n - 1];
      assert DigitValue(a[n - 1]) == DigitValue(b[n - 1]) && DigitsValue(pa) == DigitsValue(pb);
      DigitsValueInjective(pa, pb);
      assert a == pa + [a[n - 1]] && b == pb + [b[n - 1]];
    }
  }

  /** Four digits without a leading zero read as a number from 1000 to 9999. */
  lemma FourDigitsValue(a: string)
    requires |a| == 4 && AllDigits(a) && a[0] != '0'
    ensures 1000 <= DigitsValue(a) <= 9999
  {
    assert a[..3][..2] == a[..2] && a[..2][..1] == a[..1] && a[..1][..0] == [];
    assert DigitsValue(a[..1]) == DigitValue(a[0]);
    assert DigitsValue(a[..2]) == 10 * DigitValue(a[0]) + DigitValue(a[1]);
    assert DigitsValue(a[..3]) == 100 * DigitValue(a[0]) + 10 * DigitValue(a[1]) + DigitValue(a[2]);
  }

  /** Numerals of 1000..9999 have four digits; of 10..99 two. */
  lemma NatToStringLength(n: nat)
    ensures 1000 <= n <= 9999 ==> |NatToString(n)| == 4
    ensures 10 <= n <= 99 ==> |NatToString(n)| == 2
    ensures n <= 9 ==> |NatToString(n)| == 1
  {
    if 10 <= n {
      assert NatToString(n) == NatToString(n / 10) + [DigitChar(n % 10)];
      if 1000 <= n {
        assert NatToString(n / 10) == NatToString(n / 100) + [DigitChar(n / 10 % 10)];
        assert NatToString(n / 100) == NatToString(n / 1000) + [DigitChar(n / 100 % 10)];
      }
    }
  }

  /** `s.padStart(width, c)`. */
  function PadStart(s: string, width: nat, c: char): (r: string)
    ensures |r| == if |s| < width then width else |s|
    ensures r[|r| - |s|..] == s
    ensures forall i :: 0 <= i < |r| - |s| ==> r[i] == c
  {
    if |s| < width then seq(width - |s|, _ => c) + s else s
  }
}

=== FILE: toasts.dfy ===
/** The toast queue (`ToastContext.tsx`): messages are appended, each one
    removes itself by id once its duration is over, and the type picks the
    colour. Ids come from the clock and a random number, so they are a
    parameter here. */
module Toasts {
  import opened Outcomes
  import opened Lists

  datatype ToastType = Info | Success | Error | Warning

  const DefaultDuration: int := 4000

  datatype Toast = Toast(id: int, kind: ToastType, text: string, duration: int)

  type Queue = seq<Toast>

  /** `showToast(text, type = 'info', durationMs = 4000)`. */
  function Show(q: Queue, id: int, text: string, kind: Option<ToastType>, duration: Option<int>): (r: Queue)
    ensures |r| == |q| + 1 && r[..|q|] == q
    ensures r[|q|].id == id && r[|q|].text == text
    ensures r[|q|].kind == (if kind.Some? then kind.value else Info)
    ensures r[|q|].duration == (if duration.Some? then duration.value else DefaultDuration)
  {
    q + [Toast(id, kind.GetOr(Info), text, duration.GetOr(DefaultDuration))]
  }

  /** `showError`: a toast of type error. */
  function ShowError(q: Queue, id: int, text: string, duration: Option<int>): (r: Queue)
    ensures |r| == |q| + 1 && r[..|q|] == q
    ensures r[|q|] == Toast(id, Error, text, if duration.Some? then duration.value else DefaultDuration)
  {
    Show(q, id, text, Some(Error), duration)
  }

  function Keeps(id: int): Toast -> bool {
    (t: Toast) => t.id != id
  }

  /** `remove`: drops every toast with that id, keeping the rest in order;
      the timer of a toast calls it with the toast's own id. */
  function Remove(q: Queue, id: int): (r: Queue)
    ensures |r| <= |q|
    ensures forall i :: 0 <= i < |r| ==> r[i].id != id
    ensures r == q <==> forall i :: 0 <= i < |q| ==> q[i].id != id
  {
    FilterAll(q, Keeps(id));
    Filter(q, Keeps(id))
  }

  /** Removing keeps exactly the toasts with other ids. */
  lemma RemoveKeepsOthers(q: Queue, id: int, t: Toast)
    ensures t in Remove(q, id) <==> t in q && t.id != id
  {
    FilterMembers(q, Keeps(id), t);
  }

  /** A toast shown with a fresh id and then closed leaves the queue as it
      was before. */
  lemma ShowThenRemove(q: Queue, id: int, text: string, kind: Option<ToastType>, duration: Option<int>)
    requires forall i :: 0 <= i < |q| ==> q[i].id != id
    ensures Remove(Show(q, id, text, kind, duration), id) == q
  {
    var shown := Toast(id, kind.GetOr(Info), text, duration.GetOr(DefaultDuration));
    FilterConcat(q, [shown], Keeps(id));
    FilterAll(q, Keeps(id));
    FilterOne(shown, Keeps(id));
  }

  /** An error toast is shown in red and, once its timer fires, leaves the
      queue as it was. */
  lemma ShowErrorThenRemove(q: Queue, id: int, text: string, duration: Option<int>)
    requires forall i :: 0 <= i < |q| ==> q[i].id != id
    ensures Colour(ShowError(q, id, text, duration)[|q|].kind) == "bg-red-600"
    ensures Remove(ShowError(q, id, text, duration), id) == q
  {
    ShowThenRemove(q, id, text, Some(Error), duration);
  }

  /** Closing one toast does not disturb a toast shown later with another
      id. */
  lemma RemoveCommutesWithShow(q: Queue, id: int, other: int, text: string, kind: Option<ToastType>, duration: Option<int>)
    requires other != id
    ensures Remove(Show(q, other, text, kind, duration), id) == Show(Remove(q, id), other, text, kind, duration)
  {
    var shown := Toast(other, kind.GetOr(Info), text, duration.GetOr(DefaultDuration));
    FilterConcat(q, [shown], Keeps(id));
    FilterOne(shown, Keeps(id));
  }

  /** The background class of a toast. */
  function Colour(kind: ToastType): (c: string)
    ensures c == "bg-gray-800" <==> kind == Info
  {
    match kind
    case Error => "bg-red-600"
    case Success => "bg-green-600"
    case Warning => "bg-yellow-600"
    case Info => "bg-gray-800"
  }

  /** Every type has its own colour. */
  lemma ColourInjective(a: ToastType, b: ToastType)
    ensures Colour(a) == Colour(b) <==> a == b
  {
  }
}
